=== FILE: README.md ===
# A verified model of the jszb formula engine

The engine evaluates stock-indicator formulas such as
`DIF:EMA(CLOSE,12)-EMA(CLOSE,26); DEA:EMA(DIF,9);` over price series. It
has five parts, and each is modelled here as immutable Dafny data plus
pure functions:

- **Series and indicator library** (`values.dfy`, `elementwise.dfy`,
  `indicators.dfy`, `rolling.dfy`, `recurrence.dfy`).
  - A `Value` is an int scalar, a double scalar, or an array window of
    doubles.
  - A window is `Series(vals, no)`, where `no` is the number of its newest
    element, so `no >= |vals|`.
  - Every operator takes its previous output `R` and recomputes only the
    numbers from `bno` up to `X.no`. That is what makes a re-run after one
    more bar cheap.
  - Each operator is a total function. A loop method mirrors the C loop
    and is proved equal to that function, under a predicate that says
    when the C loop stays in bounds.
- **Lexer** (`lexer.dfy`, `literals.dfy`).
  - A cursor over the buffered text. `GetToken` returns the token, its
    start and length, and the moved cursor.
  - `Tokenize` lists the tokens up to the first `TK_EOF`.
- **Parser** (`ast.dfy`, `parser.dfy`, `parser_examples.dfy`, `unparser.dfy`).
  - Recursive descent over the token list, with the source's
    precedence climbing.
  - Errors go to a callback, modelled as an oracle `answer(n)` giving the
    reply to the `n`-th report.
  - An unparser writes a tree back as tokens, fully parenthesised, and
    parsing those tokens gives the tree back.
- **Interpreter** (`interp.dfy`, `interp_facts.dfy`).
  - A tree walk. Every call and binary node owns a cached value slot,
    named by its path in the tree, and the slot survives from one pass to
    the next.
  - Each statement keeps a pointer to the value its expression returned.
  - The registry of host variables and library functions is an abstract
    map.
- **String/Array primitives** (`base.dfy`, `memory.dfy`). Size and
  capacity bookkeeping over byte blocks.

`common.dfy` holds `Option` (the source's nullable pointers) and `Min`/`Max`.

Where the documentation and the code disagree, the model follows the code:

- `lexer.h` documents DECIMAL as `[0-9]*\.[0-9]+`. The lexer needs a
  leading digit and accepts a trailing point: `1.` is a decimal, and `.5`
  is an error token followed by `5`.
- The grammar in `parser.h` allows `F()`. `parseExprList` requires at
  least one expression, so `F()` is reported. The call node is still
  built, with no argument list.
- The grammar says nothing about how mixed operators nest. The precedence
  climbing keeps the rest of an expression inside the right operand after
  a tighter operator, so `1-2*3-4` is `1-((2*3)-4)`.
- A formula like `A:=2+3*4;` might be expected to give `A` the value 14.
  In the code, a scalar has size 0, so `ADD`/`MUL` return their null
  previous output. With asserts compiled out, `A` is never computed, and
  `parserGetIndicator` reports it absent (-1 and `-DBL_MAX`). With asserts
  compiled in, the first pass stops at `ADD`'s `assert(X && Y)`
  (indicators.cpp:121), because `MUL(3,4)` returns null.
- `parser.h` declares `parserGetIndicator` as returning a double.
  `parser.cpp` writes the number through a pointer and returns a code. The
  model follows `parser.cpp`.
- `parser.cpp` uses `VT_INT`, `e->value` and `st->value`, which the
  headers do not declare. The model takes behaviour from the function
  bodies.

## Model

| member | source | states |
|---|---|---|
| Memory.Realloc | base.cpp:105-111 | `realloc` to `n` cells keeps the old cells that still fit and fills the new ones |
| Memory.Store | base.cpp:112-114 | a block copy succeeds iff it lies inside the block; it writes exactly the copied cells and leaves every other cell as it was |
| Values.Append | indicators.h:22-24 | appending `k` bars keeps the first number and preserves `no >= size` |
| Values.Resize | indicators.cpp:45-57 | growing or shrinking a buffer keeps the surviving prefix |
| Values.TypeTag | indicators.h:8-25 | a value is exactly one of int, double or array: each tag holds iff its kind does |
| Values.ValueNew | indicators.cpp:21-33 | a new value has size 0, number 0 and a null, unowned buffer, and its capacity is whatever the memory held; its `type` tag is not set either (see Left out) |
| Values.ValueExtend | indicators.cpp:45-57 | `valueExtend` never changes size or number and keeps existing elements; on success capacity is at least the request, and a grown buffer is owned; on failure nothing changes |
| Values.ValueSet | indicators.cpp:59-71 | `valueSet` needs `0 <= i < size` and a buffer; it changes exactly element `i`, and `valueGet` then reads the new number |
| Values.ValueGet | indicators.cpp:59-64 | `valueGet` needs a buffer and `0 <= i < size`, and reads one of the `size` cells in use |
| Values.ExtendKeepsGet | indicators.cpp:45-64 | growing with `valueExtend` to at least the current size keeps every readable cell readable with the same number, whether or not the allocation succeeds |
| Values.NewThenExtendLeavesNull | indicators.cpp:21-57 | when the uninitialised capacity is at least the request, `valueExtend` on a new value reports success but leaves the buffer null, so no element can be read or written |
| Values.ValueNewFixed | indicators.cpp:21-33 | `valueNew` with capacity initialised to 0 |
| Values.FixedNewThenExtendOwns | indicators.cpp:21-57 | with capacity initialised, a successful `valueExtend` always yields an owned buffer of the requested size |
| Elementwise.Calc | indicators.cpp:116-336 | ADD/SUB/MUL/DIV: the result has `min(X.size, Y.size)` elements and `X.no`; the recomputed cells pair the operands from the tail by position; lower cells keep the previous output |
| Elementwise.OnValues | indicators.cpp:121-151 | a null, scalar or empty operand returns `R` unchanged (possibly null); otherwise, when `valueNew` or `valueExtend` fails, `R` is freed and the result is null, and when both succeed the result is an array of the shorter operand's length numbered `X.no`; a non-null `R` stays non-null exactly when growth succeeds or no growth is attempted |
| Elementwise.CalcLoop | indicators.cpp:155-166 | the source loop, from `X.no` down to `bno` with `xi`, `yi`, `ri` moving together, computes `Calc` whenever its writes stay inside `R` |
| Elementwise.FreshRunFailsAsserts | indicators.cpp:131 | the entry assert `R->no >= 1` fails on every first call, whose output is fresh with number 0 |
| Elementwise.LongerSecondOperandFailsAsserts | indicators.cpp:161 | the assert `yi < X->size` fails whenever `Y` is longer than `X` |
| Elementwise.FreshRunMeetsFixedAsserts | indicators.cpp:131-162 | the corrected asserts hold on the first call with valid operands, and that call recomputes every cell |
| Elementwise.IncrementalMatchesFresh | indicators.cpp:129-167 | after `k` bars are appended to both operands, re-running with the previous output equals a fresh run on the extended operands |
| Elementwise.PairsByNumberWhenAligned | indicators.cpp:156-165 | when `X.no == Y.no`, every recomputed cell combines the two elements carrying its own number |
| Elementwise.PairsByPositionNotNumber | indicators.cpp:156-165 | when the numbers differ, elements are still paired by position: `[1,2]`@2 plus `[10]`@1 gives `[12]`@2, although `Y` has no element number 2 |
| Elementwise.DivByZeroIsNaN | indicators.cpp:322-333 | a recomputed `DIV` cell is NaN wherever its divisor is zero; with finite operands it is NaN iff the divisor is zero, and otherwise it is the exact quotient; a NaN operand passes the `!= 0` test and gives NaN |
| Elementwise.DivTenByZero | indicators.cpp:321-334 | `DIV([10],[0])` is `[NaN]`, not an error |
| Indicators.Ref | indicators.cpp:341-360 | REF returns `R` unchanged for an empty `X` or `X.size < N`; otherwise it is the prefix `X.vals[..size-N]` numbered `X.no-N` |
| Indicators.RefIsTruncation | indicators.cpp:344-357 | every element of `REF(X,N)` is `X`'s element `N` numbers earlier |
| Indicators.DifferenceWithRef | indicators.cpp:341-360 | `X - REF(X,1)` at each number is the change from the previous bar |
| Indicators.ApplyMap | indicators.cpp:375-395 | `MAX(x,M)` is finite, at least `M`, and is `x` or `M`; `ABS(x)` is non-negative and is `x` or `-x` |
| Indicators.MapCalc | indicators.cpp:364-433 | MAX/ABS keep `X`'s size and number; the recomputed cells are the map of `X`; lower cells keep the previous output |
| Indicators.MapOnValue | indicators.cpp:366-378 | a null, scalar or empty `X` returns `R` unchanged; otherwise null when `valueNew` or `valueExtend` fails, and an array of `X`'s size when both succeed |
| Indicators.MapFreshRecomputesAll | indicators.cpp:364-397 | a first call recomputes every cell and stays in bounds |
| Indicators.MaxIsAtLeastBound | indicators.cpp:375-395 | every cell of `MAX(X,M)` is a number at least `M` |
| Indicators.MapLoop | indicators.cpp:385-395 | the source loop computes `MapCalc` whenever its writes stay inside `R` |
| Indicators.MapIncrementalMatchesFresh | indicators.cpp:364-397 | MAX/ABS re-run after appended bars equals a fresh run |
| Rolling.Calc | indicators.cpp:438-558 | HHV/LLV/MA as written: size `X.size-N+1`, number `X.no`; each recomputed cell folds the inner loop over the window the source visits; lower cells keep `R` |
| Rolling.OnValue | indicators.cpp:440-452 | a null, scalar, empty or too-short `X` returns `R` unchanged; otherwise null when `valueNew` or `valueExtend` fails, and an array of `X.size-N+1` cells numbered `X.no` when both succeed |
| Rolling.FreshRunOutOfBounds | indicators.cpp:449-466 | with a fresh `R` and `N > 1`, the loop drives `ri` below 0 |
| Rolling.WindowOneShort | indicators.cpp:466-471 | the inner loop stops at `count < N`, so each cell folds only `N-1` inputs |
| Rolling.MeanOfOneIsZero | indicators.cpp:546-555 | `MA(X,1)` is all zeros: the inner loop never runs and the seed is 0 |
| Rolling.ZeroWindowBreaksNumbering | indicators.cpp:438-476 | `HHV(X,0)` gives size `X.size+1`, which breaks `no >= size` |
| Rolling.MeanExampleAsWritten | indicators.cpp:522-558 | `MA([1,2,3,4],2)` as written differs from the documented 2-bar mean `[1.5,2.5,3.5]` |
| Rolling.CellLoop | indicators.cpp:465-471 | the inner loop computes the as-written cell |
| Rolling.CalcLoop | indicators.cpp:460-474 | the outer loop computes `Rolling.Calc` whenever its writes stay inside `R` |
| Rolling.CalcFixed | indicators.h:80-83 | HHV/LLV/MA as intended: each recomputed cell folds the whole window `X[p..p+N)` |
| Rolling.FixedInBounds | indicators.cpp:449-466 | the corrected start keeps every write inside `R` |
| Rolling.FixedFreshRecomputesAll | indicators.cpp:449-466 | a corrected first call recomputes every cell |
| Rolling.SumFold | indicators.cpp:549-552 | the MA inner loop adds up its window |
| Rolling.HighFold | indicators.cpp:465-471 | the HHV inner loop yields an element of its window that is at least every element |
| Rolling.LowFold | indicators.cpp:506-512 | the LLV inner loop yields an element of its window that is at most every element |
| Rolling.FixedHighestIsWindowMax | indicators.cpp:438-476 | corrected HHV is the maximum of the last `N` bars |
| Rolling.FixedLowestIsWindowMin | indicators.cpp:479-517 | corrected LLV is the minimum of the last `N` bars |
| Rolling.FixedMeanIsWindowAverage | indicators.h:80-83 | corrected MA is the mean of the last `N` bars, as documented |
| Rolling.MeanExampleFixed | indicators.h:80-83 | corrected `MA([1,2,3,4],2)` is `[1.5,2.5,3.5]` |
| Rolling.FixedIncrementalMatchesFresh | indicators.cpp:438-558 | corrected HHV/LLV/MA re-run after appended bars equals a fresh run |
| Recurrence.SmoothingAlgebra | indicators.h:85-95 | `(y*d + w*(x-y))/d` is `y + (w/d)*(x-y)` |
| Recurrence.EmaIsSmoothing | indicators.h:85-89 | the code's EMA step `(2X + Y'(M-1))/(M+1)` is smoothing with weight `2/(M+1)`, as documented |
| Recurrence.SmaIsSmoothing | indicators.h:91-95 | the code's SMA step `(X*M + Y'(N-M))/N` is smoothing with weight `M/N`, as documented |
| Recurrence.BlendIsSmoothing | indicators.cpp:586-600 | both steps move the previous output toward `X` by their weight |
| Recurrence.Blend | indicators.cpp:594-596 | the EMA step (and the SMA step of indicators.cpp:640) is NaN exactly when the input or the previous output is NaN; on numbers it is the smoothing step of `BlendIsSmoothing` |
| Recurrence.BlendFixesConstant | indicators.cpp:586-644 | a constant input is a fixed point of the step |
| Recurrence.Run | indicators.cpp:583-601 | the forward loop: cells below the start keep `R`, the first cell is seeded with `X[0]`, each later cell is the step on its predecessor |
| Recurrence.Calc | indicators.cpp:564-646 | EMA/SMA keep `X`'s size and number; they seed with `X[0]` on a full recompute, and each recomputed cell is the step on the cell before |
| Recurrence.OnValue | indicators.cpp:566-578 | a null, scalar or empty `X` returns `R` unchanged; otherwise null when `valueNew` or `valueExtend` fails, and an array of `X`'s size numbered `X.no` when both succeed |
| Recurrence.FreshRunSeeds | indicators.cpp:583-590 | a first call stays in bounds and seeds `R[0] = X[0]` |
| Recurrence.FiniteInFiniteOut | indicators.cpp:586-600 | finite inputs give finite outputs |
| Recurrence.NaNTripsValidity | indicators.cpp:595 | a NaN input propagates to the next cell, where the `isValueValid` assert fails |
| Recurrence.ConstantIsFixed | indicators.cpp:564-646 | EMA/SMA of a constant series is that constant |
| Recurrence.CalcLoop | indicators.cpp:583-601 | the source loop computes `Calc` whenever its indices stay non-negative |
| Recurrence.Forward | indicators.cpp:586-600 | the loop from `bno` to `X.no` fills each cell with the step on the one before, and leaves later cells of `R` as they were |
| Recurrence.IncrementalAgreesAt | indicators.cpp:583-601 | each cell of a re-run after appended bars equals the fresh run's cell |
| Recurrence.IncrementalMatchesFresh | indicators.cpp:564-646 | EMA/SMA re-run after appended bars equals a fresh run on the extended input |
| Base.StringInit | base.cpp:81-94 | size 0; success iff the request is non-positive or allocation succeeds; capacity `requested+1` on success even when nothing was allocated; failure leaves capacity 0 |
| Base.Put | base.cpp:112-114 | the copy and terminator succeed iff they fit in the buffer |
| Base.StringAdd | base.cpp:103-116 | on success size grows by `len`, `str` is appended after the old bytes with a NUL after it, and capacity grows by exactly `len+1` when needed; failure leaves the string unchanged |
| Base.InitPositiveIsBacked | base.cpp:81-94 | a positive request gives a buffer matching the recorded capacity |
| Base.EmptyInitThenEmptyAddFaults | base.cpp:81-116 | `stringInit(s,0)` succeeds with capacity 1 and a null buffer, so `stringAdd(s,"",0)` writes the NUL through null |
| Base.StringInitFixed | base.cpp:81-94 | `stringInit` recording capacity 0 when it allocates nothing |
| Base.FixedStringNeverFaults | base.cpp:81-116 | with that correction every string is sound and every `stringAdd` completes |
| Base.SoundAddStaysSound | base.cpp:103-116 | `stringAdd` keeps `size+1 <= capacity` and a buffer of exactly `capacity` bytes |
| Base.ArrayInit | base.cpp:123-134 | size 0 and capacity as requested on success; -1 with capacity 0 when allocation fails |
| Base.ArrayAdd | base.cpp:143-157 | the new slot is at byte `objectSize*size` and size grows by 1; with room, nothing else changes; when full, the block is reallocated to `capacity*2` bytes, which can shrink it, the recorded capacity doubles, and only the bytes below the new length are kept; a failed allocation changes nothing |
| Base.RoomySlotFits | base.cpp:153-156 | while there is room, the returned slot lies inside the block |
| Base.GrowingSlotOutside | base.cpp:146-151 | after growth by `capacity*2` bytes, the new slot lies outside the block whenever objects are wider than 1 byte |
| Base.ZeroCapacityNeverGrows | base.cpp:146-151 | a capacity of 0 never grows, and the first slot is outside the block |
| Base.Pushes | base.cpp:143-157 | `k` successful pushes keep the object size, and while they fit in the capacity they only raise the size by `k` |
| Base.NinthStatementFaults | base.cpp:143-157 | an array of 8 pointers holding 8 elements (the formula's statement list) is reallocated from 64 bytes to 16, losing six of the stored pointers, and the 9th slot at byte 64 is outside |
| Base.ArrayAddFixed | base.cpp:143-157 | `arrayAdd` growing by `capacity*2*objectSize` bytes, with a capacity of 0 growing to 1 |
| Base.FixedPushFits | base.cpp:143-157 | with that correction every returned slot lies inside the block and the block tracks the capacity |
| Lexer.Ordinal | lexer.h:6-24 | every token has an enumerator value below `TK_ALL` |
| Lexer.FromOrdinal | lexer.h:6-24 | the values below `TK_ALL` are exactly the tokens |
| Lexer.OrdinalRoundTrip | lexer.h:6-24 | enumerator value and token convert back and forth: the token kinds form a closed set |
| Lexer.LexerNew | lexer.cpp:38-50 | null code, empty buffer, cursor 0, line 1, position 0 |
| Lexer.LexerExtend | lexer.cpp:60-70 | growing the buffer never changes size or cursor; failure changes nothing |
| Lexer.LexerRead | lexer.cpp:99-107 | on success old bytes are kept, `str` is appended at the old size, size grows by `len`, `code[size]` is NUL, and line and position are unchanged |
| Lexer.SkipSpace | lexer.cpp:165-171 | the first non-space position from the cursor |
| Lexer.MatchId | lexer.cpp:109-127 | the end of the maximal run of letters and digits |
| Lexer.MatchNumber | lexer.cpp:129-151 | the maximal run of digits with at most one point; it reports a point iff one was taken; a second point stops the run |
| Lexer.PunctTokens | lexer.cpp:190-214 | exactly the eight characters `;(),+-*/` are single-character tokens, each one of the eight punctuator tokens |
| Lexer.PunctInjective | lexer.cpp:190-214 | distinct punctuator characters give distinct tokens |
| Lexer.GetToken | lexer.cpp:153-216 | only the cursor moves, never backward and never past `size`; EOF iff no start, with length 0 at the end; any other token advances the cursor and starts at the first non-space character; an error token has length 0 and consumes one character; the result is never `TK_NONE` |
| Lexer.EofIsSticky | lexer.cpp:161-171 | after EOF every call returns EOF and changes nothing |
| Lexer.EofIffOnlySpaceLeft | lexer.cpp:161-171 | EOF iff the code is null or only white space is left |
| Lexer.IdShape | lexer.cpp:109-127 | an identifier token is a letter followed by the maximal run of letters and digits, and the cursor ends just past it |
| Lexer.NumberWord | lexer.cpp:129-151 | the number matched from a digit has the INT shape or the code's DECIMAL shape |
| Lexer.NumberShape | lexer.cpp:129-151 | a number token is INT iff no point was taken, and DECIMAL otherwise |
| Lexer.ColonShape | lexer.cpp:180-189 | `:` followed by `=` gives `:=` of length 2, otherwise `:` of length 1, including at the end of input |
| Lexer.SingleCharShape | lexer.cpp:190-215 | each of `; ( ) , + - * /` gives its token of length 1; any other character gives an error token of length 0 and is consumed |
| Lexer.IdMatchesDoc | lexer.h:7 | a word lexes whole as one identifier iff it matches `[a-zA-Z][a-zA-Z0-9]*` |
| Lexer.TrailingPointIsDecimal | lexer.h:9 | `1.` lexes as a decimal, although it does not match the documented `[0-9]*\.[0-9]+` |
| Lexer.LeadingPointIsError | lexer.h:9 | `.5` matches the documented decimal, but lexes as an error token followed by `5` |
| Lexer.Tokenize | lexer.cpp:245-262 | the token list ends with its only EOF, so the parser can consume it whole, and starts with the next token |
| Literals.DigitRun | parser.cpp:602-609 | the length of the leading run of digits, which `atoi` reads up to |
| Literals.Show | parser.cpp:602-609 | a decimal spelling of every natural number is all digits |
| Literals.ValueShow | parser.cpp:602-609 | the digits of `n` denote `n` |
| Literals.AtoiShow | parser.cpp:602-609 | `atoi` of an INT token's text reads back the number written |
| Literals.AtofSplits | parser.cpp:611-618 | `atof("a.b")` is `a + b/10^|b|` |
| Literals.AtoiOfDigits | parser.cpp:608 | `atoi` of a word of digits is its decimal value; a word not starting with a digit reads as 0 |
| Literals.AtofOfDigits | parser.cpp:617 | `atof` is at least `atoi` of the same text, and equals it on a word without a point |
| Ast.NodeTag | parser-impl.h:10-22 | node tags lie just above `TK_ALL` |
| Ast.NodeTagsAreNotTokens | parser-impl.h:10-22 | a node tag never equals a token tag, and distinct node types have distinct tags |
| Ast.TypeOf | parser-impl.h:37-80 | an expression node is one of the five expression types, never a formula, statement or list |
| Parser.Prec | parser.cpp:647-657 | `+`/`-` have 10, `*`/`/` have 20, everything else -1 |
| Parser.Advance | parser.cpp:602-638 | reading the next token keeps the reports; once the list is used up the token is EOF; the measure never grows |
| Parser.Start | parser.cpp:485-504 | `parserNew` leaves nothing read, no report and `isquit` clear, and the first read yields the first token (EOF for no tokens) |
| Parser.HandleError | parser.cpp:520-529 | exactly one report is added, with severity 0 for a missing `;` and 1 otherwise; abort iff there is no callback or it answers nonzero; `isquit` is set on abort |
| Parser.ParseExprList | parser.cpp:533-566 | a list holds at least one expression, and every expression is well formed |
| Parser.ListLoop | parser.cpp:539-557 | each comma adds one expression |
| Parser.ParseIdOrCall | parser.cpp:568-596 | an identifier or call node, well formed, consuming input |
| Parser.ParseUnary | parser.cpp:598-639 | only INT, DECIMAL, ID/call or a parenthesised expression start a node, and a node consumes input |
| Parser.ParseBin | parser.cpp:659-697 | precedence climbing from an operator yields a well-formed node whose binary operators are arithmetic |
| Parser.ParseExpr | parser.cpp:699-719 | a unary, then climbing while an operator follows |
| Parser.ParseStmt | parser.cpp:721-751 | a statement keeps the name and the `:=`/`:` op, ends at `;`, and always consumes input |
| Parser.FormulaLoop | parser.cpp:753-783 | statements are appended in source order and reports are only added |
| Parser.ParseFormula | parser.cpp:753-783 | every statement of the formula is well formed |
| Parser.ParserParse | parser.cpp:824-849 | on a parser in any carried state, the return is 0 iff allocation succeeds iff a syntax tree exists, even with syntax errors; a failed allocation changes nothing; reports only accumulate and a set `isquit` stays set |
| Parser.Resume | parser.cpp:491-497 | a later parse starts from the carried `isquit` and reports, and on a fresh parser this is the start `parserNew` gives |
| Parser.QuitStays | parser.cpp:753-783 | no path through `parseFormula` clears `isquit` |
| Parser.UnaryStarts | parser.cpp:598-639 | a unary fails without a report on any other token, including a leading `-` |
| Parser.StmtReports | parser.cpp:721-751 | a bad assignment token is reported with severity 1, and a missing `;` with severity 0 |
| Parser.EmptyCallReported | parser.cpp:539-557 | `F()` gives one report, yet the call node is still built, with no argument list |
| Parser.UnclosedCallReported | parser.cpp:576-588 | a call whose arguments are not closed by `)` is reported |
| Parser.TwoOperators | parser.cpp:659-697 | `a o1 b o2 c` nests to the right iff `o2` binds tighter than `o1`, and to the left otherwise |
| Parser.TighterMiddleNestsRight | parser.cpp:679-694 | `a o1 b o2 c o3 d` with `o2` tightest and `o3` no tighter keeps `c o3 d` inside the right operand |
| ParserExamples.MixedPrecedenceNestsRight | parser.cpp:679-694 | `1-2*3-4` parses as `SUB(1, SUB(MUL(2,3),4))` |
| ParserExamples.UsualPrecedence | parser.cpp:647-719 | `2+3*4` is `ADD(2,MUL(3,4))`, `2*3+4` is `ADD(MUL(2,3),4)`, and `a-b-c` and `a/b*c` nest to the left |
| ParserExamples.LeadingMinusDropsStatement | parser.cpp:721-751 | for `x := -...`, `parseStmt` fails without adding a report and stops at the `-`, with the rest unread |
| ParserExamples.QuitParserStopsAtFailure | parser.cpp:763-768 | on a parser an earlier parse left with `isquit` set, `x := -d;` ends at the failed statement whatever the callback answers: no statement, no new report, `d` and `;` unread |
| ParserExamples.LeadingMinusReportsRest | parser.cpp:753-783 | as a whole formula, `x := -d;` parses to no statement with two bad-token reports, one for `d` and one for `;` |
| ParserExamples.TailReported | parser.cpp:760-778 | an integer and a `;`, neither of which can start a statement, are each reported, and then EOF ends the formula with no statement added |
| ParserExamples.UnclosedParenDropsStatement | parser.cpp:622-636 | `x := (5;` is dropped with no report |
| ParserExamples.LiteralStatement | parser.h:12-17 | `x op d;` parses to one statement with the integer value of `d` |
| ParserExamples.LiteralStatementAppended | parser.cpp:753-783 | after `x op d;` parsing continues with that statement appended |
| ParserExamples.TwoStatementsInOrder | parser.h:9-17 | `x op1 d1; y op2 d2;` gives both statements, in source order, with no report |
| ParserExamples.LiteralStatementAt | parser.cpp:753-783 | the formula loop appends `x op d;` as one statement and goes on from its `;` |
| ParserExamples.TwoLiteralStatements | parser.cpp:753-783 | `x op1 d1; y op2 d2;` then EOF give both statements in order and add no report |
| ParserExamples.EofEndsFormula | parser.cpp:753-783 | reading EOF ends the formula |
| ParserExamples.BlankTextIsEmptyFormula | parser.h:9-11 | blank text parses to a formula with no statements and no report |
| Unparser.WritableIsWellFormed | parser-impl.h:37-80 | every tree the unparser can write satisfies the parser's well-formedness predicate |
| Unparser.UnaryRoundTrip | parser.cpp:598-639 | `parseUnaryExpr` on the tokens of a writable tree returns that tree and leaves the following token current, whenever that token is not `(` |
| Unparser.ExprRoundTrip | parser.cpp:699-719 | `parseExpr` does the same when the following token also is not an arithmetic operator |
| Unparser.ListRoundTrip | parser.cpp:533-566 | `parseExprList` reads a comma-separated list of written arguments whole, appending them in order |
| Unparser.StmtRoundTrip | parser.cpp:721-751 | `parseStmt` reads a written statement back with its name and operator, and stops at its `;` |
| Unparser.StmtsRoundTrip | parser.cpp:753-783 | the formula loop appends every written statement in order, stops at EOF, and adds no report |
| Unparser.ParseUnparse | parser.h:6-32 | parsing the written tokens of a formula gives back the same formula with no report, whatever the error callback |
| Interp.SlotPtr | parser.cpp:282-289 | a node's pointer is non-null iff its slot holds a value |
| Interp.Put | parser.cpp:306-314 | storing into a node's slot changes that slot only |
| Interp.FindVariable | parser.cpp:134-145 | the index of the first statement with the name, or none when no statement has it |
| Interp.Eval | parser.cpp:194-321 | evaluation changes no statement pointer and no slot outside the node's subtree; the pointer returned is the node's own (literal constant, resolved variable, or own slot); with value-keeping functions a set slot stays set |
| Interp.Resolve | parser.cpp:220-238 | a host variable of the name wins; otherwise a non-null result is the pointer of a statement with that name, and a name no statement has resolves to null |
| Interp.EvalCall | parser.cpp:262-290 | a call's arguments are evaluated first; only its own subtree changes; it returns its own slot |
| Interp.EvalBinary | parser.cpp:292-321 | both operands, then the operator with the node's previous value; only its own subtree changes |
| Interp.EvalArgs | parser.cpp:240-260 | one pointer per argument, and the call's own slot is left alone |
| Interp.ExecStmt | parser.cpp:168-192 | running statement `k` changes only its own pointer and the slots under it |
| Interp.RunTo | parser.cpp:147-166 | statements run in order; statements not yet reached are untouched |
| Interp.PassSetsOnce | parser.cpp:147-166 | after a pass over the formula, each statement's pointer is the one it set when it ran; no later statement changes it |
| Interp.PassesPointer | parser.cpp:851-861 | after the `n+1`-th `parserInterp`, statement `k` holds the pointer its expression returned in that pass, evaluated after the statements before it |
| Interp.Initial | parser.cpp:344-363 | a freshly parsed formula has every pointer null and no cached value |
| Interp.ParserInterp | parser.cpp:851-861 | -1 and no change without a syntax tree, otherwise 0 after one pass |
| Interp.GetIndicator | parser.cpp:863-883 | -1 with `-DBL_MAX` iff the name has no statement or its value is null; the newest element (number `no`) of an array; the `valueGet` assert fails on an empty array; 0 only when a statement has the name |
| InterpFacts.IdentResolution | parser.cpp:220-238 | an identifier resolves to a registered variable first, otherwise the pointer of the first statement with that name (a later one or itself included), otherwise null |
| InterpFacts.UnknownFunctionKeepsValue | parser.cpp:282-289 | a call of an unregistered name keeps its cached value |
| InterpFacts.LiteralOperandKeepsValue | parser.cpp:306-314 | a binary node with a literal operand keeps its previous value |
| InterpFacts.ExecKeepsPointer | parser.cpp:186-187 | re-running a statement whose pointer is set hands back the same pointer |
| InterpFacts.ExecKeepsInv | parser.cpp:168-192 | every non-null statement pointer stays equal to what its expression would return |
| InterpFacts.RunKeepsInv | parser.cpp:147-166 | the same across a sequence of statements, which also keep every set pointer |
| InterpFacts.PassesKeepInv | parser.cpp:851-861 | every state reached by repeated `parserInterp` keeps the invariant |
| InterpFacts.StmtPointerCheckHolds | parser.cpp:186 | the check `e->value == 0 \|\| e->value == v` holds at every statement of every pass |
| InterpFacts.PointerIsSetOnce | parser.cpp:186-187 | once set, a statement's pointer never changes in a later pass |
| InterpFacts.OtherStmtLeavesNull | parser.cpp:147-166 | running another statement leaves a null pointer and empty slot alone |
| InterpFacts.ExecNullShape | parser.cpp:292-321 | `A : A op x` and arithmetic with a literal operand keep a null pointer null |
| InterpFacts.NullShapeStaysNull | parser.cpp:147-192 | such a statement is null after every pass and reads as absent |
| InterpFacts.SelfReferenceStaysNull | parser.cpp:220-238 | `A : A op x` is never computed and reads as absent |
| InterpFacts.TwoPlusThreeTimesFourIsAbsent | parser.cpp:306-314 | `A:=2+3*4;` leaves `A` absent after every pass: -1 with `-DBL_MAX` |
| InterpFacts.LiteralStatementReads | parser.cpp:863-883 | a statement bound to an integer literal reads as that integer from the first pass on |
| InterpFacts.ForwardReferenceLagsOnePass | parser.cpp:157-161 | `A : B; B : e;` leaves `A` null after the first pass and gives it `B`'s pointer from the second |

## Left out

- Allocation failure inside the parser and interpreter (`*New`, `arrayAdd` growth in `parseFormula` and `parseExprList`) is not modelled. There the statement and argument arrays are plain sequences with the corrected growth. The as-written fault is shown on its own in `Base.NinthStatementFaults`.
- The registry (`registerVariable`, `findVariable`, `registerFunction`, `findFunction`, `indicatorInit`) is declared in `indicators.h` but defined in no file here. It is an abstract map of host values and library functions. The adapter from `(argc, args)` to typed parameters is not visible either, so library functions are opaque Dafny functions.
- `Interp.Keeps`: the theorem that pointers never move assumes library functions keep a non-null previous output non-null. The indicator operators do, except when allocation fails (their `grown` parameter).
- StmtPointerCheckHolds: proves the assert at parser.cpp:186 only for library functions of the `Interp.Builtin` shape. Such a function returns its own `R` when `R` is non-null and keeps it non-null (`Interp.Keeps`). `funcCallInterp` stores whatever pointer the function returns (parser.cpp:284), so a registered function that handed back another pointer, such as one of its arguments, would move the statement's pointer and fire the assert. Every operator in indicators.cpp returns `R`, a fresh value for a null `R`, or null.
- PointerIsSetOnce: rests on the same assumption as `StmtPointerCheckHolds`. A library function is taken to return its own non-null `R`, never another pointer.
- Interp.EvalBinary: calls `Elementwise.OnValues` with `grown` true, so the interpreter takes the operators' `valueNew`/`valueExtend` to succeed. When they fail, the source frees the node's value and stores null, and a statement whose pointer was set then trips the assert at parser.cpp:186. That path is not modelled.
- Interp.GetIndicator: dispatches on the kind of value (`IntV`, `DoubleV`, `ArrayV`), so an operator result counts as an array. In the source, `valueNew` (indicators.cpp:21-33) never sets `type`, and no operator sets it later, while `parserGetIndicator` switches on it (parser.cpp:870-878). What an unset tag reads as is undefined, so the model assumes the array tag.
- Quote accessors `OPEN`/`HIGH`/`LOW`/`CLOSE` are trivial reads of host data; they become registry entries.
- IEEE detail is left out. Numbers are exact reals with NaN as a marker, and rounding in EMA/SMA is not modelled. `atoi` is exact, without 32-bit overflow. The `abs(double)` overload is taken to be the mathematical absolute value.
- The operators' entry asserts on null operands (`assert(X && Y)` at indicators.cpp:121, 175, 229 and 283, and `assert(X ...)` in every one-operand operator) are taken as compiled out. `Elementwise.OnValues`, `Indicators.Ref`, `Indicators.MapOnValue`, `Rolling.OnValue`, `Recurrence.OnValue`, `Interp` and `InterpFacts` model that build: a null operand returns the previous output `R`. With asserts compiled in, such a call aborts instead.
- REF returns a view that aliases `X`'s buffer. It is modelled as a copy of the prefix, which has the same elements.
- Host pointers are stable across passes, and `parserInterp`'s `userdata` is not modelled.
- Logging (`doLog` and the log macros), `token2str` and the interpretation depth counter are left out: they do console I/O only.
- File input (`lexerReadFile`, `parserParseFile`) is left out: it is file I/O in front of `lexerRead`/`parserParse`.
- Freeing (`nodeFree`, the `*Clean` functions, `valueFree`, `parserFree`, `stringFree`, `arrayFree`) is not modelled, because values are immutable.
- Line and position tracking: `lineno`/`charpos` are set only by `lexerNew`, so every report carries line 1, position 0.
- Lexer.GetToken: the buffer is a sequence of `char`, one per C byte. A character outside ASCII is not split into bytes by the model: given as one `char`, it is one error token and one report, where the source sees its 2 to 4 encoded bytes and reports each. Given as its encoded bytes, it behaves as in the source.
- Lexer.GetToken: the `value` pointer is given as a start index into the buffer, and the token text is copied into the token list.
- Parser.ParseBin: proved well formed and terminating. How it nests is shown on concrete operator patterns, not by a general associativity law, because the source's climbing has none.
- Unparser.ParseUnparse: the round trip covers non-negative integer literals, names, calls with at least one argument and arithmetic nodes. Decimal literals, negative integers and calls with no argument list have no written form. It starts from tokens, not text, so the lexer is not part of it.

## Findings

| source | as written | input that shows it | evidently intended | confidence | as-written member | corrected member |
|---|---|---|---|---|---|---|
| indicators.cpp:131 | `assert(R->no >= 1 && ...)` on entry to ADD/SUB/MUL/DIV | any first call: `R` is fresh with `no == 0` | `R->no >= 0`, since `bno` already handles `R->no == 0` | not executed | Elementwise.FreshRunFailsAsserts | Elementwise.FreshRunMeetsFixedAsserts |
| indicators.cpp:161 | `assert(yi >= 0 && yi < X->size)` | `ADD([1],[1,2])`: first `yi` is 1 | `yi < Y->size` | not executed | Elementwise.LongerSecondOperandFailsAsserts | Elementwise.FreshRunMeetsFixedAsserts |
| indicators.cpp:456-471 | HHV/LLV/MA start at `bno = xbno` and fold while `count < N` | `MA([1,2,3,4],2)` on a fresh `R`: `ri` reaches -1, and each cell sums one element | start at the first number with a full window, fold `N` elements | not executed | Rolling.FreshRunOutOfBounds | Rolling.CalcFixed |
| indicators.cpp:550-553 | MA divides an `N-1`-element sum by `N` | `MA([1,2,3,4],2)` | the `N`-bar mean of indicators.h:80-83 | not executed | Rolling.MeanExampleAsWritten | Rolling.FixedMeanIsWindowAverage |
| indicators.cpp:21-33 | `valueNew` leaves `capacity` uninitialised | a new value whose stale capacity is at least the first request: `valueExtend` succeeds with a null buffer | `capacity = 0` | not executed | Values.NewThenExtendLeavesNull | Values.FixedNewThenExtendOwns |
| base.cpp:147 | `realloc(arr->data, arr->capacity * 2)` grows by bytes, not objects | the 9th statement of a formula (8 pointer-sized slots at capacity 8): the block becomes 16 bytes and the slot is at byte 64 | `capacity * 2 * objectSize` bytes | not executed | Base.NinthStatementFaults | Base.FixedPushFits |
| base.cpp:90-92 | `stringInit(s, 0)` records capacity 1 with a null buffer | `stringInit(s,0)` then `stringAdd(s,"",0)` writes NUL through null | record capacity 0 when nothing is allocated | not executed | Base.EmptyInitThenEmptyAddFaults | Base.FixedStringNeverFaults |

=== FILE: ast.dfy ===
/** The syntax tree of `parser-impl.h`: a formula is an ordered list of
    statements `ID (':=' | ':') expr ';'`, and an expression is a literal,
    an identifier, a function call or a binary operation. */
module Ast {
  import opened Common
  import opened Lexer

  /** `enum NodeType`, in declaration order after `TK_ALL`. */
  datatype NodeType =
    | NtNone | NtFormula | NtStmt | NtIntExpr | NtDecimalExpr | NtIdExpr
    | NtFuncCall | NtExprList | NtBinaryExpr | NtAll

  /** The enumerator value of a node type: `NT_NONE` is `TK_ALL + 1`. */
  function NodeTag(t: NodeType): (n: int)
    ensures TK_ALL < n <= TK_ALL + 10
  {
    TK_ALL + 1 + match t
      case NtNone => 0 case NtFormula => 1 case NtStmt => 2 case NtIntExpr => 3
      case NtDecimalExpr => 4 case NtIdExpr => 5 case NtFuncCall => 6 case NtExprList => 7
      case NtBinaryExpr => 8 case NtAll => 9
  }

  /** A node tag never equals a token tag, and distinct node types have
      distinct tags. */
  lemma NodeTagsAreNotTokens(t: NodeType, u: NodeType, k: Token)
    ensures NodeTag(t) != Ordinal(k)
    ensures NodeTag(t) == NodeTag(u) ==> t == u
  {
  }

  /** The operator of a statement: `TK_COLON_EQ` (a variable) or
      `TK_COLON` (an output indicator). */
  type StmtOp = t: Token | t == ColonEq || t == Colon witness ColonEq

  /** `IntExpr`, `DecimalExpr`, `IdExpr`, `FuncCall` and `BinaryExpr`. */
  datatype Expr =
    | IntLit(i: int)
    | DecLit(f: real)
    | Ident(name: seq<char>)
    | Call(name: seq<char>, args: Args)
    | Binary(lhs: Expr, op: Token, rhs: Expr)

  /** The `ExprList` of a call, which may be a null pointer. */
  datatype Args = NoList | ExprList(exprs: seq<Expr>)

  datatype Stmt = Stmt(id: seq<char>, op: StmtOp, expr: Expr)

  datatype Formula = Formula(stmts: seq<Stmt>)

  /** The node type an expression is built with. */
  function TypeOf(e: Expr): (t: NodeType)
    ensures t != NtNone && t != NtFormula && t != NtStmt && t != NtExprList && t != NtAll
  {
    match e
    case IntLit(_) => NtIntExpr
    case DecLit(_) => NtDecimalExpr
    case Ident(_) => NtIdExpr
    case Call(_, _) => NtFuncCall
    case Binary(_, _, _) => NtBinaryExpr
  }

  /** The tokens `binaryExprInterp` has a case for. */
  predicate ArithTok(t: Token)
  {
    t == AddTk || t == SubTk || t == MulTk || t == DivTk
  }

  /** Every binary node carries one of the four arithmetic tokens, so the
      `assert(0)` default of `binaryExprInterp` is unreachable. */
  predicate WellFormed(e: Expr)
    decreases e
  {
    match e
    case Binary(l, op, r) => ArithTok(op) && WellFormed(l) && WellFormed(r)
    case Call(_, ExprList(es)) => forall a :: a in es ==> WellFormed(a)
    case _ => true
  }
}

=== FILE: base.dfy ===
/** The growable `String` and `Array` of `base.cpp`.

    A record keeps `size`, `capacity` and a buffer; the buffer is `None`
    for a null pointer and otherwise holds exactly the cells the allocator
    handed out. `allocOk` is the allocator's answer to the one request an
    operation may make. Writes outside the buffer are `Fault`s. */
module Base {
  import opened Common
  import opened Memory

  newtype byte = x: int | 0 <= x < 256

  const NUL: char := '\0'

  // -------------------------------------------------------------------
  // String
  // -------------------------------------------------------------------

  datatype Str = Str(data: Option<seq<char>>, size: int, capacity: int)

  /** Return code and record of `stringInit`. */
  datatype StrInit = StrInit(ret: int, s: Str)

  /** `stringInit(s, capacity)`: a buffer of `capacity + 1` chars when
      `capacity > 0`; for `capacity <= 0` no buffer, yet the recorded
      capacity is still `capacity + 1`. */
  function StringInit(capacity: int, allocOk: bool): (r: StrInit)
    ensures r.s.size == 0
    ensures r.ret == 0 <==> capacity <= 0 || allocOk
    ensures r.ret != 0 ==> r.ret == -1 && r.s.capacity == 0
    ensures r.ret == 0 ==> r.s.capacity == capacity + 1
    ensures capacity <= 0 ==> r.s.data.None?
    ensures capacity > 0 && allocOk ==> r.s.data.Some? && |r.s.data.value| == capacity + 1
  {
    if capacity > 0 then
      if allocOk then StrInit(0, Str(Some(seq(capacity + 1, _ => NUL)), 0, capacity + 1))
      else StrInit(-1, Str(None, 0, 0))
    else StrInit(0, Str(None, 0, capacity + 1))
  }

  /** The bookkeeping `stringAdd` relies on: a real buffer of `capacity`
      chars with room for the terminator after `size`. */
  predicate Backed(s: Str)
  {
    s.data.Some? && |s.data.value| == s.capacity && 0 <= s.size < s.capacity
  }

  /** Outcome of `stringAdd`: its return code and the record, or a write
      outside the buffer. */
  datatype Added = Added(ret: int, s: Str) | Faulted

  /** The copy `memcpy(&data[size], str, len)` and the terminator write
      `data[size] = '\0'` after `size += len`. */
  function Put(s: Str, str: seq<char>): (r: Added)
    ensures r.Added? <==> s.data.Some? && 0 <= s.size && s.size + |str| + 1 <= |s.data.value|
  {
    if s.data.None? then Faulted
    else match Store(s.data.value, s.size, str)
      case Fault => Faulted
      case Stored(b) =>
        match Store(b, s.size + |str|, [NUL])
        case Fault => Faulted
        case Stored(b') => Added(0, Str(Some(b'), s.size + |str|, s.capacity))
  }

  /** Room for `str` and the terminator within the recorded capacity. */
  predicate Fits(s: Str, str: seq<char>)
  {
    |str| + s.size + 1 <= s.capacity
  }

  /** `stringAdd(s, str, len)` with `len == |str|`: grows the buffer by
      exactly `len + 1` when the recorded capacity is short, then appends
      `str` and a terminator. */
  function StringAdd(s: Str, str: seq<char>, allocOk: bool): (r: Added)
    ensures !Fits(s, str) && (!allocOk || s.capacity + |str| + 1 < 0) ==> r == Added(-1, s)
    ensures Backed(s) && (Fits(s, str) || allocOk) ==>
      r.Added? && r.ret == 0 && Backed(r.s)
      && r.s.size == s.size + |str|
      && r.s.capacity == (if Fits(s, str) then s.capacity else s.capacity + |str| + 1)
      && r.s.data.value[..s.size] == s.data.value[..s.size]
      && r.s.data.value[s.size .. s.size + |str|] == str
      && r.s.data.value[s.size + |str|] == NUL
  {
    var len := |str|;
    if len + s.size + 1 > s.capacity then
      var n := s.capacity + len + 1;
      if !allocOk || n < 0 then Added(-1, s)
      else
        var prev := if s.data.Some? then s.data.value else [];
        Put(Str(Some(Realloc(prev, n, NUL)), s.size, n), str)
    else Put(s, str)
  }

  /** A positive initial capacity gives a backed string. */
  lemma InitPositiveIsBacked(capacity: int)
    requires capacity > 0
    ensures StringInit(capacity, true).ret == 0 && Backed(StringInit(capacity, true).s)
  {
  }

  /** `stringInit(s, 0)` records capacity 1 over a null buffer, so adding
      the empty string skips the reallocation and writes the terminator
      through the null pointer. */
  lemma EmptyInitThenEmptyAddFaults(allocOk: bool, allocOk': bool)
    ensures StringInit(0, allocOk).ret == 0
    ensures StringAdd(StringInit(0, allocOk).s, [], allocOk').Faulted?
  {
  }

  /** `stringInit` recording capacity 0 when it allocates nothing. */
  function StringInitFixed(capacity: int, allocOk: bool): (r: StrInit)
    ensures r.s.size == 0
    ensures r.ret == 0 <==> capacity <= 0 || allocOk
    ensures r.ret == 0 && capacity > 0 ==> r.s.capacity == capacity + 1
    ensures r.ret == 0 && capacity <= 0 ==> r.s.capacity == 0 && r.s.data.None?
  {
    if capacity > 0 then StringInit(capacity, allocOk) else StrInit(0, Str(None, 0, 0))
  }

  /** A string fit for `stringAdd`: either empty with no buffer and no
      recorded capacity, or backed. */
  predicate Sound(s: Str)
  {
    (s.data.None? && s.size == 0 && s.capacity == 0) || Backed(s)
  }

  /** With the corrected initialisation every successful `stringInit` is
      sound, and `stringAdd` never faults and keeps the string sound. */
  lemma FixedStringNeverFaults(capacity: int, allocOk: bool, str: seq<char>, allocOk': bool)
    ensures StringInitFixed(capacity, allocOk).ret == 0 ==> Sound(StringInitFixed(capacity, allocOk).s)
    ensures var s := StringInitFixed(capacity, allocOk).s;
      StringInitFixed(capacity, allocOk).ret == 0 ==>
        StringAdd(s, str, allocOk').Added? && Sound(StringAdd(s, str, allocOk').s)
  {
    var s := StringInitFixed(capacity, allocOk).s;
    if StringInitFixed(capacity, allocOk).ret == 0 {
      SoundAddStaysSound(s, str, allocOk');
    }
  }

  /** `stringAdd` from a sound string never faults and stays sound; on
      success it appends `str`. */
  lemma SoundAddStaysSound(s: Str, str: seq<char>, allocOk: bool)
    requires Sound(s)
    ensures StringAdd(s, str, allocOk).Added?
    ensures Sound(StringAdd(s, str, allocOk).s)
    ensures StringAdd(s, str, allocOk).ret == 0 ==>
      StringAdd(s, str, allocOk).s.size == s.size + |str|
      && StringAdd(s, str, allocOk).s.data.value[s.size .. s.size + |str|] == str
  {
    if !Backed(s) {
      var r := StringAdd(s, str, allocOk);
      assert !Fits(s, str);
      if allocOk {
        var b := Realloc([], |str| + 1, NUL);
        assert |b| == |str| + 1;
        assert Put(Str(Some(b), 0, |str| + 1), str).Added?;
        assert Backed(r.s);
      }
    }
  }

  // -------------------------------------------------------------------
  // Array
  // -------------------------------------------------------------------

  /** `Array`: `objectSize` bytes per slot; the buffer counts bytes. */
  datatype Arr = Arr(objectSize: int, capacity: int, size: int, data: Option<seq<byte>>)

  datatype ArrInit = ArrInit(ret: int, a: Arr)

  /** `arrayInit(arr, objectSize, capacity)`. */
  function ArrayInit(objectSize: int, capacity: int, allocOk: bool): (r: ArrInit)
    requires objectSize > 0 && capacity >= 0
    ensures r.a.size == 0 && r.a.objectSize == objectSize
    ensures r.ret == 0 <==> allocOk
    ensures r.ret == 0 ==>
      r.a.capacity == capacity && r.a.data.Some? && |r.a.data.value| == capacity * objectSize
    ensures r.ret != 0 ==> r.ret == -1 && r.a.capacity == 0
  {
    if allocOk then ArrInit(0, Arr(objectSize, capacity, 0, Some(seq(capacity * objectSize, _ => 0 as byte))))
    else ArrInit(-1, Arr(objectSize, 0, 0, None))
  }

  /** Outcome of `arrayAdd`: the byte offset of the new slot (`None` for the
      null return) and the record. */
  datatype Pushed = Pushed(slot: Option<int>, a: Arr)

  /** `arrayAdd(arr)` as written: when full, reallocates to `capacity * 2`
      bytes, which shrinks the block once slots are wider than two bytes,
      and doubles the recorded capacity. Only the bytes below the new
      length survive. */
  function ArrayAdd(a: Arr, allocOk: bool): (r: Pushed)
    ensures a.size == a.capacity && (!allocOk || a.capacity * 2 < 0) ==> r == Pushed(None, a)
    ensures r.slot.Some? ==> r.slot.value == a.objectSize * a.size && r.a.size == a.size + 1
    ensures r.slot.Some? && a.size == a.capacity ==>
      r.a.capacity == 2 * a.capacity && r.a.data.Some? && |r.a.data.value| == 2 * a.capacity
    ensures r.slot.Some? && a.size != a.capacity ==> r.a == a.(size := a.size + 1)
    ensures a.data.Some? && r.a.data.Some? ==>
      forall j :: 0 <= j < |a.data.value| && j < |r.a.data.value| ==> r.a.data.value[j] == a.data.value[j]
  {
    if a.size == a.capacity then
      var n := a.capacity * 2;
      if !allocOk || n < 0 then Pushed(None, a)
      else
        var prev := if a.data.Some? then a.data.value else [];
        Pushed(Some(a.objectSize * a.size), a.(data := Some(Realloc(prev, n, 0 as byte)), capacity := n, size := a.size + 1))
    else
      Pushed(Some(a.objectSize * a.size), a.(size := a.size + 1))
  }

  /** The returned slot lies inside the buffer: `objectSize` bytes from it
      can be written. */
  predicate SlotFits(r: Pushed)
  {
    r.slot.Some? && r.a.data.Some? && 0 <= r.slot.value
    && r.slot.value + r.a.objectSize <= |r.a.data.value|
  }

  /** The byte bookkeeping `arrayInit` sets up: `capacity * objectSize`
      bytes for at most `capacity` slots. */
  predicate Tracked(a: Arr)
  {
    a.objectSize > 0 && a.data.Some? && |a.data.value| == a.capacity * a.objectSize
    && 0 <= a.size <= a.capacity
  }

  lemma MulMono(a: int, b: int, c: int)
    requires 0 <= a <= b && c >= 0
    ensures a * c <= b * c
  {
  }

  /** While there is room, the new slot fits. */
  lemma RoomySlotFits(a: Arr, allocOk: bool)
    requires Tracked(a) && a.size < a.capacity
    ensures SlotFits(ArrayAdd(a, allocOk)) && Tracked(ArrayAdd(a, allocOk).a)
  {
    MulMono(a.size + 1, a.capacity, a.objectSize);
    assert a.objectSize * a.size + a.objectSize == (a.size + 1) * a.objectSize;
  }

  /** The growing push hands out a slot past the end of the buffer whenever
      slots are wider than one byte: `2 * capacity` bytes cannot hold
      `capacity + 1` slots of `objectSize >= 2` bytes. */
  lemma GrowingSlotOutside(a: Arr)
    requires Tracked(a) && a.size == a.capacity && a.objectSize >= 2
    ensures ArrayAdd(a, true).slot.Some?
    ensures !SlotFits(ArrayAdd(a, true))
  {
    MulMono(2, a.objectSize, a.capacity + 1);
    assert a.objectSize * a.size + a.objectSize == (a.capacity + 1) * a.objectSize;
  }

  /** An array of capacity 0 reallocates to 0 bytes and stays at capacity
      0, so no slot it hands out fits. */
  lemma ZeroCapacityNeverGrows(a: Arr, allocOk: bool)
    requires a.capacity == 0 && a.size == 0 && a.objectSize > 0
    ensures ArrayAdd(a, allocOk).a.capacity == 0
    ensures !SlotFits(ArrayAdd(a, allocOk))
  {
  }

  /** `k` successful pushes. While they fit in the capacity they only
      count up the size: no reallocation, same bytes. */
  function Pushes(a: Arr, k: nat): (r: Arr)
    ensures r.objectSize == a.objectSize
    ensures a.size + k <= a.capacity ==> r == a.(size := a.size + k)
  {
    if k == 0 then a else ArrayAdd(Pushes(a, k - 1), true).a
  }

  /** The statement list of a formula is an array of 8-byte pointers with
      capacity 8: the ninth push shrinks the 64-byte buffer to 16 bytes, so
      only the first two of the eight stored pointers survive, and it hands
      out offset 64, where storing the pointer faults. */
  lemma NinthStatementFaults(ptr: seq<byte>)
    requires |ptr| == 8
    ensures var a := Pushes(ArrayInit(8, 8, true).a, 8);
      var r := ArrayAdd(a, true);
      a.data.Some? && |a.data.value| == 64 && a.size == 8
      && r.slot == Some(64) && r.a.data.Some? && |r.a.data.value| == 16
      && (forall k :: 2 <= k < 8 ==> k * 8 + 8 > |r.a.data.value|)
      && Store(r.a.data.value, r.slot.value, ptr).Fault?
  {
  }

  /** `arrayAdd` growing to `objectSize` times the new capacity, and from
      capacity 0 to 1. */
  function ArrayAddFixed(a: Arr, allocOk: bool): (r: Pushed)
    ensures r.slot.Some? ==> r.slot.value == a.objectSize * a.size && r.a.size == a.size + 1
    ensures a.size == a.capacity && !allocOk ==> r == Pushed(None, a)
  {
    if a.size == a.capacity then
      var c := if a.capacity == 0 then 1 else 2 * a.capacity;
      if !allocOk || c * a.objectSize < 0 then Pushed(None, a)
      else
        var prev := if a.data.Some? then a.data.value else [];
        Pushed(Some(a.objectSize * a.size),
               a.(data := Some(Realloc(prev, c * a.objectSize, 0 as byte)), capacity := c, size := a.size + 1))
    else
      Pushed(Some(a.objectSize * a.size), a.(size := a.size + 1))
  }

  /** With the corrected growth every successful push hands out a slot
      inside the buffer, keeps the bookkeeping and leaves the bytes of the
      earlier slots as they were. */
  lemma FixedPushFits(a: Arr, allocOk: bool)
    requires Tracked(a)
    ensures var r := ArrayAddFixed(a, allocOk);
      r.slot.Some? ==>
        SlotFits(r) && Tracked(r.a)
        && forall j :: 0 <= j < a.size * a.objectSize ==> r.a.data.value[j] == a.data.value[j]
  {
    var r := ArrayAddFixed(a, allocOk);
    if r.slot.Some? {
      MulMono(a.size, a.capacity, a.objectSize);
      if a.size == a.capacity {
        var c := if a.capacity == 0 then 1 else 2 * a.capacity;
        MulMono(a.size + 1, c, a.objectSize);
        MulMono(a.capacity, c, a.objectSize);
      } else {
        MulMono(a.size + 1, a.capacity, a.objectSize);
      }
      assert a.objectSize * a.size + a.objectSize == (a.size + 1) * a.objectSize;
    }
  }
}

=== FILE: common.dfy ===
/** Small shared vocabulary: an optional value (the source's nullable pointers)
    and integer minimum. */
module Common {

  /** A nullable pointer: `None` plays the role of the source's `0`. */
  datatype Option<+T> = None | Some(value: T)

  function Min(a: int, b: int): int
  {
    if a < b then a else b
  }

  function Max(a: int, b: int): int
  {
    if a < b then b else a
  }
}

=== FILE: elementwise.dfy ===
/** `ADD`, `SUB`, `MUL` and `DIV` of `indicators.cpp`.

    The four operators share one body. The result is as long as the shorter
    operand and carries `X`'s number. Only the numbers from `bno` up to
    `X.no` are recomputed, pairing the operands from the tail by position;
    the lower cells of the previous output are kept. `Y.no` is never read. */
module Elementwise {
  import opened Common
  import opened Values

  datatype Op = Add | Sub | Mul | Div

  /** One element of `X op Y`. `DIV` writes NaN for a zero divisor. */
  function Apply(op: Op, a: Num, b: Num): Num
  {
    match op
    case Add => Plus(a, b)
    case Sub => Minus(a, b)
    case Mul => Times(a, b)
    case Div => if b == Fin(0.0) then NaN else Quot(a, b)
  }

  /** `bno`, the first number to recompute: the previous output's last
      number when it has one, else `X`'s first number; raised to the number, in `X`'s
      numbering, of `Y`'s first element when `Y` is the shorter operand. */
  function StartNo(X: Series, Y: Series, R: Series): int
    requires X.vals != [] && Y.vals != []
  {
    var xbno := FirstNo(X);
    var bno := if R.no != 0 then R.no else xbno;
    var y0 := xbno + |X.vals| - |Y.vals|;
    if |Y.vals| < |X.vals| && bno < y0 then y0 else bno
  }

  /** Number of loop iterations: numbers `bno ..= X.no`. */
  function Span(X: Series, Y: Series, R: Series): int
    requires X.vals != [] && Y.vals != []
  {
    X.no - StartNo(X, Y, R) + 1
  }

  /** The operator on two non-empty windows with previous output `R`. Cells
      the source would write outside the output (its undefined behaviour)
      are dropped; `InBounds` says when there are none. */
  function Calc(op: Op, X: Series, Y: Series, R: Series): (r: Series)
    requires X.vals != [] && Y.vals != []
    ensures |r.vals| == Min(|X.vals|, |Y.vals|)
    ensures r.no == X.no
    ensures Valid(X) ==> Valid(r)
    ensures forall p :: 0 <= p < |r.vals| && p >= |r.vals| - Span(X, Y, R) ==>
      r.vals[p] == Apply(op, X.vals[|X.vals| - |r.vals| + p], Y.vals[|Y.vals| - |r.vals| + p])
    ensures forall p :: 0 <= p < |r.vals| && p < |r.vals| - Span(X, Y, R) && p < |R.vals| ==>
      r.vals[p] == R.vals[p]
  {
    var n := Min(|X.vals|, |Y.vals|);
    var lo := n - Span(X, Y, R);
    var base := Resize(R.vals, n);
    Series(seq(n, p requires 0 <= p < n =>
                 if p >= lo then Apply(op, X.vals[|X.vals| - n + p], Y.vals[|Y.vals| - n + p])
                 else base[p]),
           X.no)
  }

  /** The operator on interpreter values: a null, scalar or empty operand
      leaves the previous output as it is (possibly null). This is the
      build with asserts compiled out: with them, a null operand stops at
      the entry `assert(X && Y)` before the early return. `grown` says
      whether `valueNew` (for a null `R`) and `valueExtend` succeed; when
      they do not, `R` is freed and the result is null. */
  function OnValues(op: Op, x: Option<Value>, y: Option<Value>, r: Option<Value>, grown: bool): (res: Option<Value>)
    ensures Size(x) == 0 || Size(y) == 0 ==> res == r
    ensures Size(x) > 0 && Size(y) > 0 && !grown ==> res.None?
    ensures Size(x) > 0 && Size(y) > 0 && grown ==>
      res.Some? && res.value.ArrayV? && |res.value.s.vals| == Min(Size(x), Size(y))
      && res.value.s.no == Window(x).no
    ensures r.Some? && grown ==> res.Some?
  {
    if Size(x) == 0 || Size(y) == 0 then r
    else if !grown then None
    else Some(ArrayV(Calc(op, Window(x), Window(y), Output(r))))
  }

  /** Every read and write of the loop stays inside its window:
      `X.no - bno + 1 <= R.size`. */
  predicate InBounds(X: Series, Y: Series, R: Series)
    requires X.vals != [] && Y.vals != []
  {
    Span(X, Y, R) <= Min(|X.vals|, |Y.vals|)
  }

  /** The asserts of the source, as written, once both operands are
      non-empty windows: the entry asserts on numbers (among them
      `R->no >= 1`) and, in closed form, the per-iteration index asserts
      (among them `yi < X->size`). The first assert, `assert(X && Y)`,
      is about null operands, which a `Series` cannot be; `OnValues`
      handles those. */
  predicate AssertsAsWritten(X: Series, Y: Series, R: Series)
    requires X.vals != [] && Y.vals != []
  {
    && R.no >= 1 && X.no >= 1 && Y.no >= 1
    && X.no >= |X.vals| && Y.no >= |Y.vals|
    && (Span(X, Y, R) <= 0 || (|Y.vals| <= |X.vals| && InBounds(X, Y, R)))
  }

  /** The asserts as evidently intended: `R->no >= 0` and `yi < Y->size`. */
  predicate AssertsFixed(X: Series, Y: Series, R: Series)
    requires X.vals != [] && Y.vals != []
  {
    && R.no >= 0 && X.no >= 1 && Y.no >= 1
    && X.no >= |X.vals| && Y.no >= |Y.vals|
    && (Span(X, Y, R) <= 0 || InBounds(X, Y, R))
  }

  /** The first call of every operator gets a fresh output numbered 0, so the
      entry assert `R->no >= 1` can never hold there. */
  lemma FreshRunFailsAsserts(X: Series, Y: Series)
    requires X.vals != [] && Y.vals != []
    ensures !AssertsAsWritten(X, Y, Fresh)
  {
  }

  /** With a longer second operand the first iteration has
      `yi = Y->size - 1 >= X->size`, so the assert `yi < X->size` fails. */
  lemma LongerSecondOperandFailsAsserts(X: Series, Y: Series, R: Series)
    requires X.vals != [] && Y.vals != []
    requires |Y.vals| > |X.vals| && Span(X, Y, R) >= 1
    ensures !AssertsAsWritten(X, Y, R)
  {
  }

  /** The corrected asserts admit the first call on any valid operands, and
      that call recomputes the whole result. */
  lemma FreshRunMeetsFixedAsserts(X: Series, Y: Series)
    requires X.vals != [] && Y.vals != []
    requires Valid(X) && Valid(Y)
    ensures AssertsFixed(X, Y, Fresh)
    ensures Span(X, Y, Fresh) == Min(|X.vals|, |Y.vals|)
  {
  }

  /** The loop of the source, step by step: numbers from `X.no` down to
      `bno`, indices `xi`, `yi`, `ri` moving down together. */
  method CalcLoop(op: Op, X: Series, Y: Series, R: Series) returns (r: Series)
    requires X.vals != [] && Y.vals != []
    requires InBounds(X, Y, R)
    ensures r == Calc(op, X, Y, R)
  {
    var rsize := if |X.vals| > |Y.vals| then |Y.vals| else |X.vals|;
    var buf := Resize(R.vals, rsize);
    var bno := StartNo(X, Y, R);
    var xi, yi, ri := |X.vals| - 1, |Y.vals| - 1, rsize - 1;
    var eno := X.no;
    while eno >= bno
      invariant ri == rsize - 1 - (X.no - eno)
      invariant xi == |X.vals| - 1 - (X.no - eno) && yi == |Y.vals| - 1 - (X.no - eno)
      invariant eno == X.no || eno >= bno - 1
      invariant |buf| == rsize
      invariant forall p :: ri < p < rsize ==>
        buf[p] == Apply(op, X.vals[|X.vals| - rsize + p], Y.vals[|Y.vals| - rsize + p])
      invariant forall p :: 0 <= p <= ri ==> buf[p] == Resize(R.vals, rsize)[p]
    {
      buf := buf[ri := Apply(op, X.vals[xi], Y.vals[yi])];
      eno, xi, yi, ri := eno - 1, xi - 1, yi - 1, ri - 1;
    }
    r := Series(buf, X.no);
    assert r.vals == Calc(op, X, Y, R).vals;
  }

  /** Incremental equivalence: after `k` bars are appended to both operands,
      re-running with the previous output gives what a fresh run gives. */
  lemma {:induction false} IncrementalMatchesFresh(op: Op, X: Series, Y: Series, ex: seq<Num>, ey: seq<Num>)
    requires Valid(X) && Valid(Y) && X.vals != [] && Y.vals != []
    requires |ex| == |ey|
    ensures Calc(op, Append(X, ex), Append(Y, ey), Calc(op, X, Y, Fresh))
         == Calc(op, Append(X, ex), Append(Y, ey), Fresh)
  {
    var X', Y' := Append(X, ex), Append(Y, ey);
    var n, k := Min(|X.vals|, |Y.vals|), |ex|;
    var R0 := Calc(op, X, Y, Fresh);
    FreshRunMeetsFixedAsserts(X, Y);
    FreshRunMeetsFixedAsserts(X', Y');
    assert Span(X', Y', R0) == k + 1 by {
      assert R0.no == X.no;
    }
    var a := Calc(op, X', Y', R0);
    var b := Calc(op, X', Y', Fresh);
    forall p | 0 <= p < n + k
      ensures a.vals[p] == b.vals[p]
    {
      if p < n - 1 {
        assert a.vals[p] == R0.vals[p];
        assert R0.vals[p] == Apply(op, X.vals[|X.vals| - n + p], Y.vals[|Y.vals| - n + p]);
        assert X'.vals[|X.vals| - n + p] == X.vals[|X.vals| - n + p];
        assert Y'.vals[|Y.vals| - n + p] == Y.vals[|Y.vals| - n + p];
      }
    }
    assert a.vals == b.vals;
  }

  /** When both operands end at the same number, the tail-by-position
      pairing is pairing by number: each recomputed cell combines the two
      elements carrying its own number. */
  lemma PairsByNumberWhenAligned(op: Op, X: Series, Y: Series, R: Series, p: int)
    requires X.vals != [] && Y.vals != [] && X.no == Y.no
    requires var r := Calc(op, X, Y, R); |r.vals| - Span(X, Y, R) <= p < |r.vals| && 0 <= p
    ensures var r := Calc(op, X, Y, R);
      ByNumber(X, NumberAt(r, p)).Some? && ByNumber(Y, NumberAt(r, p)).Some?
      && r.vals[p] == Apply(op, ByNumber(X, NumberAt(r, p)).value, ByNumber(Y, NumberAt(r, p)).value)
  {
  }

  /** When the operands end at different numbers the pairing is still by
      position: `[1,2]` numbered up to 2 plus `[10]` numbered 1 gives `12`,
      adding `X`'s element number 2 to `Y`'s element number 1. */
  lemma PairsByPositionNotNumber()
    ensures Calc(Add, Series([Fin(1.0), Fin(2.0)], 2), Series([Fin(10.0)], 1), Fresh)
         == Series([Fin(12.0)], 2)
    ensures ByNumber(Series([Fin(10.0)], 1), 2).None?
  {
    var r := Calc(Add, Series([Fin(1.0), Fin(2.0)], 2), Series([Fin(10.0)], 1), Fresh);
    assert r.vals[0] == Fin(12.0);
    assert r.vals == [Fin(12.0)];
  }

  /** `DIV` writes NaN wherever a recomputed cell's divisor is zero, and
      never fails. With finite operands that is the only way to get NaN:
      a nonzero divisor gives the finite quotient. A NaN operand passes the
      source's `!= 0` test and gives NaN too. */
  lemma DivByZeroIsNaN(X: Series, Y: Series, R: Series, p: int)
    requires X.vals != [] && Y.vals != []
    requires var r := Calc(Div, X, Y, R); 0 <= p < |r.vals| && p >= |r.vals| - Span(X, Y, R)
    ensures var r := Calc(Div, X, Y, R);
      var a := X.vals[|X.vals| - |r.vals| + p];
      var b := Y.vals[|Y.vals| - |r.vals| + p];
      && (b == Fin(0.0) ==> r.vals[p] == NaN)
      && (a.Fin? && b.Fin? ==> (r.vals[p] == NaN <==> b.v == 0.0))
      && (a.Fin? && b.Fin? && b.v != 0.0 ==> r.vals[p] == Fin(a.v / b.v))
      && (a.NaN? || b.NaN? ==> r.vals[p] == NaN)
  {
  }

  /** `DIV([10],[0])` is a single NaN, not an error. */
  lemma DivTenByZero()
    ensures Calc(Div, Series([Fin(10.0)], 1), Series([Fin(0.0)], 1), Fresh) == Series([NaN], 1)
  {
    var r := Calc(Div, Series([Fin(10.0)], 1), Series([Fin(0.0)], 1), Fresh);
    assert r.vals[0] == NaN;
    assert r.vals == [NaN];
  }
}

=== FILE: indicators.dfy ===
/** `REF`, `MAX` and `ABS` of `indicators.cpp`.

    `REF` shares `X`'s buffer: its result is a prefix view of `X` with the
    last `N` elements hidden. `MAX` and `ABS` map every element and keep
    `X`'s length and number; like the arithmetic operators they recompute
    only the numbers from `bno` up to `X.no`. */
module Indicators {
  import opened Common
  import opened Values
  import Elementwise

  /** `REF(X, N)`: null, empty or too short an `X` leaves `R` as it is;
      otherwise the view of `X` without its last `N` elements. */
  function Ref(x: Option<Value>, N: nat, r: Option<Value>): (res: Option<Value>)
    ensures Size(x) == 0 || Size(x) < N ==> res == r
    ensures Size(x) > 0 && Size(x) >= N ==>
      res.Some? && res.value.ArrayV?
      && |res.value.s.vals| == Size(x) - N
      && res.value.s.no == Window(x).no - N
      && res.value.s.vals == Window(x).vals[..Size(x) - N]
  {
    if Size(x) == 0 || Size(x) < N then r
    else
      var X := Window(x);
      Some(ArrayV(Series(X.vals[..|X.vals| - N], X.no - N)))
  }

  /** `REF` delays nothing by itself: the view holds, under the same
      numbers, exactly the elements of `X` numbered up to `X.no - N`. */
  lemma RefIsTruncation(X: Series, N: nat, n: int)
    requires 0 < |X.vals| && N <= |X.vals|
    ensures var r := Ref(Some(ArrayV(X)), N, None).value.s;
      Valid(X) ==> Valid(r)
    ensures var r := Ref(Some(ArrayV(X)), N, None).value.s;
      ByNumber(r, n) == (if n <= X.no - N then ByNumber(X, n) else None)
  {
    var r := Ref(Some(ArrayV(X)), N, None).value.s;
    var i := |X.vals| - 1 - (X.no - n);
    assert |r.vals| - 1 - (r.no - n) == i;
  }

  /** The delay comes from the pairing of the arithmetic operators, which
      ignores the second operand's number: `X - REF(X, 1)` computes the
      one-bar difference `X[i] - X[i-1]` at every recomputed cell. */
  lemma DifferenceWithRef(X: Series, R: Series, p: int)
    requires |X.vals| >= 2
    requires var y := Ref(Some(ArrayV(X)), 1, None).value.s;
      var d := Elementwise.Calc(Elementwise.Sub, X, y, R);
      0 <= p < |d.vals| && p >= |d.vals| - Elementwise.Span(X, y, R)
    ensures var y := Ref(Some(ArrayV(X)), 1, None).value.s;
      var d := Elementwise.Calc(Elementwise.Sub, X, y, R);
      |d.vals| == |X.vals| - 1 && d.no == X.no
      && d.vals[p] == Minus(X.vals[p + 1], X.vals[p])
  {
  }

  /** The per-element maps of `MAX(X, M)` and `ABS(X)`. */
  datatype Map = MaxWith(m: real) | Abs

  /** One element: `x > M ? x : M` (a NaN `x` gives `M`); `|x|`. */
  function ApplyMap(f: Map, x: Num): (y: Num)
    ensures f.MaxWith? ==> y.Fin? && y.v >= f.m && (y == x || y == Fin(f.m))
    ensures f.Abs? && x.Fin? ==> y.Fin? && y.v >= 0.0 && (y.v == x.v || y.v == -x.v)
    ensures f.Abs? && x.NaN? ==> y.NaN?
  {
    match f
    case MaxWith(m) => if Greater(x, Fin(m)) then x else Fin(m)
    case Abs => if x.NaN? then NaN else if x.v < 0.0 then Fin(-x.v) else x
  }

  /** `MAX`/`ABS` on a non-empty window with previous output `R`; writes
      the source would make below index 0 are dropped. */
  function MapCalc(f: Map, X: Series, R: Series): (r: Series)
    requires X.vals != []
    ensures |r.vals| == |X.vals| && r.no == X.no
    ensures Valid(X) ==> Valid(r)
    ensures forall p :: 0 <= p < |r.vals| && p >= |r.vals| - UnarySpan(X, R) ==> r.vals[p] == ApplyMap(f, X.vals[p])
    ensures forall p :: 0 <= p < |r.vals| && p < |r.vals| - UnarySpan(X, R) && p < |R.vals| ==> r.vals[p] == R.vals[p]
  {
    var n := |X.vals|;
    var lo := n - UnarySpan(X, R);
    var base := Resize(R.vals, n);
    Series(seq(n, p requires 0 <= p < n => if p >= lo then ApplyMap(f, X.vals[p]) else base[p]), X.no)
  }

  /** `MAX`/`ABS` on interpreter values: a null, scalar or empty `X` leaves
      `R` as it is. `grown` says whether `valueNew` (for a null `R`) and
      `valueExtend` succeed; when they do not, `R` is freed and the result
      is null. */
  function MapOnValue(f: Map, x: Option<Value>, r: Option<Value>, grown: bool): (res: Option<Value>)
    ensures Size(x) == 0 ==> res == r
    ensures Size(x) > 0 && !grown ==> res.None?
    ensures Size(x) > 0 && grown ==>
      res.Some? && res.value.ArrayV? && |res.value.s.vals| == Size(x) && res.value.s.no == Window(x).no
  {
    if Size(x) == 0 then r
    else if !grown then None
    else Some(ArrayV(MapCalc(f, Window(x), Output(r))))
  }

  /** The writes of `MAX`/`ABS` stay inside `R`. */
  predicate MapInBounds(X: Series, R: Series)
  {
    UnarySpan(X, R) <= |X.vals|
  }

  /** A fresh run recomputes every cell and stays inside `R`. */
  lemma MapFreshRecomputesAll(X: Series)
    requires X.vals != []
    ensures MapInBounds(X, Fresh) && UnarySpan(X, Fresh) == |X.vals|
  {
  }

  /** After a fresh run every cell of `MAX(X, M)` is a number at least
      `M`, whatever NaNs `X` holds. */
  lemma MaxIsAtLeastBound(X: Series, m: real, i: int)
    requires X.vals != [] && 0 <= i < |X.vals|
    ensures MapCalc(MaxWith(m), X, Fresh).vals[i].Fin?
    ensures MapCalc(MaxWith(m), X, Fresh).vals[i].v >= m
  {
  }

  /** The loop of the source: numbers from `X.no` down to `bno`. */
  method MapLoop(f: Map, X: Series, R: Series) returns (r: Series)
    requires X.vals != []
    requires MapInBounds(X, R)
    ensures r == MapCalc(f, X, R)
  {
    var rsize := |X.vals|;
    var buf := Resize(R.vals, rsize);
    var bno := if R.no != 0 then R.no else X.no - (|X.vals| - 1);
    var xi, ri := |X.vals| - 1, rsize - 1;
    var kno := X.no;
    while kno >= bno
      invariant ri == rsize - 1 - (X.no - kno) && xi == ri
      invariant kno == X.no || kno >= bno - 1
      invariant |buf| == rsize
      invariant forall p :: ri < p < rsize ==> buf[p] == ApplyMap(f, X.vals[p])
      invariant forall p :: 0 <= p <= ri ==> buf[p] == Resize(R.vals, rsize)[p]
    {
      buf := buf[ri := ApplyMap(f, X.vals[xi])];
      kno, xi, ri := kno - 1, xi - 1, ri - 1;
    }
    r := Series(buf, X.no);
    assert r.vals == MapCalc(f, X, R).vals;
  }

  /** Incremental equivalence for `MAX`/`ABS`: after `k` appended bars the
      re-run with the previous output equals a fresh run. */
  lemma {:induction false} MapIncrementalMatchesFresh(f: Map, X: Series, ex: seq<Num>)
    requires Valid(X) && X.vals != []
    ensures MapCalc(f, Append(X, ex), MapCalc(f, X, Fresh)) == MapCalc(f, Append(X, ex), Fresh)
  {
    var X' := Append(X, ex);
    var R0 := MapCalc(f, X, Fresh);
    assert UnarySpan(X', R0) == |ex| + 1;
    var a := MapCalc(f, X', R0);
    var b := MapCalc(f, X', Fresh);
    forall p | 0 <= p < |X'.vals|
      ensures a.vals[p] == b.vals[p]
    {
      if p < |X.vals| - 1 {
        assert a.vals[p] == R0.vals[p];
        assert X'.vals[p] == X.vals[p];
      }
    }
    assert a.vals == b.vals;
  }
}

=== FILE: interp.dfy ===
/** The tree walk of `parser.cpp`: every call and binary node owns a
    cached value slot that survives from one pass to the next and is
    handed to the operator as its previous output `R`; every statement
    keeps a pointer to the value its expression returned.

    Pointers are modelled as locations: the slot of the node at a path in
    the tree, a host variable, or the constant of a literal node. */
module Interp {
  import opened Common
  import opened Values
  import Elementwise
  import opened Lexer
  import opened Ast

  /** A path from a statement to a node: statement index, then child
      indices (0 and 1 for the operands of a binary node, `i` for the
      `i`-th argument of a call). */
  type Path = seq<nat>

  /** Where a `Value *` points. */
  datatype Loc = Slot(path: Path) | Host(name: seq<char>) | Const(v: Value)

  /** A library function `fn(parser, argc, args, R)`, given the argument
      values and the previous output. It yields the value left in its
      output, and `funcCallInterp` stores it in the node's own slot: the
      function is taken to return `R` itself when `R` is non-null, and an
      object of its own only when `R` is null (or null). Every operator of
      the indicator library returns so; a function that handed back some
      other pointer, such as one of its arguments, is not modelled. */
  type Builtin = (seq<Option<Value>>, Option<Value>) -> Option<Value>

  /** The registry of host variables (`findVariable`) and functions
      (`findFunction`). A variable's function always returns the same
      host value. */
  datatype Registry = Registry(vars: map<seq<char>, Value>, funcs: map<seq<char>, Builtin>)

  /** The library functions keep a non-null `R` non-null, as every
      operator of the indicator library does when allocation succeeds.
      Together with the shape of `Builtin` (a function returns its own
      `R` when `R` is non-null), this is what keeps a call node's pointer
      in place from one pass to the next. */
  ghost predicate Keeps(reg: Registry)
  {
    forall n: seq<char>, args: seq<Option<Value>>, r: Option<Value> :: n in reg.funcs && r.Some? ==> reg.funcs[n](args, r).Some?
  }

  /** The interpreter's memory: each statement's `value` pointer and the
      node-owned values. */
  datatype Heap = Heap(vals: seq<Option<Loc>>, store: map<Path, Value>)

  /** The value behind a pointer. */
  function Deref(ptr: Option<Loc>, st: Heap, reg: Registry): Option<Value>
  {
    match ptr
    case None => None
    case Some(Slot(p)) => if p in st.store then Some(st.store[p]) else None
    case Some(Host(n)) => if n in reg.vars then Some(reg.vars[n]) else None
    case Some(Const(v)) => Some(v)
  }

  /** The node's `e->value`: its slot, or null. */
  function SlotPtr(st: Heap, path: Path): (ptr: Option<Loc>)
    ensures ptr.Some? <==> path in st.store
  {
    if path in st.store then Some(Slot(path)) else None
  }

  /** Stores `v` in the slot at `path`, or clears it for null. */
  function Put(st: Heap, path: Path, v: Option<Value>): (r: Heap)
    ensures r.vals == st.vals
    ensures path in r.store <==> v.Some?
    ensures v.Some? ==> r.store[path] == v.value
    ensures forall q :: q != path ==> (q in r.store <==> q in st.store)
    ensures forall q :: q != path && q in st.store ==> r.store[q] == st.store[q]
  {
    if v.Some? then st.(store := st.store[path := v.value]) else st.(store := st.store - {path})
  }

  /** `parserFindVariable`: the index of the first statement named
      `name`. */
  function FindVariable(stmts: seq<Stmt>, name: seq<char>): (r: Option<nat>)
    ensures r.Some? ==> r.value < |stmts| && stmts[r.value].id == name
    ensures r.Some? ==> forall j :: 0 <= j < r.value ==> stmts[j].id != name
    ensures r.None? ==> forall j :: 0 <= j < |stmts| ==> stmts[j].id != name
  {
    if stmts == [] then None
    else if stmts[0].id == name then Some(0)
    else match FindVariable(stmts[1..], name)
      case None => None
      case Some(j) => Some(j + 1)
  }

  /** The operator a binary node applies. */
  function OpOf(t: Token): Elementwise.Op
    requires ArithTok(t)
  {
    match t
    case AddTk => Elementwise.Add
    case SubTk => Elementwise.Sub
    case MulTk => Elementwise.Mul
    case DivTk => Elementwise.Div
  }

  /** Evaluation below `path` leaves every slot outside that subtree as it
      was. */
  ghost predicate Frame(path: Path, st: Heap, st': Heap)
  {
    && st'.vals == st.vals
    && (forall q :: !(path <= q) ==> (q in st'.store <==> q in st.store))
    && (forall q :: !(path <= q) && q in st.store ==> st'.store[q] == st.store[q])
  }

  datatype Evaluated = Evaluated(ptr: Option<Loc>, st: Heap)

  /** The `interp` function of an expression node at `path`. */
  function Eval(f: Formula, reg: Registry, e: Expr, path: Path, st: Heap): (r: Evaluated)
    requires WellFormed(e)
    ensures Frame(path, st, r.st)
    ensures r.ptr == PtrOf(f, reg, e, path, r.st)
    ensures Keeps(reg) && path in st.store ==> path in r.st.store
    decreases e, 1
  {
    match e
    case IntLit(i) => Evaluated(Some(Const(IntV(i))), st)
    case DecLit(x) => Evaluated(Some(Const(DoubleV(x))), st)
    case Ident(n) => Evaluated(Resolve(f, reg, n, st), st)
    case Call(n, args) => EvalCall(f, reg, e, path, st)
    case Binary(l, op, rt) => EvalBinary(f, reg, e, path, st)
  }

  /** The pointer a node hands back, read off the state it leaves: the
      constant of a literal, the resolved variable of an identifier, the
      node's own slot otherwise. */
  function PtrOf(f: Formula, reg: Registry, e: Expr, path: Path, st: Heap): Option<Loc>
  {
    match e
    case IntLit(i) => Some(Const(IntV(i)))
    case DecLit(x) => Some(Const(DoubleV(x)))
    case Ident(n) => Resolve(f, reg, n, st)
    case _ => SlotPtr(st, path)
  }

  /** `idExprInterp`: a host variable first, then the first statement of
      that name, whose value pointer may still be null. */
  function Resolve(f: Formula, reg: Registry, n: seq<char>, st: Heap): (r: Option<Loc>)
    ensures n in reg.vars ==> r == Some(Host(n))
    ensures n !in reg.vars && (forall j :: 0 <= j < |f.stmts| ==> f.stmts[j].id != n) ==> r.None?
    ensures n !in reg.vars && r.Some? ==>
      exists j :: 0 <= j < |f.stmts| && j < |st.vals| && f.stmts[j].id == n && st.vals[j] == r
  {
    if n in reg.vars then Some(Host(n))
    else
      var j := FindVariable(f.stmts, n);
      if j.Some? && j.value < |st.vals| then st.vals[j.value] else None
  }

  /** `funcCallInterp`: the arguments, then the registered function on
      them and the node's previous value; an unknown name leaves the
      value as it was. */
  function EvalCall(f: Formula, reg: Registry, e: Expr, path: Path, st: Heap): (r: Evaluated)
    requires e.Call? && WellFormed(e)
    ensures Frame(path, st, r.st)
    ensures r.ptr == SlotPtr(r.st, path)
    ensures Keeps(reg) && path in st.store ==> path in r.st.store
    decreases e, 0
  {
    var a := if e.args.ExprList? then EvalArgs(f, reg, e.args.exprs, path, st) else ([], st);
    var st1 := a.1;
    if e.name in reg.funcs then
      var res := reg.funcs[e.name](Derefs(a.0, st1, reg), Deref(SlotPtr(st1, path), st1, reg));
      var st2 := Put(st1, path, res);
      Evaluated(SlotPtr(st2, path), st2)
    else Evaluated(SlotPtr(st1, path), st1)
  }

  /** `binaryExprInterp`: left operand, right operand, then the operator
      on both with the node's previous value as `R`. The operator's
      allocations are taken to succeed. */
  function EvalBinary(f: Formula, reg: Registry, e: Expr, path: Path, st: Heap): (r: Evaluated)
    requires e.Binary? && WellFormed(e)
    ensures Frame(path, st, r.st)
    ensures r.ptr == SlotPtr(r.st, path)
    ensures Keeps(reg) && path in st.store ==> path in r.st.store
    decreases e, 0
  {
    var el := Eval(f, reg, e.lhs, path + [0], st);
    var er := Eval(f, reg, e.rhs, path + [1], el.st);
    var res := Elementwise.OnValues(OpOf(e.op), Deref(el.ptr, er.st, reg), Deref(er.ptr, er.st, reg),
                                    Deref(SlotPtr(er.st, path), er.st, reg), true);
    var st2 := Put(er.st, path, res);
    Evaluated(SlotPtr(st2, path), st2)
  }

  /** `exprListInterp`: the arguments in order, the `i`-th at `path + [i]`. */
  function EvalArgs(f: Formula, reg: Registry, es: seq<Expr>, path: Path, st: Heap): (r: (seq<Option<Loc>>, Heap))
    requires forall a :: a in es ==> WellFormed(a)
    ensures |r.0| == |es|
    ensures Frame(path, st, r.1)
    ensures path in r.1.store <==> path in st.store
    ensures path in st.store ==> r.1.store[path] == st.store[path]
    decreases es, 0
  {
    if es == [] then ([], st)
    else
      var n := |es| - 1;
      assert forall a :: a in es[..n] ==> a in es;
      var init := EvalArgs(f, reg, es[..n], path, st);
      assert es[n] in es;
      var last := Eval(f, reg, es[n], path + [n], init.1);
      (init.0 + [last.ptr], last.st)
  }

  function Derefs(ptrs: seq<Option<Loc>>, st: Heap, reg: Registry): (vs: seq<Option<Value>>)
    ensures |vs| == |ptrs|
  {
    seq(|ptrs|, i requires 0 <= i < |ptrs| => Deref(ptrs[i], st, reg))
  }

  // ---------------------------------------------------------------------
  // Statements, passes and reading an indicator.
  // ---------------------------------------------------------------------

  ghost predicate AllWellFormed(f: Formula)
  {
    forall k :: 0 <= k < |f.stmts| ==> WellFormed(f.stmts[k].expr)
  }

  /** `stmtInterp` of statement `k`: its expression, rooted at path `[k]`,
      then the statement's pointer set to the result. Nothing but that
      pointer and the slots below `[k]` changes. */
  function ExecStmt(f: Formula, reg: Registry, k: nat, st: Heap): (r: Heap)
    requires AllWellFormed(f) && |st.vals| == |f.stmts| && k < |f.stmts|
    ensures |r.vals| == |st.vals|
    ensures forall j :: 0 <= j < |st.vals| && j != k ==> r.vals[j] == st.vals[j]
    ensures forall q :: !([k] <= q) ==> (q in r.store <==> q in st.store)
    ensures forall q :: !([k] <= q) && q in st.store ==> r.store[q] == st.store[q]
  {
    var ev := Eval(f, reg, f.stmts[k].expr, [k], st);
    ev.st.(vals := ev.st.vals[k := ev.ptr])
  }

  /** `formulaInterp` up to statement `k`: statements `0 .. k-1` in
      source order. */
  function RunTo(f: Formula, reg: Registry, k: nat, st: Heap): (r: Heap)
    requires AllWellFormed(f) && |st.vals| == |f.stmts| && k <= |f.stmts|
    ensures |r.vals| == |st.vals|
    ensures forall j :: k <= j < |st.vals| ==> r.vals[j] == st.vals[j]
  {
    if k == 0 then st else ExecStmt(f, reg, k - 1, RunTo(f, reg, k - 1, st))
  }

  /** One pass over the formula: every statement in source order. */
  function Pass(f: Formula, reg: Registry, st: Heap): (r: Heap)
    requires AllWellFormed(f) && |st.vals| == |f.stmts|
    ensures |r.vals| == |st.vals|
  {
    RunTo(f, reg, |f.stmts|, st)
  }

  /** The state of a freshly parsed formula: every pointer null, no
      node-owned value. */
  function Initial(f: Formula): (st: Heap)
    ensures |st.vals| == |f.stmts| && st.store == map[]
    ensures forall k :: 0 <= k < |f.stmts| ==> st.vals[k] == None
  {
    Heap(seq(|f.stmts|, _ => None), map[])
  }

  /** The state after `n` calls of `parserInterp` on a freshly parsed
      formula. */
  function Passes(f: Formula, reg: Registry, n: nat): (st: Heap)
    requires AllWellFormed(f)
    ensures |st.vals| == |f.stmts|
  {
    if n == 0 then Initial(f) else Pass(f, reg, Passes(f, reg, n - 1))
  }

  /** After a pass, each statement's pointer is the one it set when it
      ran: no later statement of the pass touches it. */
  lemma PassSetsOnce(f: Formula, reg: Registry, st: Heap, k: nat)
    requires AllWellFormed(f) && |st.vals| == |f.stmts| && k < |f.stmts|
    ensures Pass(f, reg, st).vals[k] == RunTo(f, reg, k + 1, st).vals[k]
  {
    RunSetsOnce(f, reg, |f.stmts|, st);
  }

  /** The `n+1`-th call of `parserInterp` leaves in statement `k` the
      pointer its expression returned in that pass, evaluated after the
      statements before it. */
  lemma PassesPointer(f: Formula, reg: Registry, n: nat, k: nat)
    requires AllWellFormed(f) && k < |f.stmts|
    ensures var st := RunTo(f, reg, k, Passes(f, reg, n));
      Passes(f, reg, n + 1).vals[k] == Eval(f, reg, f.stmts[k].expr, [k], st).ptr
  {
    PassSetsOnce(f, reg, Passes(f, reg, n), k);
  }

  /** In a run of the first `k` statements, statement `j`'s pointer is the
      one it set itself. */
  lemma {:induction false} RunSetsOnce(f: Formula, reg: Registry, k: nat, st: Heap)
    requires AllWellFormed(f) && |st.vals| == |f.stmts| && k <= |f.stmts|
    ensures forall j :: 0 <= j < k ==> RunTo(f, reg, k, st).vals[j] == RunTo(f, reg, j + 1, st).vals[j]
  {
    if k > 0 {
      RunSetsOnce(f, reg, k - 1, st);
    }
  }

  datatype Run = Run(ret: int, st: Heap)

  /** `parserInterp`: -1 without a syntax tree, else one pass. */
  function ParserInterp(ast: Option<Formula>, reg: Registry, st: Heap): (r: Run)
    requires ast.Some? ==> AllWellFormed(ast.value) && |st.vals| == |ast.value.stmts|
    ensures r.ret == 0 || r.ret == -1
    ensures r.ret == -1 <==> ast.None?
    ensures ast.None? ==> r.st == st
    ensures ast.Some? ==> |r.st.vals| == |st.vals|
  {
    if ast.None? then Run(-1, st) else Run(0, Pass(ast.value, reg, st))
  }

  /** The largest finite double, `(2^53 - 1) * 2^971`. */
  const DBL_MAX: real := 179769313486231570814527423731704356798070567525844996598917476803157260780028538760589558632766878171540458953514382464234321326889464182768467546703537516986049910576551282076245490090389328944075868508455133942304583236903222948165808559332123348274797826204144723168738177180919299881250404026184124858368.0

  /** The outcome of `parserGetIndicator`: a return code and the number
      written to `*outf`, or the `valueGet` assertion failing on an empty
      array. */
  datatype Reading = Reading(ret: int, f: Num) | AssertFails

  /** The value behind the pointer of the first statement named `name`. */
  function StmtValue(f: Formula, reg: Registry, st: Heap, name: seq<char>): Option<Value>
    requires |st.vals| == |f.stmts|
  {
    var j := FindVariable(f.stmts, name);
    if j.Some? then Deref(st.vals[j.value], st, reg) else None
  }

  /** `parserGetIndicator`: the latest value of the first statement named
      `name` (host variables are not consulted). It dispatches on the
      value's kind, as if every operator result were tagged as an array;
      `valueNew` in fact leaves the `type` tag unset. */
  function GetIndicator(f: Formula, reg: Registry, st: Heap, name: seq<char>): (r: Reading)
    requires |st.vals| == |f.stmts|
    ensures r == Reading(-1, Fin(-DBL_MAX)) <==> StmtValue(f, reg, st, name).None?
    ensures r.AssertFails? <==> var v := StmtValue(f, reg, st, name); v.Some? && v.value.ArrayV? && v.value.s.vals == []
    ensures r.Reading? && r.ret != -1 ==> r.ret == 0
    ensures r.Reading? && r.ret == 0 ==> exists j :: 0 <= j < |f.stmts| && f.stmts[j].id == name
    ensures var v := StmtValue(f, reg, st, name);
      v.Some? && v.value.ArrayV? && v.value.s.vals != [] ==> r == Reading(0, ByNumber(v.value.s, v.value.s.no).value)
  {
    match StmtValue(f, reg, st, name)
    case None => Reading(-1, Fin(-DBL_MAX))
    case Some(ArrayV(s)) => if s.vals == [] then AssertFails else Reading(0, s.vals[|s.vals| - 1])
    case Some(IntV(i)) => Reading(0, Fin(i as real))
    case Some(DoubleV(x)) => Reading(0, Fin(x))
  }
}

=== FILE: interp_facts.dfy ===
/** What the tree walk guarantees across passes: how identifiers resolve,
    when a node keeps its cached value, why the pointer check in
    `stmtInterp` never fires, and what happens to self-references, forward
    references and scalar arithmetic. */
module InterpFacts {
  import opened Common
  import opened Values
  import Elementwise
  import opened Lexer
  import opened Ast
  import opened Interp

  // ---------------------------------------------------------------------
  // One node.
  // ---------------------------------------------------------------------

  /** An identifier is a host variable if one is registered under its
      name, else the pointer of the first statement of that name, else
      null; evaluating it changes nothing. */
  lemma IdentResolution(f: Formula, reg: Registry, n: seq<char>, path: Path, st: Heap, j: nat)
    requires |st.vals| == |f.stmts|
    ensures var r := Eval(f, reg, Ident(n), path, st);
      r.st == st
      && (n in reg.vars ==> r.ptr == Some(Host(n)))
      && (n !in reg.vars && j < |f.stmts| && f.stmts[j].id == n && (forall i :: 0 <= i < j ==> f.stmts[i].id != n)
          ==> r.ptr == st.vals[j])
      && (n !in reg.vars && (forall i :: 0 <= i < |f.stmts| ==> f.stmts[i].id != n) ==> r.ptr == None)
  {
    var fv := FindVariable(f.stmts, n);
    if n !in reg.vars && j < |f.stmts| && f.stmts[j].id == n && (forall i :: 0 <= i < j ==> f.stmts[i].id != n) {
      assert fv.Some?;
    }
  }

  /** A call of a name no library function is registered under evaluates
      its arguments and leaves its own value as the previous pass left
      it. */
  lemma UnknownFunctionKeepsValue(f: Formula, reg: Registry, n: seq<char>, args: Args, path: Path, st: Heap)
    requires WellFormed(Call(n, args)) && n !in reg.funcs
    ensures var r := Eval(f, reg, Call(n, args), path, st);
      (path in r.st.store <==> path in st.store)
      && (path in st.store ==> r.st.store[path] == st.store[path])
  {
  }

  /** A binary node with a literal operand keeps its previous value: a
      scalar has size 0, and the arithmetic operators return `R` unchanged
      for an empty operand. */
  lemma LiteralOperandKeepsValue(f: Formula, reg: Registry, e: Expr, path: Path, st: Heap)
    requires e.Binary? && WellFormed(e)
    requires e.lhs.IntLit? || e.lhs.DecLit? || e.rhs.IntLit? || e.rhs.DecLit?
    ensures var r := Eval(f, reg, e, path, st);
      (path in r.st.store <==> path in st.store)
      && (path in st.store ==> r.st.store[path] == st.store[path])
  {
    var el := Eval(f, reg, e.lhs, path + [0], st);
    var er := Eval(f, reg, e.rhs, path + [1], el.st);
    assert !(path + [0] <= path) && !(path + [1] <= path);
    assert Size(Deref(el.ptr, er.st, reg)) == 0 || Size(Deref(er.ptr, er.st, reg)) == 0;
  }

  // ---------------------------------------------------------------------
  // The pointer check of `stmtInterp`.
  // ---------------------------------------------------------------------

  /** Every non-null statement pointer is what its expression would hand
      back if evaluated now. */
  ghost predicate Inv(f: Formula, reg: Registry, st: Heap)
    requires |st.vals| == |f.stmts|
  {
    forall k :: 0 <= k < |f.stmts| && st.vals[k].Some? ==> st.vals[k] == PtrOf(f, reg, f.stmts[k].expr, [k], st)
  }

  /** Distinct statements root disjoint subtrees. */
  lemma DistinctStatements(m: nat, k: nat)
    requires m != k
    ensures !([m] <= [k])
  {
    assert [m][0] != [k][0];
  }

  /** A node's non-null pointer survives any change that keeps the
      statement pointers and does not drop the node's slot. */
  lemma PtrOfStable(f: Formula, reg: Registry, e: Expr, path: Path, st: Heap, st': Heap)
    requires PtrOf(f, reg, e, path, st).Some?
    requires st'.vals == st.vals && (path in st.store ==> path in st'.store)
    ensures PtrOf(f, reg, e, path, st') == PtrOf(f, reg, e, path, st)
  {
  }

  /** Re-running statement `k` hands back the pointer it already holds. */
  lemma ExecKeepsPointer(f: Formula, reg: Registry, k: nat, st: Heap)
    requires AllWellFormed(f) && |st.vals| == |f.stmts| && k < |f.stmts|
    requires Keeps(reg) && Inv(f, reg, st) && st.vals[k].Some?
    ensures ExecStmt(f, reg, k, st).vals[k] == st.vals[k]
  {
    var e := f.stmts[k].expr;
    var ev := Eval(f, reg, e, [k], st);
    PtrOfStable(f, reg, e, [k], st, ev.st);
  }

  /** Executing any statement keeps the invariant. */
  lemma ExecKeepsInv(f: Formula, reg: Registry, m: nat, st: Heap)
    requires AllWellFormed(f) && |st.vals| == |f.stmts| && m < |f.stmts|
    requires Keeps(reg) && Inv(f, reg, st)
    ensures Inv(f, reg, ExecStmt(f, reg, m, st))
  {
    var e := f.stmts[m].expr;
    var ev := Eval(f, reg, e, [m], st);
    var st' := ExecStmt(f, reg, m, st);
    if st.vals[m].Some? {
      ExecKeepsPointer(f, reg, m, st);
    }
    forall k | 0 <= k < |f.stmts| && st'.vals[k].Some?
      ensures st'.vals[k] == PtrOf(f, reg, f.stmts[k].expr, [k], st')
    {
      var ek := f.stmts[k].expr;
      if k != m {
        DistinctStatements(m, k);
        if ek.Ident? && ek.name !in reg.vars {
          var fv := FindVariable(f.stmts, ek.name);
          if fv.Some? && fv.value == m {
            assert st.vals[k] == st.vals[m];
          }
        }
      } else {
        assert ev.st.vals == st.vals;
      }
    }
  }

  /** The first `k` statements of a pass keep the invariant and every
      non-null pointer. */
  lemma {:induction false} RunKeepsInv(f: Formula, reg: Registry, k: nat, st: Heap)
    requires AllWellFormed(f) && |st.vals| == |f.stmts| && k <= |f.stmts|
    requires Keeps(reg) && Inv(f, reg, st)
    ensures Inv(f, reg, RunTo(f, reg, k, st))
    ensures forall j :: 0 <= j < |f.stmts| && st.vals[j].Some? ==> RunTo(f, reg, k, st).vals[j] == st.vals[j]
  {
    if k > 0 {
      var mid := RunTo(f, reg, k - 1, st);
      RunKeepsInv(f, reg, k - 1, st);
      ExecKeepsInv(f, reg, k - 1, mid);
      if mid.vals[k - 1].Some? {
        ExecKeepsPointer(f, reg, k - 1, mid);
      }
    }
  }

  /** Every state the interpreter reaches from a freshly parsed formula
      satisfies the invariant. */
  lemma {:induction false} PassesKeepInv(f: Formula, reg: Registry, n: nat)
    requires AllWellFormed(f) && Keeps(reg)
    ensures Inv(f, reg, Passes(f, reg, n))
  {
    if n > 0 {
      PassesKeepInv(f, reg, n - 1);
      RunKeepsInv(f, reg, |f.stmts|, Passes(f, reg, n - 1));
    }
  }

  /** The check `e->value == 0 || e->value == v` of `stmtInterp` holds at
      every statement of every pass: once a statement's pointer is set,
      re-evaluation hands back the same pointer. */
  lemma StmtPointerCheckHolds(f: Formula, reg: Registry, n: nat, k: nat)
    requires AllWellFormed(f) && Keeps(reg) && k < |f.stmts|
    ensures var st := RunTo(f, reg, k, Passes(f, reg, n));
      st.vals[k].None? || ExecStmt(f, reg, k, st).vals[k] == st.vals[k]
  {
    var st0 := Passes(f, reg, n);
    PassesKeepInv(f, reg, n);
    RunKeepsInv(f, reg, k, st0);
    var st := RunTo(f, reg, k, st0);
    if st.vals[k].Some? {
      ExecKeepsPointer(f, reg, k, st);
    }
  }

  /** Once set, a statement's pointer stays the same in every later
      pass. */
  lemma {:induction false} PointerIsSetOnce(f: Formula, reg: Registry, n: nat, m: nat, k: nat)
    requires AllWellFormed(f) && Keeps(reg) && k < |f.stmts| && n <= m
    requires Passes(f, reg, n).vals[k].Some?
    ensures Passes(f, reg, m).vals[k] == Passes(f, reg, n).vals[k]
  {
    if n < m {
      PointerIsSetOnce(f, reg, n, m - 1, k);
      PassesKeepInv(f, reg, m - 1);
      RunKeepsInv(f, reg, |f.stmts|, Passes(f, reg, m - 1));
    }
  }

  // ---------------------------------------------------------------------
  // Statements that never get a value.
  // ---------------------------------------------------------------------

  /** A statement whose value pointer is null and whose node owns no value
      keeps both when another statement runs. */
  lemma OtherStmtLeavesNull(f: Formula, reg: Registry, m: nat, k: nat, st: Heap)
    requires AllWellFormed(f) && |st.vals| == |f.stmts| && m < |f.stmts| && k < |f.stmts| && m != k
    requires st.vals[k].None? && [k] !in st.store
    ensures ExecStmt(f, reg, m, st).vals[k].None? && [k] !in ExecStmt(f, reg, m, st).store
  {
    DistinctStatements(m, k);
  }

  /** The two shapes of statement `k` that never get a value: `A : A op
      x` (its first operand is its own, still null, pointer) and
      arithmetic with a literal operand (a scalar has size 0, so the
      operator returns its null `R`). */
  predicate NullShape(f: Formula, reg: Registry, k: nat)
    requires k < |f.stmts|
  {
    var e := f.stmts[k].expr;
    && e.Binary?
    && ((e.lhs == Ident(f.stmts[k].id) && FindVariable(f.stmts, f.stmts[k].id) == Some(k) && f.stmts[k].id !in reg.vars)
        || e.lhs.IntLit? || e.lhs.DecLit? || e.rhs.IntLit? || e.rhs.DecLit?)
  }

  /** Running such a statement keeps its null pointer and empty slot. */
  lemma ExecNullShape(f: Formula, reg: Registry, k: nat, st: Heap)
    requires AllWellFormed(f) && k < |f.stmts| && NullShape(f, reg, k)
    requires |st.vals| == |f.stmts| && st.vals[k].None? && [k] !in st.store
    ensures ExecStmt(f, reg, k, st).vals[k].None? && [k] !in ExecStmt(f, reg, k, st).store
  {
    var e := f.stmts[k].expr;
    var el := Eval(f, reg, e.lhs, [k] + [0], st);
    var er := Eval(f, reg, e.rhs, [k] + [1], el.st);
    assert !([k] + [0] <= [k]) && !([k] + [1] <= [k]);
    assert [k] !in er.st.store;
    if e.lhs == Ident(f.stmts[k].id) && FindVariable(f.stmts, f.stmts[k].id) == Some(k) && f.stmts[k].id !in reg.vars {
      assert el.ptr == st.vals[k];
    }
    assert Size(Deref(el.ptr, er.st, reg)) == 0 || Size(Deref(er.ptr, er.st, reg)) == 0;
    assert Eval(f, reg, e, [k], st) == EvalBinary(f, reg, e, [k], st);
    assert EvalBinary(f, reg, e, [k], st).ptr.None?;
  }

  lemma {:induction false} NullThroughRun(f: Formula, reg: Registry, k: nat, i: nat, st: Heap)
    requires AllWellFormed(f) && k < |f.stmts| && NullShape(f, reg, k)
    requires |st.vals| == |f.stmts| && i <= |f.stmts| && st.vals[k].None? && [k] !in st.store
    ensures RunTo(f, reg, i, st).vals[k].None? && [k] !in RunTo(f, reg, i, st).store
  {
    if i > 0 {
      NullThroughRun(f, reg, k, i - 1, st);
      var mid := RunTo(f, reg, i - 1, st);
      if i - 1 != k {
        OtherStmtLeavesNull(f, reg, i - 1, k, mid);
      } else {
        ExecNullShape(f, reg, k, mid);
      }
    }
  }

  /** Such a statement is null after any number of passes, and
      `parserGetIndicator` reports it absent. */
  lemma {:induction false} NullShapeStaysNull(f: Formula, reg: Registry, k: nat, n: nat)
    requires AllWellFormed(f) && k < |f.stmts| && NullShape(f, reg, k)
    ensures Passes(f, reg, n).vals[k].None? && [k] !in Passes(f, reg, n).store
    ensures FindVariable(f.stmts, f.stmts[k].id) == Some(k) ==>
      GetIndicator(f, reg, Passes(f, reg, n), f.stmts[k].id) == Reading(-1, Fin(-DBL_MAX))
  {
    if n > 0 {
      NullShapeStaysNull(f, reg, k, n - 1);
      NullThroughRun(f, reg, k, |f.stmts|, Passes(f, reg, n - 1));
    }
  }

  /** `A : A op x;` reads its own pointer, which is still null, so the
      operator returns its null `R` and `A` is never computed. */
  lemma SelfReferenceStaysNull(f: Formula, reg: Registry, k: nat, op: Token, rhs: Expr, n: nat)
    requires AllWellFormed(f) && k < |f.stmts|
    requires f.stmts[k].expr == Binary(Ident(f.stmts[k].id), op, rhs)
    requires FindVariable(f.stmts, f.stmts[k].id) == Some(k) && f.stmts[k].id !in reg.vars
    ensures GetIndicator(f, reg, Passes(f, reg, n), f.stmts[k].id) == Reading(-1, Fin(-DBL_MAX))
  {
    NullShapeStaysNull(f, reg, k, n);
  }

  /** The formula `A:=2+3*4;` on its own: `A` is absent after every
      pass. With asserts compiled in, the first pass would stop instead at
      `ADD`'s `assert(X && Y)`, since `MUL(3,4)` hands back a null value. */
  lemma TwoPlusThreeTimesFourIsAbsent(name: seq<char>, reg: Registry, n: nat, f: Formula)
    requires f == Formula([Stmt(name, ColonEq, Binary(IntLit(2), AddTk, Binary(IntLit(3), MulTk, IntLit(4))))])
    ensures GetIndicator(f, reg, Passes(f, reg, n), name) == Reading(-1, Fin(-DBL_MAX))
  {
    assert FindVariable(f.stmts, name) == Some(0);
    NullShapeStaysNull(f, reg, 0, n);
  }

  // ---------------------------------------------------------------------
  // Reading a statement.
  // ---------------------------------------------------------------------

  /** A statement bound to a literal reads as that literal from the first
      pass on. */
  lemma LiteralStatementReads(f: Formula, reg: Registry, k: nat, i: int, n: nat)
    requires AllWellFormed(f) && k < |f.stmts| && f.stmts[k].expr == IntLit(i)
    requires FindVariable(f.stmts, f.stmts[k].id) == Some(k)
    ensures GetIndicator(f, reg, Passes(f, reg, n + 1), f.stmts[k].id) == Reading(0, Fin(i as real))
  {
    var st0 := Passes(f, reg, n);
    var mid := RunTo(f, reg, k, st0);
    assert ExecStmt(f, reg, k, mid).vals[k] == Some(Const(IntV(i)));
    RunAfter(f, reg, k + 1, |f.stmts|, ExecStmt(f, reg, k, mid), st0);
    RunSplits(f, reg, k + 1, |f.stmts|, st0);
  }

  /** Statements from `i` on do not touch the pointer of an earlier
      statement. */
  lemma {:induction false} RunAfter(f: Formula, reg: Registry, i: nat, m: nat, st: Heap, st0: Heap)
    requires AllWellFormed(f) && |st.vals| == |f.stmts| && |st0.vals| == |f.stmts| && 0 < i <= m <= |f.stmts|
    requires st == RunTo(f, reg, i, st0)
    ensures forall j :: 0 <= j < i ==> RunTo(f, reg, m, st0).vals[j] == st.vals[j]
  {
    if m > i {
      RunAfter(f, reg, i, m - 1, st, st0);
    }
  }

  /** `RunTo` runs the statements one after another. */
  lemma RunSplits(f: Formula, reg: Registry, i: nat, m: nat, st0: Heap)
    requires AllWellFormed(f) && |st0.vals| == |f.stmts| && 0 < i <= m <= |f.stmts|
    ensures RunTo(f, reg, i, st0) == ExecStmt(f, reg, i - 1, RunTo(f, reg, i - 1, st0))
  {
  }

  /** `A : B; B : e;` with `e` a call or arithmetic: in the first pass `A`
      sees `B`'s still-null pointer; from the next pass on it shares the
      pointer `B` got in the first pass. */
  lemma ForwardReferenceLagsOnePass(f: Formula, reg: Registry, a: seq<char>, b: seq<char>, op1: StmtOp, op2: StmtOp, e: Expr)
    requires a != b && b !in reg.vars && (e.Call? || e.Binary?) && WellFormed(e)
    requires f == Formula([Stmt(a, op1, Ident(b)), Stmt(b, op2, e)])
    ensures Passes(f, reg, 1).vals[0].None?
    ensures Passes(f, reg, 2).vals[0] == Passes(f, reg, 1).vals[1]
  {
    assert FindVariable(f.stmts, b) == Some(1);
    var p0 := Initial(f);
    assert RunTo(f, reg, 0, p0) == p0;
    assert RunTo(f, reg, 1, p0) == ExecStmt(f, reg, 0, p0);
    assert Passes(f, reg, 0) == p0;
    assert Pass(f, reg, p0) == RunTo(f, reg, 2, p0);
    var p1 := Passes(f, reg, 1);
    assert p1 == ExecStmt(f, reg, 1, ExecStmt(f, reg, 0, p0));
    var s1 := ExecStmt(f, reg, 0, p1);
    assert RunTo(f, reg, 1, p1) == s1;
    assert s1.vals[0] == p1.vals[1];
    assert Passes(f, reg, 2) == ExecStmt(f, reg, 1, s1);
  }
}

=== FILE: lexer.dfy ===
/** The lexer of `lexer.cpp`: a cursor over a character buffer that hands
    out one token at a time, skipping white space, taking the longest
    identifier or number, and looking one character ahead for `:=`.

    Characters are classified as in the "C" locale. Each `char` of the
    buffer stands for one C `char`, that is one byte: text outside ASCII
    is meant to be given as its encoded bytes, each of which is then one
    error token, as in the source. */
module Lexer {
  import opened Common
  import opened Memory

  /** `enum Token`, in declaration order. */
  datatype Token =
    | Id | Int | Decimal | Colon | ColonEq | Semicolon | LP | RP | Comma
    | AddTk | SubTk | MulTk | DivTk | Eof | Err | NoneTk

  /** `TK_ALL`, one past the last token. */
  const TK_ALL: int := 16

  /** The enumerator value of a token. */
  function Ordinal(t: Token): (n: int)
    ensures 0 <= n < TK_ALL
  {
    match t
    case Id => 0 case Int => 1 case Decimal => 2 case Colon => 3 case ColonEq => 4
    case Semicolon => 5 case LP => 6 case RP => 7 case Comma => 8 case AddTk => 9
    case SubTk => 10 case MulTk => 11 case DivTk => 12 case Eof => 13 case Err => 14
    case NoneTk => 15
  }

  /** The token with enumerator value `n`, if any. */
  function FromOrdinal(n: int): (t: Option<Token>)
    ensures t.Some? <==> 0 <= n < TK_ALL
  {
    if n == 0 then Some(Id) else if n == 1 then Some(Int) else if n == 2 then Some(Decimal)
    else if n == 3 then Some(Colon) else if n == 4 then Some(ColonEq)
    else if n == 5 then Some(Semicolon) else if n == 6 then Some(LP) else if n == 7 then Some(RP)
    else if n == 8 then Some(Comma) else if n == 9 then Some(AddTk) else if n == 10 then Some(SubTk)
    else if n == 11 then Some(MulTk) else if n == 12 then Some(DivTk) else if n == 13 then Some(Eof)
    else if n == 14 then Some(Err) else if n == 15 then Some(NoneTk) else None
  }

  /** The token kinds are a closed set numbered `0 .. TK_ALL - 1`: each
      value below `TK_ALL` names exactly one kind. */
  lemma OrdinalRoundTrip(t: Token, n: int)
    ensures FromOrdinal(Ordinal(t)) == Some(t)
    ensures 0 <= n < TK_ALL ==> Ordinal(FromOrdinal(n).value) == n
  {
  }

  // -------------------------------------------------------------------
  // Character classes
  // -------------------------------------------------------------------

  predicate IsAlpha(c: char) { 'a' <= c <= 'z' || 'A' <= c <= 'Z' }

  predicate IsDigit(c: char) { '0' <= c <= '9' }

  predicate IsAlnum(c: char) { IsAlpha(c) || IsDigit(c) }

  /** `isspace`: blank, tab, newline, vertical tab, form feed, return. */
  predicate IsSpace(c: char)
  {
    c == ' ' || c == '\t' || c == '\n' || c == '\U{000B}' || c == '\U{000C}' || c == '\r'
  }

  // -------------------------------------------------------------------
  // State and buffer
  // -------------------------------------------------------------------

  /** `struct Lexer`: `code` is `None` for a null buffer. */
  datatype State = State(code: Option<seq<char>>, capacity: int, size: int, cursor: int, lineno: int, charpos: int)

  /** `lexerNew`. */
  function LexerNew(): (l: State)
    ensures l.code.None? && l.capacity == 0 && l.size == 0 && l.cursor == 0
    ensures l.lineno == 1 && l.charpos == 0
  {
    State(None, 0, 0, 0, 1, 0)
  }

  /** The buffer bookkeeping `lexerRead` keeps: no buffer and nothing read,
      or a buffer of `capacity` chars holding the text and a terminator. */
  predicate Buffered(l: State)
  {
    && 0 <= l.cursor <= l.size
    && (l.code.None? ==> l.size == 0 && l.capacity == 0)
    && (l.code.Some? ==> |l.code.value| == l.capacity && l.size < l.capacity && l.code.value[l.size] == '\0')
  }

  /** The text read so far. */
  function Text(l: State): seq<char>
    requires l.code.Some? ==> 0 <= l.size <= |l.code.value|
  {
    if l.code.Some? then l.code.value[..l.size] else []
  }

  /** `lexerExtend(l, len)`: reallocates to `capacity + len` when there is
      no buffer or `size + len` exceeds the capacity. */
  function LexerExtend(l: State, len: int, allocOk: bool): (r: (bool, State))
    ensures !r.0 ==> r.1 == l
    ensures r.1.size == l.size && r.1.cursor == l.cursor
  {
    if l.code.None? || l.size + len > l.capacity then
      var n := l.capacity + len;
      if !allocOk || n < 0 then (false, l)
      else
        var prev := if l.code.Some? then l.code.value else [];
        (true, l.(code := Some(Realloc(prev, n, '\0')), capacity := n))
    else (true, l)
  }

  /** Outcome of `lexerRead`: return code and state, or a write outside the
      buffer. */
  datatype Read = Read(ret: int, lex: State) | ReadFault

  /** `lexerRead(l, str, len)` with `len == |str|`. */
  function LexerRead(l: State, str: seq<char>, allocOk: bool): (r: Read)
    ensures Buffered(l) && allocOk ==>
      r.Read? && r.ret == 0 && Buffered(r.lex)
      && r.lex.size == l.size + |str| && r.lex.cursor == l.cursor
      && Text(r.lex) == Text(l) + str
      && r.lex.lineno == l.lineno && r.lex.charpos == l.charpos
    ensures Buffered(l) && !allocOk ==> r.Read? && (r.ret == 0 || r == Read(-1, l))
  {
    var e := LexerExtend(l, |str| + 1, allocOk);
    ExtendRoom(l, |str| + 1, allocOk);
    if !e.0 then Read(-1, l)
    else
      var m := e.1;
      match Store(m.code.value, m.size, str)
      case Fault => ReadFault
      case Stored(b) =>
        match Store(b, m.size + |str|, ['\0'])
        case Fault => ReadFault
        case Stored(b') =>
          StoredTerminated(m.code.value, m.size, str);
          Read(0, m.(code := Some(b'), size := m.size + |str|))
  }

  /** A successful `lexerExtend` on a buffered state keeps the text and
      leaves room for `len` more chars. */
  lemma ExtendRoom(l: State, len: nat, allocOk: bool)
    ensures var e := LexerExtend(l, len, allocOk);
      Buffered(l) ==> (
        (allocOk ==> e.0)
        && (e.0 ==> (
          e.1.code.Some? && |e.1.code.value| == e.1.capacity && l.size + len <= e.1.capacity
          && e.1.code.value[..l.size] == Text(l)
          && e.1.lineno == l.lineno && e.1.charpos == l.charpos)))
  {
  }

  /** Copying `str` to `at` and a NUL after it leaves the old prefix, then
      `str`, then the NUL. */
  lemma StoredTerminated(blk: seq<char>, at: nat, str: seq<char>)
    requires Store(blk, at, str).Stored?
    requires Store(Store(blk, at, str).block, at + |str|, ['\0']).Stored?
    ensures var b' := Store(Store(blk, at, str).block, at + |str|, ['\0']).block;
      |b'| == |blk| && b'[..at + |str|] == blk[..at] + str && b'[at + |str|] == '\0'
  {
    var b := Store(blk, at, str).block;
    var b' := Store(b, at + |str|, ['\0']).block;
    assert forall i :: 0 <= i < at + |str| ==> b'[i] == b[i];
  }

  // -------------------------------------------------------------------
  // Matchers
  // -------------------------------------------------------------------

  /** First position from `i` that is not white space, or `|s|`. */
  function SkipSpace(s: seq<char>, i: int): (j: int)
    requires 0 <= i <= |s|
    ensures i <= j <= |s|
    ensures forall k :: i <= k < j ==> IsSpace(s[k])
    ensures j < |s| ==> !IsSpace(s[j])
    decreases |s| - i
  {
    if i == |s| || !IsSpace(s[i]) then i else SkipSpace(s, i + 1)
  }

  /** `lexerMatch_ID`: the end of the run of letters and digits from `i`. */
  function MatchId(s: seq<char>, i: int): (j: int)
    requires 0 <= i <= |s|
    ensures i <= j <= |s|
    ensures forall k :: i <= k < j ==> IsAlnum(s[k])
    ensures j < |s| ==> !IsAlnum(s[j])
    decreases |s| - i
  {
    if i == |s| || !IsAlnum(s[i]) then i else MatchId(s, i + 1)
  }

  /** `lexerMatch_INT_DECIMAL`: the end of the run of digits from `i` with
      at most one `.` (none when `dot` is already set), and whether a `.`
      has been taken. */
  function MatchNumber(s: seq<char>, i: int, dot: bool): (r: (int, bool))
    requires 0 <= i <= |s|
    ensures i <= r.0 <= |s|
    ensures forall k :: i <= k < r.0 ==> IsDigit(s[k]) || s[k] == '.'
    ensures r.1 <==> dot || exists k :: i <= k < r.0 && s[k] == '.'
    ensures dot ==> forall k :: i <= k < r.0 ==> s[k] != '.'
    ensures forall k1, k2 :: i <= k1 < k2 < r.0 && s[k1] == '.' ==> s[k2] != '.'
    ensures r.0 < |s| ==> !IsDigit(s[r.0]) && (s[r.0] == '.' ==> r.1)
    decreases |s| - i
  {
    if i == |s| then (i, dot)
    else if IsDigit(s[i]) then MatchNumber(s, i + 1, dot)
    else if s[i] == '.' && !dot then MatchNumber(s, i + 1, true)
    else (i, dot)
  }

  /** The single-character tokens other than `:`. */
  function Punct(c: char): Option<Token>
  {
    if c == ';' then Some(Semicolon) else if c == '(' then Some(LP) else if c == ')' then Some(RP)
    else if c == ',' then Some(Comma) else if c == '+' then Some(AddTk) else if c == '-' then Some(SubTk)
    else if c == '*' then Some(MulTk) else if c == '/' then Some(DivTk) else None
  }

  /** Exactly the eight characters `;`, `(`, `)`, `,`, `+`, `-`, `*` and
      `/` are single-character tokens, each one of the eight punctuators. */
  lemma PunctTokens(c: char)
    ensures Punct(c).Some? <==> c in ";(),+-*/"
    ensures Punct(c).Some? ==> Punct(c).value in {Semicolon, LP, RP, Comma, AddTk, SubTk, MulTk, DivTk}
  {
  }

  /** Distinct characters give distinct tokens. */
  lemma PunctInjective(c: char, d: char)
    requires Punct(c).Some? && Punct(c) == Punct(d)
    ensures c == d
  {
  }

  // -------------------------------------------------------------------
  // parseToken
  // -------------------------------------------------------------------

  /** A token, the index of its first character (`*value`, `None` for a
      null pointer), its length and the new state. */
  datatype Lexed = Lexed(tok: Token, start: Option<int>, len: int, lex: State)

  /** The precondition of `parseToken`: its assert on the cursor, and a
      buffer that holds `size` characters. */
  predicate Wf(l: State)
  {
    0 <= l.cursor <= l.size && (l.code.Some? ==> l.size <= |l.code.value|)
  }

  /** `parseToken`/`lexerGetToken`. */
  function GetToken(l: State): (r: Lexed)
    requires Wf(l)
    ensures Wf(r.lex) && r.lex == l.(cursor := r.lex.cursor)
    ensures l.cursor <= r.lex.cursor <= l.size
    ensures r.tok == Eof <==> r.start.None?
    ensures r.tok == Eof ==> r.len == 0 && (l.code.Some? ==> r.lex.cursor == l.size)
    ensures r.tok != Eof ==> r.lex.cursor > l.cursor
    ensures r.tok != Eof ==>
      var j := r.start.value;
      l.code.Some? && l.cursor <= j < r.lex.cursor && j < l.size
      && (forall k :: l.cursor <= k < j ==> IsSpace(l.code.value[k]))
      && !IsSpace(l.code.value[j])
      && (r.tok == Err ==> r.len == 0 && r.lex.cursor == j + 1)
      && (r.tok != Err ==> r.len >= 1 && j + r.len == r.lex.cursor)
    ensures r.tok != NoneTk
  {
    if l.cursor == l.size || l.code.None? then Lexed(Eof, None, 0, l)
    else
      var s := l.code.value[..l.size];
      var j := SkipSpace(s, l.cursor);
      if j == |s| then Lexed(Eof, None, 0, l.(cursor := |s|))
      else
        var ch := s[j];
        var c1 := j + 1;
        if IsAlpha(ch) then
          var e := MatchId(s, c1);
          Lexed(Id, Some(j), e - j, l.(cursor := e))
        else if IsDigit(ch) then
          var m := MatchNumber(s, c1, false);
          Lexed(if m.1 then Decimal else Int, Some(j), m.0 - j, l.(cursor := m.0))
        else if ch == ':' then
          if c1 == |s| then Lexed(Colon, Some(j), 1, l.(cursor := c1))
          else if s[c1] == '=' then Lexed(ColonEq, Some(j), 2, l.(cursor := c1 + 1))
          else Lexed(Colon, Some(j), 1, l.(cursor := c1))
        else if Punct(ch).Some? then Lexed(Punct(ch).value, Some(j), 1, l.(cursor := c1))
        else Lexed(Err, Some(j), 0, l.(cursor := c1))
  }

  /** The characters of a token: `code[start .. start + len)`. */
  function Lexeme(l: State, r: Lexed): seq<char>
    requires Wf(l) && r == GetToken(l)
  {
    if r.start.Some? then l.code.value[r.start.value .. r.start.value + r.len] else []
  }

  /** Once the lexer says EOF it keeps saying EOF. */
  lemma EofIsSticky(l: State)
    requires Wf(l) && GetToken(l).tok == Eof
    ensures GetToken(GetToken(l).lex).tok == Eof
    ensures GetToken(GetToken(l).lex).lex == GetToken(l).lex
  {
  }

  /** EOF exactly when the cursor is at the end, there is no buffer, or
      only white space is left. */
  lemma EofIffOnlySpaceLeft(l: State)
    requires Wf(l)
    ensures GetToken(l).tok == Eof <==>
      (l.code.None? || forall k :: l.cursor <= k < l.size ==> IsSpace(l.code.value[k]))
  {
    if l.code.Some? && l.cursor < l.size {
      var s := l.code.value[..l.size];
      var j := SkipSpace(s, l.cursor);
      assert forall k :: l.cursor <= k < j ==> IsSpace(l.code.value[k]);
    }
  }

  /** `[a-zA-Z][a-zA-Z0-9]*`. */
  predicate IdWord(w: seq<char>)
  {
    |w| >= 1 && IsAlpha(w[0]) && forall k :: 1 <= k < |w| ==> IsAlnum(w[k])
  }

  /** `[0-9]+`. */
  predicate IntWord(w: seq<char>)
  {
    |w| >= 1 && forall k :: 0 <= k < |w| ==> IsDigit(w[k])
  }

  /** `[0-9]*\.[0-9]+`, the documented form of a decimal. */
  predicate DecimalDocWord(w: seq<char>)
  {
    exists k :: 0 <= k < |w| - 1 && w[k] == '.'
      && (forall i :: 0 <= i < k ==> IsDigit(w[i]))
      && (forall i :: k < i < |w| ==> IsDigit(w[i]))
  }

  /** `[0-9]+\.[0-9]*`, the form the lexer takes. */
  predicate DecimalWord(w: seq<char>)
  {
    exists k :: 0 < k < |w| && w[k] == '.'
      && (forall i :: 0 <= i < k ==> IsDigit(w[i]))
      && (forall i :: k < i < |w| ==> IsDigit(w[i]))
  }

  /** An identifier token is a letter followed by the longest run of
      letters and digits, and only a letter starts one. */
  lemma IdShape(l: State)
    requires Wf(l) && GetToken(l).tok != Eof
    ensures var r := GetToken(l);
      (r.tok == Id <==> IsAlpha(l.code.value[r.start.value]))
      && (r.tok == Id ==>
            IdWord(Lexeme(l, r))
            && (r.lex.cursor == l.size || !IsAlnum(l.code.value[r.lex.cursor])))
  {
    var r := GetToken(l);
    if r.tok == Id {
      var w := Lexeme(l, r);
      var j := r.start.value;
      assert forall k :: 0 <= k < |w| ==> w[k] == l.code.value[j + k];
    }
  }

  /** The characters `MatchNumber` takes after a first digit form an
      integer, or a decimal when a `.` was taken. */
  lemma NumberWord(s: seq<char>, j: int)
    requires 0 <= j < |s| && IsDigit(s[j])
    ensures var m := MatchNumber(s, j + 1, false);
      (!m.1 ==> IntWord(s[j..m.0])) && (m.1 ==> DecimalWord(s[j..m.0]))
  {
    assert s[j..j + 1] == [s[j]];
    NumberRun(s, j, j + 1, false);
  }

  /** Each step of `MatchNumber` keeps the word read so far an integer,
      or a decimal once the `.` is taken. */
  lemma {:induction false} NumberRun(s: seq<char>, j: int, i: int, dot: bool)
    requires 0 <= j < i <= |s|
    requires !dot ==> IntWord(s[j..i])
    requires dot ==> DecimalWord(s[j..i])
    ensures var m := MatchNumber(s, i, dot);
      (!m.1 ==> IntWord(s[j..m.0])) && (m.1 ==> DecimalWord(s[j..m.0]))
    decreases |s| - i
  {
    if i < |s| {
      if IsDigit(s[i]) {
        if dot { DecimalGrows(s, j, i); } else { IntGrows(s, j, i); }
        NumberRun(s, j, i + 1, dot);
      } else if s[i] == '.' && !dot {
        PointTaken(s, j, i);
        NumberRun(s, j, i + 1, true);
      }
    }
  }

  lemma IntGrows(s: seq<char>, j: int, i: int)
    requires 0 <= j < i < |s| && IntWord(s[j..i]) && IsDigit(s[i])
    ensures IntWord(s[j..i + 1])
  {
    assert s[j..i + 1] == s[j..i] + [s[i]];
  }

  lemma DecimalGrows(s: seq<char>, j: int, i: int)
    requires 0 <= j < i < |s| && DecimalWord(s[j..i]) && IsDigit(s[i])
    ensures DecimalWord(s[j..i + 1])
  {
    var w := s[j..i];
    var k :| 0 < k < |w| && w[k] == '.' && (forall x :: 0 <= x < k ==> IsDigit(w[x])) && (forall x :: k < x < |w| ==> IsDigit(w[x]));
    var w' := s[j..i + 1];
    assert w' == w + [s[i]];
    assert w'[k] == '.' && (forall x :: 0 <= x < k ==> IsDigit(w'[x])) && (forall x :: k < x < |w'| ==> IsDigit(w'[x]));
  }

  lemma PointTaken(s: seq<char>, j: int, i: int)
    requires 0 <= j < i < |s| && IntWord(s[j..i]) && s[i] == '.'
    ensures DecimalWord(s[j..i + 1])
  {
    var w' := s[j..i + 1];
    assert w' == s[j..i] + ['.'];
    assert w'[i - j] == '.' && (forall x :: 0 <= x < i - j ==> IsDigit(w'[x]));
  }

  /** A number token is the longest run of digits with at most one `.`,
      starting with a digit; it is a decimal exactly when a `.` was taken,
      and a second `.` is left for the next token. */
  lemma NumberShape(l: State)
    requires Wf(l) && GetToken(l).tok != Eof
    ensures var r := GetToken(l);
      ((r.tok == Int || r.tok == Decimal) <==> IsDigit(l.code.value[r.start.value]))
      && (r.tok == Int ==> IntWord(Lexeme(l, r)))
      && (r.tok == Decimal ==> DecimalWord(Lexeme(l, r)))
      && ((r.tok == Int || r.tok == Decimal) && r.lex.cursor < l.size ==>
            !IsDigit(l.code.value[r.lex.cursor])
            && (l.code.value[r.lex.cursor] == '.' ==> r.tok == Decimal))
  {
    var r := GetToken(l);
    var j := r.start.value;
    var s := l.code.value[..l.size];
    if IsDigit(s[j]) {
      NumberToken(l);
      NumberWord(s, j);
      assert Lexeme(l, r) == s[j..r.lex.cursor];
    }
  }

  /** A token starting with a digit is what `MatchNumber` reads. */
  lemma NumberToken(l: State)
    requires Wf(l) && GetToken(l).tok != Eof && IsDigit(l.code.value[GetToken(l).start.value])
    ensures var r := GetToken(l); var j := r.start.value;
      var m := MatchNumber(l.code.value[..l.size], j + 1, false);
      r.tok == (if m.1 then Decimal else Int) && r.len == m.0 - j && r.lex.cursor == m.0
  {
  }

  /** `:` followed by `=` is one `:=` token of length 2; otherwise `:` is a
      token of length 1, at the end of the text too. */
  lemma ColonShape(l: State)
    requires Wf(l) && GetToken(l).tok != Eof
    ensures var r := GetToken(l); var j := r.start.value;
      ((r.tok == Colon || r.tok == ColonEq) <==> l.code.value[j] == ':')
      && (r.tok == ColonEq <==> l.code.value[j] == ':' && j + 1 < l.size && l.code.value[j + 1] == '=')
      && (r.tok == ColonEq ==> r.len == 2)
      && (r.tok == Colon ==> r.len == 1)
  {
  }

  /** Each of `; ( ) , + - * /` is a token of length 1; any character that
      starts no token is an error of length 0 that is consumed. */
  lemma SingleCharShape(l: State)
    requires Wf(l) && GetToken(l).tok != Eof
    ensures var r := GetToken(l); var c := l.code.value[r.start.value];
      (Punct(c).Some? ==> r.tok == Punct(c).value && r.len == 1)
      && (r.tok == Err <==> !IsAlnum(c) && c != ':' && Punct(c).None?)
  {
  }

  /** Lexing `w` then a non-alphanumeric character (or nothing) gives one
      identifier of length `|w|` at the start exactly when `w` has the
      documented form `[a-zA-Z][a-zA-Z0-9]*`. */
  lemma IdMatchesDoc(w: seq<char>, rest: seq<char>)
    requires w != [] && (rest == [] || !IsAlnum(rest[0]))
    ensures var l := State(Some(w + rest), |w + rest|, |w + rest|, 0, 1, 0);
      var r := GetToken(l);
      (r.tok == Id && r.start == Some(0) && r.len == |w|) <==> IdWord(w)
  {
    var s := w + rest;
    var l := State(Some(s), |s|, |s|, 0, 1, 0);
    assert s[..|s|] == s;
    assert forall k :: 0 <= k < |w| ==> s[k] == w[k];
    if IdWord(w) {
      MatchIdOver(s, 1, |w|);
    }
  }

  /** `MatchId` runs to the first non-alphanumeric character. */
  lemma MatchIdOver(s: seq<char>, i: int, e: int)
    requires 0 <= i <= e <= |s|
    requires forall k :: i <= k < e ==> IsAlnum(s[k])
    requires e == |s| || !IsAlnum(s[e])
    ensures MatchId(s, i) == e
    decreases e - i
  {
    if i < e {
      MatchIdOver(s, i + 1, e);
    }
  }

  /** The documented decimal form `[0-9]*\.[0-9]+` disagrees with the
      lexer: `1.` is lexed as a decimal but has no digit after the point. */
  lemma TrailingPointIsDecimal()
    ensures var l := State(Some(['1', '.']), 2, 2, 0, 1, 0);
      GetToken(l).tok == Decimal && GetToken(l).len == 2 && !DecimalDocWord(['1', '.'])
  {
    TrailingPointToken();
    TrailingPointOffDoc();
  }

  lemma TrailingPointToken()
    ensures var l := State(Some(['1', '.']), 2, 2, 0, 1, 0);
      GetToken(l) == Lexed(Decimal, Some(0), 2, l.(cursor := 2))
  {
    var w := ['1', '.'];
    assert w[..2] == w;
    assert SkipSpace(w, 0) == 0;
    assert MatchNumber(w, 1, false) == (2, true) by {
      assert MatchNumber(w, 2, true) == (2, true);
    }
  }

  lemma TrailingPointOffDoc()
    ensures !DecimalDocWord(['1', '.'])
  {
    var w := ['1', '.'];
    assert w[0] == '1';
  }

  /** And `.5` has the documented form but is lexed as an error followed
      by an integer. */
  lemma LeadingPointIsError()
    ensures var l := State(Some(['.', '5']), 2, 2, 0, 1, 0);
      GetToken(l).tok == Err && GetToken(GetToken(l).lex).tok == Int && DecimalDocWord(['.', '5'])
  {
    var w := ['.', '5'];
    var l := State(Some(w), 2, 2, 0, 1, 0);
    assert w[..2] == w;
    assert SkipSpace(w, 0) == 0;
    assert SkipSpace(w, 1) == 1;
    assert MatchNumber(w, 2, false) == (2, false);
    assert w[0] == '.' && forall i :: 0 < i < 2 ==> IsDigit(w[i]);
  }

  // -------------------------------------------------------------------
  // The token stream
  // -------------------------------------------------------------------

  /** A token with its characters, as the parser sees it (`tok`, `tokval`,
      `toklen`). */
  datatype Tk = Tk(tok: Token, text: seq<char>)

  /** Every token from the cursor on, up to and including the first EOF. */
  function Tokenize(l: State): (ts: seq<Tk>)
    requires Wf(l)
    ensures |ts| >= 1 && ts[|ts| - 1].tok == Eof
    ensures forall i :: 0 <= i < |ts| - 1 ==> ts[i].tok != Eof
    ensures ts[0].tok == GetToken(l).tok
    decreases l.size - l.cursor
  {
    var r := GetToken(l);
    var t := Tk(r.tok, Lexeme(l, r));
    if r.tok == Eof then [t] else [t] + Tokenize(r.lex)
  }
}

=== FILE: literals.dfy ===
/** The values of number literals: `atoi` of an integer token and `atof`
    of a decimal token, computed exactly. */
module Literals {
  import opened Lexer

  function Digit(c: char): (d: int)
    requires IsDigit(c)
    ensures 0 <= d <= 9
  {
    c as int - '0' as int
  }

  /** The decimal digit of `d`. */
  function DigitChar(d: int): (c: char)
    requires 0 <= d <= 9
    ensures IsDigit(c) && Digit(c) == d
  {
    ('0' as int + d) as char
  }

  predicate AllDigits(w: seq<char>)
  {
    forall k :: 0 <= k < |w| ==> IsDigit(w[k])
  }

  /** The value of a run of decimal digits. */
  function Value(w: seq<char>): (n: nat)
    requires AllDigits(w)
  {
    if w == [] then 0 else Value(w[..|w| - 1]) * 10 + Digit(w[|w| - 1])
  }

  /** The length of the run of digits `w` starts with. */
  function DigitRun(w: seq<char>): (n: nat)
    ensures n <= |w| && AllDigits(w[..n])
    ensures n < |w| ==> !IsDigit(w[n])
  {
    if w == [] || !IsDigit(w[0]) then 0
    else
      var n := 1 + DigitRun(w[1..]);
      assert w[..n] == [w[0]] + w[1..][..n - 1];
      n
  }

  /** `atoi`: the value of the leading digits. */
  function Atoi(w: seq<char>): nat
  {
    Value(w[..DigitRun(w)])
  }

  /** A word of digits only is read whole by `atoi`; a word that does not
      start with a digit reads as 0. */
  lemma AtoiOfDigits(w: seq<char>)
    ensures AllDigits(w) ==> Atoi(w) == Value(w)
    ensures w == [] || !IsDigit(w[0]) ==> Atoi(w) == 0
  {
    if AllDigits(w) {
      DigitRunOfDigits(w, []);
      assert w + [] == w;
    }
  }

  /** The shortest decimal spelling of `n`. */
  function Show(n: nat): (w: seq<char>)
    ensures AllDigits(w) && |w| >= 1
  {
    if n < 10 then [DigitChar(n)] else Show(n / 10) + [DigitChar(n % 10)]
  }

  /** `Show` inverts `Value`: every natural number is read back from its
      spelling. */
  lemma {:induction false} ValueShow(n: nat)
    ensures Value(Show(n)) == n
  {
    var w := Show(n);
    if n >= 10 {
      ValueShow(n / 10);
      assert w[..|w| - 1] == Show(n / 10);
    }
  }

  /** A run of digits is read whole. */
  lemma DigitRunOfDigits(w: seq<char>, rest: seq<char>)
    requires AllDigits(w) && (rest == [] || !IsDigit(rest[0]))
    ensures DigitRun(w + rest) == |w| && (w + rest)[..|w|] == w
  {
  }

  /** `atoi` reads back what `Show` spells, so the literal of an integer
      token denotes the number written. */
  lemma AtoiShow(n: nat)
    ensures Atoi(Show(n)) == n
  {
    DigitRunOfDigits(Show(n), []);
    assert Show(n) + [] == Show(n);
    ValueShow(n);
  }

  function Pow10(k: nat): (p: nat)
    ensures p >= 1
  {
    if k == 0 then 1 else 10 * Pow10(k - 1)
  }

  /** `atof` on the shapes the lexer produces: the leading digits, plus
      the digits after a point scaled down by their count. */
  function Atof(w: seq<char>): real
  {
    var a := DigitRun(w);
    var whole := Value(w[..a]) as real;
    if a < |w| && w[a] == '.' then
      var f := w[a + 1..];
      var b := DigitRun(f);
      whole + Value(f[..b]) as real / Pow10(b) as real
    else whole
  }

  /** `atof` is at least `atoi` of the same text, and agrees with it on a
      word without a point. */
  lemma AtofOfDigits(w: seq<char>)
    ensures Atof(w) >= Atoi(w) as real
    ensures AllDigits(w) ==> Atof(w) == Atoi(w) as real
  {
    if AllDigits(w) {
      DigitRunOfDigits(w, []);
      assert w + [] == w;
    }
  }

  /** Where the run of digits stops in `a.b`. */
  lemma PointFacts(a: seq<char>, b: seq<char>)
    requires AllDigits(a) && AllDigits(b)
    ensures var w := a + ['.'] + b;
      |a| < |w| && DigitRun(w) == |a| && w[|a|] == '.' && w[..|a|] == a
      && w[|a| + 1..] == b && DigitRun(b) == |b| && b[..|b|] == b
  {
    PointSlices(a, b);
    DigitRunOfDigits(a, ['.'] + b);
    DigitRunOfDigits(b, []);
    assert b + [] == b;
  }

  lemma PointSlices(a: seq<char>, b: seq<char>)
    ensures var w := a + ['.'] + b;
      w == a + (['.'] + b) && w[|a|] == '.' && w[..|a|] == a && w[|a| + 1..] == b
  {
  }

  /** `atoi` of a run of digits is its value. */
  lemma AtoiDigits(a: seq<char>)
    requires AllDigits(a)
    ensures Atoi(a) == Value(a)
  {
    DigitRunOfDigits(a, []);
    assert a + [] == a;
  }

  /** `atof` on digits, a point and digits. */
  lemma AtofAtPoint(w: seq<char>, k: nat)
    requires k < |w| && DigitRun(w) == k && w[k] == '.' && DigitRun(w[k + 1..]) == |w| - k - 1
    ensures Atof(w) == Value(w[..k]) as real + Value(w[k + 1..][..|w| - k - 1]) as real / Pow10(|w| - k - 1) as real
  {
  }

  /** The value of `a.b` is the integer `a` plus the fraction `b`. */
  lemma AtofSplits(a: seq<char>, b: seq<char>)
    requires AllDigits(a) && AllDigits(b)
    ensures Atof(a + ['.'] + b) == Atoi(a) as real + Atoi(b) as real / Pow10(|b|) as real
  {
    var w := a + ['.'] + b;
    PointFacts(a, b);
    AtofAtPoint(w, |a|);
    AtoiDigits(a);
    AtoiDigits(b);
  }
}

=== FILE: memory.dfy ===
/** Heap blocks as sequences. A block is what `malloc`/`realloc` hand back:
    exactly `n` cells, the first ones copied from the old block. Stores that
    fall outside the block are faults (undefined behaviour in the source). */
module Memory {

  /** Outcome of storing into a block. */
  datatype Stored<T> = Stored(block: seq<T>) | Fault

  /** `realloc(block, n)`: keeps the common prefix; cells past the old end
      are unspecified and modelled by `fill`. */
  function Realloc<T>(block: seq<T>, n: nat, fill: T): (r: seq<T>)
    ensures |r| == n
    ensures forall i :: 0 <= i < |block| && i < n ==> r[i] == block[i]
    ensures forall i :: |block| <= i < n ==> r[i] == fill
  {
    if n <= |block| then block[..n] else block + seq(n - |block|, _ => fill)
  }

  /** `memcpy(&block[at], xs, |xs|)`: faults unless every written cell lies
      inside the block; otherwise exactly those cells change. */
  function Store<T>(block: seq<T>, at: int, xs: seq<T>): (r: Stored<T>)
    ensures r.Stored? <==> 0 <= at && at + |xs| <= |block|
    ensures r.Stored? ==> |r.block| == |block|
    ensures r.Stored? ==> forall i :: 0 <= i < |xs| ==> r.block[at + i] == xs[i]
    ensures r.Stored? ==> forall i :: 0 <= i < |block| && !(at <= i < at + |xs|) ==> r.block[i] == block[i]
  {
    if 0 <= at && at + |xs| <= |block| then
      Stored(block[..at] + xs + block[at + |xs|..])
    else
      Fault
  }
}

=== FILE: parser.dfy ===
/** The recursive-descent parser of `parser.cpp`, over the token stream
    the lexer produces. The parser reads one token ahead (`tok`); the
    stream past its end keeps answering EOF, as the lexer does.

    Errors are reported through an optional callback that answers 0 to
    continue; any other answer, or a missing callback, sets `isquit`. */
module Parser {
  import opened Common
  import opened Lexer
  import opened Ast
  import opened Literals

  const PREC_ADD: int := 10
  const PREC_SUB: int := 10
  const PREC_MUL: int := 20
  const PREC_DIV: int := 20

  /** `getPrec`: positive exactly for the four arithmetic tokens, and
      higher for `*` and `/` than for `+` and `-`. */
  function Prec(t: Token): (n: int)
    ensures n > 0 <==> ArithTok(t)
    ensures !ArithTok(t) ==> n == -1
    ensures t == MulTk || t == DivTk ==> n == PREC_MUL && n == PREC_DIV
    ensures t == AddTk || t == SubTk ==> n == PREC_ADD && n == PREC_SUB
    ensures PREC_ADD < PREC_MUL
  {
    match t
    case AddTk => PREC_ADD
    case SubTk => PREC_SUB
    case MulTk => PREC_MUL
    case DivTk => PREC_DIV
    case _ => -1
  }

  /** The error callback: the answer to the `n`-th report, counting from
      zero. */
  datatype Handler = NoHandler | Callback(answer: nat -> int)

  /** The places a report is raised from. */
  datatype Problem =
    | BadExprList       // parseExprList: an argument did not parse
    | MissingRP         // parseIdOrFuncCall: no `)` after the arguments
    | BadBinary         // parseBinaryExpr: no operand after the operator
    | MissingSemicolon  // parseStmt: no `;` after the expression
    | BadAssign         // parseStmt: neither `:=` nor `:` after the name
    | BadToken          // parseFormula: a statement does not start with a name

  /** The `error` argument of the report: 0 only for a missing `;`. */
  function Severity(pr: Problem): int
  {
    if pr == MissingSemicolon then 0 else 1
  }

  /** A call of the callback: the lexer's position and the error number. */
  datatype Report = Report(lineno: int, charpos: int, error: int, problem: Problem)

  /** The parser fields that change while parsing: the current token, the
      tokens not yet read, the reports so far (`errcount` is their number)
      and `isquit`. */
  datatype P = P(tok: Tk, rest: seq<Tk>, reports: seq<Report>, quit: bool)

  function Measure(p: P): nat
  {
    2 * |p.rest| + if p.tok.tok == Eof then 0 else 1
  }

  /** `p->tok = lexerGetToken(...)`. */
  function Advance(p: P): (q: P)
    ensures q.reports == p.reports && q.quit == p.quit
    ensures p.rest == [] ==> q.tok.tok == Eof && q.rest == []
    ensures p.rest != [] ==> q.tok == p.rest[0] && q.rest == p.rest[1..]
    ensures Measure(q) <= Measure(p)
    ensures p.tok.tok != Eof || p.rest != [] ==> Measure(q) < Measure(p)
  {
    if p.rest == [] then p.(tok := Tk(Eof, [])) else p.(tok := p.rest[0], rest := p.rest[1..])
  }

  datatype Raised = Raised(abort: bool, p: P)

  /** `handleParserError`: one more report; abort and set `isquit` when
      there is no callback or it answers nonzero. */
  function HandleError(p: P, h: Handler, pr: Problem): (r: Raised)
    ensures r.p.tok == p.tok && r.p.rest == p.rest
    ensures |r.p.reports| == |p.reports| + 1 && r.p.reports[..|p.reports|] == p.reports
    ensures r.p.reports[|p.reports|].error == Severity(pr) && r.p.reports[|p.reports|].problem == pr
    ensures r.abort <==> h.NoHandler? || h.answer(|p.reports|) != 0
    ensures r.p.quit <==> p.quit || r.abort
  {
    var l := LexerNew();
    var q := p.(reports := p.reports + [Report(l.lineno, l.charpos, Severity(pr), pr)]);
    if h.NoHandler? || h.answer(|p.reports|) != 0 then Raised(true, q.(quit := true))
    else Raised(false, q)
  }

  /** A node (or none) and the parser after it. */
  datatype Parsed<T> = Parsed(node: Option<T>, p: P)

  /** Parsing moves forward: it reads tokens, only adds reports, and never
      clears `isquit`. */
  predicate Follows(p: P, q: P)
  {
    Measure(q) <= Measure(p) && p.reports <= q.reports && (p.quit ==> q.quit)
  }

  /** `parseExprList`: one expression, then more after each `,`. A failed
      expression is reported; the list is kept only if all parsed. */
  function ParseExprList(p: P, h: Handler): (r: Parsed<seq<Expr>>)
    ensures Follows(p, r.p)
    ensures r.node.Some? ==> |r.node.value| >= 1 && forall a :: a in r.node.value ==> WellFormed(a)
    decreases Measure(p), 6
  {
    ListLoop(p, h, [], true)
  }

  function ListLoop(p: P, h: Handler, acc: seq<Expr>, ok: bool): (r: Parsed<seq<Expr>>)
    requires forall a :: a in acc ==> WellFormed(a)
    ensures Follows(p, r.p)
    ensures r.node.Some? ==> |r.node.value| > |acc| && forall a :: a in r.node.value ==> WellFormed(a)
    decreases Measure(p), 5
  {
    var e := ParseExpr(p, h);
    if e.node.Some? then
      var acc' := acc + [e.node.value];
      if e.p.tok.tok != Comma then Parsed(if ok then Some(acc') else None, e.p)
      else ListLoop(Advance(e.p), h, acc', ok)
    else
      var err := HandleError(e.p, h, BadExprList);
      if err.abort || err.p.tok.tok != Comma then Parsed(None, err.p)
      else ListLoop(Advance(err.p), h, acc, false)
  }

  /** `parseIdOrFuncCall`: a name, or a call when `(` follows. The call
      is built whenever `)` closes it, with a null argument list if the
      arguments failed. */
  function ParseIdOrCall(p: P, h: Handler): (r: Parsed<Expr>)
    requires p.tok.tok == Id
    ensures Follows(p, r.p)
    ensures r.node.Some? ==> WellFormed(r.node.value) && Measure(r.p) < Measure(p)
    decreases Measure(p), 2
  {
    var id := p.tok.text;
    var p1 := Advance(p);
    if p1.tok.tok == LP then
      var a := ParseExprList(Advance(p1), h);
      if a.p.tok.tok == RP then
        Parsed(Some(Call(id, if a.node.Some? then ExprList(a.node.value) else NoList)), Advance(a.p))
      else
        Parsed(None, HandleError(a.p, h, MissingRP).p)
    else Parsed(Some(Ident(id)), p1)
  }

  /** `parseUnaryExpr`: an integer, a decimal, a name or call, or an
      expression in parentheses; anything else gives nothing and reads
      nothing. */
  function ParseUnary(p: P, h: Handler): (r: Parsed<Expr>)
    ensures Follows(p, r.p)
    ensures r.node.Some? ==> WellFormed(r.node.value) && Measure(r.p) < Measure(p)
    decreases Measure(p), 3
  {
    match p.tok.tok
    case Int => Parsed(Some(IntLit(Atoi(p.tok.text))), Advance(p))
    case Decimal => Parsed(Some(DecLit(Atof(p.tok.text))), Advance(p))
    case Id => ParseIdOrCall(p, h)
    case LP =>
      var e := ParseExpr(Advance(p), h);
      if e.p.tok.tok == RP then Parsed(e.node, Advance(e.p)) else Parsed(None, e.p)
    case _ => Parsed(None, p)
  }

  /** `parseBinaryExpr(p, &lhs, prec)`: the current token is an operator.
      Its right operand is extended while the next operator binds tighter;
      otherwise the node built so far becomes the new left operand. */
  function ParseBin(lhs: Expr, prec: int, p: P, h: Handler): (r: Parsed<Expr>)
    requires WellFormed(lhs) && ArithTok(p.tok.tok)
    ensures Follows(p, r.p)
    ensures r.node.Some? ==> WellFormed(r.node.value)
    decreases Measure(p), 1
  {
    var op := p.tok.tok;
    var u := ParseUnary(Advance(p), h);
    if u.node.None? then Parsed(None, HandleError(u.p, h, BadBinary).p)
    else
      var rhs := u.node.value;
      var prec2 := Prec(u.p.tok.tok);
      if prec2 < 0 then Parsed(Some(Binary(lhs, op, rhs)), u.p)
      else if prec2 <= prec then ParseBin(Binary(lhs, op, rhs), prec2, u.p, h)
      else
        var n := ParseBin(rhs, prec2, u.p, h);
        if n.node.None? then Parsed(None, n.p) else Parsed(Some(Binary(lhs, op, n.node.value)), n.p)
  }

  /** `parseExpr`: a unary, continued by `parseBinaryExpr` when an
      operator follows. */
  function ParseExpr(p: P, h: Handler): (r: Parsed<Expr>)
    ensures Follows(p, r.p)
    ensures r.node.Some? ==> WellFormed(r.node.value)
    decreases Measure(p), 4
  {
    var u := ParseUnary(p, h);
    if u.node.None? then u
    else if Prec(u.p.tok.tok) > 0 then ParseBin(u.node.value, Prec(u.p.tok.tok), u.p, h)
    else u
  }

  /** `parseStmt`: `ID (':=' | ':') expr ';'`, leaving the `;` as the
      current token. */
  function ParseStmt(p: P, h: Handler): (r: Parsed<Stmt>)
    requires p.tok.tok == Id
    ensures Follows(p, r.p) && Measure(r.p) < Measure(p)
    ensures r.node.Some? ==>
      r.node.value.id == p.tok.text && r.node.value.op == Advance(p).tok.tok
      && WellFormed(r.node.value.expr) && r.p.tok.tok == Semicolon
  {
    var id := p.tok.text;
    var p1 := Advance(p);
    if p1.tok.tok == ColonEq || p1.tok.tok == Colon then
      var op: StmtOp := p1.tok.tok;
      var e := ParseExpr(Advance(p1), h);
      if e.node.None? then Parsed(None, e.p)
      else if e.p.tok.tok == Semicolon then Parsed(Some(Stmt(id, op, e.node.value)), e.p)
      else Parsed(None, HandleError(e.p, h, MissingSemicolon).p)
    else Parsed(None, HandleError(p1, h, BadAssign).p)
  }

  /** `parseFormula`: reads a token; a name starts a statement, EOF ends
      the formula, anything else is reported. A failed statement ends the
      formula only when `isquit` is set. */
  function FormulaLoop(p: P, h: Handler, acc: seq<Stmt>): (r: (seq<Stmt>, P))
    requires forall s :: s in acc ==> WellFormed(s.expr)
    ensures acc <= r.0 && forall s :: s in r.0 ==> WellFormed(s.expr)
    ensures p.reports <= r.1.reports
    decreases Measure(p)
  {
    var p1 := Advance(p);
    if p1.tok.tok == Id then
      var s := ParseStmt(p1, h);
      if s.node.Some? then FormulaLoop(s.p, h, acc + [s.node.value])
      else if s.p.quit then (acc, s.p)
      else FormulaLoop(s.p, h, acc)
    else if p1.tok.tok == Eof then (acc, p1)
    else
      var err := HandleError(p1, h, BadToken);
      if err.abort then (acc, err.p) else FormulaLoop(err.p, h, acc)
  }

  /** The parser right after `parserNew`: current token `TK_NONE`,
      nothing read, no report and `isquit` clear; the first read yields the
      first token. */
  function Start(ts: seq<Tk>): (p: P)
    ensures p.reports == [] && !p.quit && p.rest == ts
    ensures Advance(p).tok == (if ts == [] then Tk(Eof, []) else ts[0])
  {
    P(Tk(NoneTk, []), ts, [], false)
  }

  /** `parseFormula` over a token stream. */
  function ParseFormula(ts: seq<Tk>, h: Handler): (r: (Formula, seq<Report>))
    ensures forall s :: s in r.0.stmts ==> WellFormed(s.expr)
  {
    var f := FormulaLoop(Start(ts), h, []);
    (Formula(f.0), f.1.reports)
  }

  /** What a parser keeps from one `parserParse` to the next: `isquit`
      and the reports counted by `errcount`. Only `parserNew` resets them;
      nothing clears `isquit` once an error has set it. */
  datatype Carried = Carried(quit: bool, reports: seq<Report>)

  /** The state `parserNew` leaves. */
  const NewParser: Carried := Carried(false, [])

  /** The parser at the start of a `parseFormula` on a parser that has
      already parsed: the carried state, and a current token that the
      first read overwrites. */
  function Resume(ts: seq<Tk>, c: Carried): (p: P)
    ensures p.rest == ts && p.reports == c.reports && p.quit == c.quit
    ensures c == NewParser ==> p == Start(ts)
  {
    P(Tk(NoneTk, []), ts, c.reports, c.quit)
  }

  /** The formula loop never clears `isquit`. */
  lemma QuitStays(p: P, h: Handler, acc: seq<Stmt>)
    requires forall s :: s in acc ==> WellFormed(s.expr)
    ensures p.quit ==> FormulaLoop(p, h, acc).1.quit
    decreases Measure(p)
  {
    var p1 := Advance(p);
    if p1.tok.tok == Id {
      var s := ParseStmt(p1, h);
      if s.node.Some? {
        QuitStays(s.p, h, acc + [s.node.value]);
      } else if !s.p.quit {
        QuitStays(s.p, h, acc);
      }
    } else if p1.tok.tok != Eof {
      var err := HandleError(p1, h, BadToken);
      if !err.abort {
        QuitStays(err.p, h, acc);
      }
    }
  }

  /** What `parserParse` leaves: its return code, the tree it stores in
      `p->ast` and the parser's carried state afterwards. */
  datatype Outcome = Outcome(ret: int, ast: Option<Formula>, after: Carried)

  /** `parserParse(p, str, len)` on a parser in state `c`: a fresh lexer
      reads the text, and the formula parsed from it is stored. A formula
      is stored whatever the syntax errors; only a failed allocation in
      `lexerRead` returns -1, and then nothing changes. */
  function ParserParse(str: seq<char>, h: Handler, allocOk: bool, c: Carried): (r: Outcome)
    ensures r.ret == 0 <==> allocOk
    ensures r.ret == 0 <==> r.ast.Some?
    ensures r.ast.Some? ==> forall s :: s in r.ast.value.stmts ==> WellFormed(s.expr)
    ensures !allocOk ==> r.after == c
    ensures c.reports <= r.after.reports && (c.quit ==> r.after.quit)
  {
    var rd := LexerRead(LexerNew(), str, allocOk);
    if rd.ReadFault? || rd.ret != 0 then Outcome(-1, None, c)
    else
      var p0 := Resume(Tokenize(rd.lex), c);
      var f := FormulaLoop(p0, h, []);
      assert c.quit ==> f.1.quit by { QuitStays(p0, h, []); }
      Outcome(0, Some(Formula(f.0)), Carried(f.1.quit, f.1.reports))
  }

  // -------------------------------------------------------------------
  // Properties
  // -------------------------------------------------------------------

  /** Only an integer, a decimal, a name or `(` starts an operand; on any
      other token (a leading `-`, say) the operand fails without a report
      and without reading. */
  lemma UnaryStarts(p: P, h: Handler)
    ensures var t := p.tok.tok;
      ParseUnary(p, h).node.Some? ==> t == Int || t == Decimal || t == Id || t == LP
    ensures var t := p.tok.tok;
      t != Int && t != Decimal && t != Id && t != LP ==> ParseUnary(p, h) == Parsed(None, p)
  {
  }

  /** An expression followed by a token that is not `;` is reported once
      with severity 0; a name followed by neither `:=` nor `:` is reported
      once with severity 1. */
  lemma StmtReports(p: P, h: Handler)
    requires p.tok.tok == Id
    ensures var p1 := Advance(p); var r := ParseStmt(p, h);
      p1.tok.tok != ColonEq && p1.tok.tok != Colon ==>
        r.node.None? && |r.p.reports| == |p.reports| + 1
        && r.p.reports[|p.reports|] == Report(1, 0, 1, BadAssign)
    ensures var p1 := Advance(p); var r := ParseStmt(p, h); var e := ParseExpr(Advance(p1), h);
      (p1.tok.tok == ColonEq || p1.tok.tok == Colon) && e.node.Some? && e.p.tok.tok != Semicolon ==>
        r.node.None? && |r.p.reports| == |e.p.reports| + 1
        && r.p.reports[|e.p.reports|] == Report(1, 0, 0, MissingSemicolon)
  {
  }

  /** An empty argument list `F()` is reported once as a bad argument
      list; `)` then closes a call whose argument list is null, whatever
      the callback answered. */
  lemma EmptyCallReported(p: P, h: Handler, more: seq<Tk>)
    requires p.tok.tok == Id && |p.rest| >= 2 && p.rest[0].tok == LP && p.rest[1].tok == RP
    ensures var r := ParseIdOrCall(p, h);
      r.node == Some(Call(p.tok.text, NoList))
      && |r.p.reports| == |p.reports| + 1 && r.p.reports[|p.reports|].problem == BadExprList
      && (r.p.quit <==> p.quit || h.NoHandler? || h.answer(|p.reports|) != 0)
  {
    var p1 := Advance(p);
    var p2 := Advance(p1);
    assert p2.tok.tok == RP;
    assert ParseExpr(p2, h) == Parsed(None, p2);
    var err := HandleError(p2, h, BadExprList);
    assert ListLoop(p2, h, [], true) == Parsed(None, err.p);
  }

  /** A call whose arguments are not followed by `)` is reported as such
      and gives nothing. */
  lemma UnclosedCallReported(p: P, h: Handler)
    requires p.tok.tok == Id && |p.rest| >= 1 && p.rest[0].tok == LP
    ensures var a := ParseExprList(Advance(Advance(p)), h); var r := ParseIdOrCall(p, h);
      a.p.tok.tok != RP ==>
        r.node.None? && |r.p.reports| == |a.p.reports| + 1 && r.p.reports[|a.p.reports|].problem == MissingRP
  {
  }

  /** Two operators: the first binds its right operand when it has the
      lower precedence; otherwise the pair nests to the left. */
  lemma TwoOperators(a: Expr, o1: Token, b: Tk, o2: Token, c: Tk, after: Tk, more: seq<Tk>, rep: seq<Report>, q: bool, h: Handler)
    requires ArithTok(o1) && ArithTok(o2) && WellFormed(a)
    requires b.tok == Int && c.tok == Int && Prec(after.tok) < 0
    ensures var p := P(Tk(o1, []), [b, Tk(o2, []), c, after] + more, rep, q);
      var r := ParseBin(a, Prec(o1), p, h);
      var B := IntLit(Atoi(b.text));
      var C := IntLit(Atoi(c.text));
      r.p.tok == after && r.p.reports == rep
      && r.node == Some(if Prec(o2) <= Prec(o1) then Binary(Binary(a, o1, B), o2, C) else Binary(a, o1, Binary(B, o2, C)))
  {
    var p := P(Tk(o1, []), [b, Tk(o2, []), c, after] + more, rep, q);
    var B := IntLit(Atoi(b.text));
    var C := IntLit(Atoi(c.text));
    var p1 := Advance(p);
    var p2 := Advance(p1);
    var p3 := Advance(p2);
    var p4 := Advance(p3);
    assert p1.tok == b && p2.tok.tok == o2 && p3.tok == c && p4.tok == after;
    assert ParseUnary(p1, h) == Parsed(Some(B), p2);
    assert ParseUnary(p3, h) == Parsed(Some(C), p4);
    if Prec(o2) <= Prec(o1) {
      assert ParseBin(Binary(a, o1, B), Prec(o2), p2, h) == Parsed(Some(Binary(Binary(a, o1, B), o2, C)), p4);
    } else {
      assert ParseBin(B, Prec(o2), p2, h) == Parsed(Some(Binary(B, o2, C)), p4);
    }
  }

  /** Three operators where the middle one binds tightest: once the middle
      operator hands back to the third, the third stays inside the right
      operand of the first, whatever the first's precedence. So `a-b*c-d`
      is `a-((b*c)-d)`, not `(a-(b*c))-d`. */
  lemma TighterMiddleNestsRight(a: Expr, o1: Token, b: Tk, o2: Token, c: Tk, o3: Token, d: Tk, after: Tk, more: seq<Tk>, rep: seq<Report>, q: bool, h: Handler)
    requires ArithTok(o1) && ArithTok(o2) && ArithTok(o3) && WellFormed(a)
    requires Prec(o1) < Prec(o2) && Prec(o3) <= Prec(o2)
    requires b.tok == Int && c.tok == Int && d.tok == Int && Prec(after.tok) < 0
    ensures var p := P(Tk(o1, []), [b, Tk(o2, []), c, Tk(o3, []), d, after] + more, rep, q);
      var r := ParseBin(a, Prec(o1), p, h);
      var B := IntLit(Atoi(b.text));
      var C := IntLit(Atoi(c.text));
      var D := IntLit(Atoi(d.text));
      r.p.tok == after && r.p.reports == rep
      && r.node == Some(Binary(a, o1, Binary(Binary(B, o2, C), o3, D)))
  {
    var p := P(Tk(o1, []), [b, Tk(o2, []), c, Tk(o3, []), d, after] + more, rep, q);
    var B := IntLit(Atoi(b.text));
    var C := IntLit(Atoi(c.text));
    var D := IntLit(Atoi(d.text));
    var p1 := Advance(p);
    var p2 := Advance(p1);
    var p3 := Advance(p2);
    var p4 := Advance(p3);
    var p5 := Advance(p4);
    var p6 := Advance(p5);
    assert p1.tok == b && p2.tok.tok == o2 && p3.tok == c && p4.tok.tok == o3 && p5.tok == d && p6.tok == after;
    assert ParseUnary(p1, h) == Parsed(Some(B), p2);
    assert ParseUnary(p3, h) == Parsed(Some(C), p4);
    assert ParseUnary(p5, h) == Parsed(Some(D), p6);
    var m := Binary(B, o2, C);
    assert ParseBin(m, Prec(o3), p4, h) == Parsed(Some(Binary(m, o3, D)), p6);
    assert ParseBin(B, Prec(o2), p2, h) == Parsed(Some(Binary(m, o3, D)), p6);
  }
}

=== FILE: parser_examples.dfy ===
/** Worked inputs for the parser: how the precedence climbing of
    `parseBinaryExpr` nests mixed operators, which errors are reported and
    which statements vanish without a report. */
module ParserExamples {
  import opened Common
  import opened Lexer
  import opened Ast
  import opened Parser

  /** A callback that always answers 0, so parsing never stops early. */
  const Lenient: Handler := Callback(n => 0)

  function Op(t: Token): Tk { Tk(t, []) }

  function Num(d: char): Tk { Tk(Int, [d]) }

  function Lit(n: int): Expr { IntLit(n) }

  /** `1-2*3-4` nests as `1-((2*3)-4)`, whose value is -1 rather than the
      -9 of the usual reading. */
  lemma MixedPrecedenceNestsRight(more: seq<Tk>)
    ensures ParseBin(Lit(1), PREC_SUB, P(Op(SubTk), [Num('2'), Op(MulTk), Num('3'), Op(SubTk), Num('4'), Op(Semicolon)] + more, [], false), Lenient).node
      == Some(Binary(Lit(1), SubTk, Binary(Binary(Lit(2), MulTk, Lit(3)), SubTk, Lit(4))))
  {
    assert Literals.Atoi(['2']) == 2 && Literals.Atoi(['3']) == 3 && Literals.Atoi(['4']) == 4 by {
      Literals.AtoiShow(2);
      Literals.AtoiShow(3);
      Literals.AtoiShow(4);
    }
    TighterMiddleNestsRight(Lit(1), SubTk, Num('2'), MulTk, Num('3'), SubTk, Num('4'), Op(Semicolon), more, [], false, Lenient);
  }

  /** `2+3*4` is `2+(3*4)` and `2*3+4` is `(2*3)+4`; `a-b-c` and `a/b*c`
      nest to the left. */
  lemma UsualPrecedence(a: Expr, more: seq<Tk>)
    requires WellFormed(a)
    ensures ParseBin(a, PREC_ADD, P(Op(AddTk), [Num('3'), Op(MulTk), Num('4'), Op(Semicolon)] + more, [], false), Lenient).node
      == Some(Binary(a, AddTk, Binary(Lit(3), MulTk, Lit(4))))
    ensures ParseBin(a, PREC_MUL, P(Op(MulTk), [Num('3'), Op(AddTk), Num('4'), Op(Semicolon)] + more, [], false), Lenient).node
      == Some(Binary(Binary(a, MulTk, Lit(3)), AddTk, Lit(4)))
    ensures ParseBin(a, PREC_SUB, P(Op(SubTk), [Num('3'), Op(SubTk), Num('4'), Op(Semicolon)] + more, [], false), Lenient).node
      == Some(Binary(Binary(a, SubTk, Lit(3)), SubTk, Lit(4)))
    ensures ParseBin(a, PREC_DIV, P(Op(DivTk), [Num('3'), Op(MulTk), Num('4'), Op(Semicolon)] + more, [], false), Lenient).node
      == Some(Binary(Binary(a, DivTk, Lit(3)), MulTk, Lit(4)))
  {
    assert Literals.Atoi(['3']) == 3 && Literals.Atoi(['4']) == 4 by {
      Literals.AtoiShow(3);
      Literals.AtoiShow(4);
    }
    TwoOperators(a, AddTk, Num('3'), MulTk, Num('4'), Op(Semicolon), more, [], false, Lenient);
    TwoOperators(a, MulTk, Num('3'), AddTk, Num('4'), Op(Semicolon), more, [], false, Lenient);
    TwoOperators(a, SubTk, Num('3'), SubTk, Num('4'), Op(Semicolon), more, [], false, Lenient);
    TwoOperators(a, DivTk, Num('3'), MulTk, Num('4'), Op(Semicolon), more, [], false, Lenient);
  }

  /** `x := -...`: the operand fails without a report, so `parseStmt`
      fails without adding a report, leaving the `-` as the current token
      and everything after it unread. */
  lemma LeadingMinusDropsStatement(x: seq<char>, op: StmtOp, more: seq<Tk>, rep: seq<Report>, q: bool, h: Handler)
    ensures ParseStmt(P(Tk(Id, x), [Op(op), Op(SubTk)] + more, rep, q), h)
      == Parsed(None, P(Op(SubTk), more, rep, q))
  {
    var p := P(Tk(Id, x), [Op(op), Op(SubTk)] + more, rep, q);
    var p2 := Advance(Advance(p));
    assert p2.tok.tok == SubTk;
    assert ParseExpr(p2, h) == Parsed(None, p2);
  }

  /** The report `parseFormula` makes for a token that cannot start a
      statement. */
  const BadTokenReport: Report := Report(1, 0, 1, BadToken)

  /** `x := -d;` as a whole formula: after `parseStmt` gives up at the
      `-`, `parseFormula` reads on and reports `d` and `;` as tokens that
      cannot start a statement. The formula is empty. */
  lemma LeadingMinusReportsRest(x: seq<char>, op: StmtOp, d: Tk, ts: seq<Tk>)
    requires d.tok == Int
    requires ts == [Tk(Id, x), Op(op), Op(SubTk), d, Op(Semicolon), Op(Eof)]
    ensures ParseFormula(ts, Lenient) == (Formula([]), [BadTokenReport, BadTokenReport])
  {
    var pm := P(Op(SubTk), [d, Op(Semicolon), Op(Eof)], [], false);
    MinusStatementSkipped(x, op, d, ts, pm);
    TailReported(pm);
    assert [] + [BadTokenReport, BadTokenReport] == [BadTokenReport, BadTokenReport];
  }

  /** `x := -d;` on a parser whose `isquit` an earlier parse has set:
      the failed statement ends the formula at once, whatever the callback
      answers, so `d` and `;` are never read or reported. */
  lemma QuitParserStopsAtFailure(x: seq<char>, op: StmtOp, d: Tk, ts: seq<Tk>, rep: seq<Report>, h: Handler)
    requires ts == [Tk(Id, x), Op(op), Op(SubTk), d, Op(Semicolon), Op(Eof)]
    ensures FormulaLoop(Resume(ts, Carried(true, rep)), h, [])
      == ([], P(Op(SubTk), [d, Op(Semicolon), Op(Eof)], rep, true))
  {
    var more := [d, Op(Semicolon), Op(Eof)];
    var p := Resume(ts, Carried(true, rep));
    assert Advance(p) == P(Tk(Id, x), [Op(op), Op(SubTk)] + more, rep, true);
    LeadingMinusDropsStatement(x, op, more, rep, true, h);
  }

  /** The first part of `x := -d;`: `parseStmt` gives up at the `-`, and
      the formula goes on from there with nothing reported yet. */
  lemma MinusStatementSkipped(x: seq<char>, op: StmtOp, d: Tk, ts: seq<Tk>, pm: P)
    requires ts == [Tk(Id, x), Op(op), Op(SubTk), d, Op(Semicolon), Op(Eof)]
    requires pm == P(Op(SubTk), [d, Op(Semicolon), Op(Eof)], [], false)
    ensures FormulaLoop(Start(ts), Lenient, []) == FormulaLoop(pm, Lenient, [])
  {
    var more := [d, Op(Semicolon), Op(Eof)];
    var p1 := P(Tk(Id, x), [Op(op), Op(SubTk)] + more, [], false);
    assert Advance(Start(ts)) == p1;
    LeadingMinusDropsStatement(x, op, more, [], false, Lenient);
    FailedStatementStep(Start(ts), []);
  }

  /** The rest of `x := -d;`: `d` and `;` are each reported, then EOF
      ends the formula. */
  lemma TailReported(p: P)
    requires |p.rest| == 3 && p.rest[0].tok == Int && p.rest[1].tok == Semicolon && p.rest[2] == Op(Eof)
    ensures FormulaLoop(p, Lenient, []) == ([], P(Op(Eof), [], p.reports + [BadTokenReport, BadTokenReport], p.quit))
  {
    var pd := P(p.rest[0], p.rest[1..], p.reports + [BadTokenReport], p.quit);
    BadTokenStep(p, []);
    var ps := P(p.rest[1], [Op(Eof)], pd.reports + [BadTokenReport], p.quit);
    assert pd.rest[0] == p.rest[1] && pd.rest[1..] == [Op(Eof)];
    BadTokenStep(pd, []);
    EofEndsFormula(ps, Lenient, []);
    assert pd.reports + [BadTokenReport] == p.reports + [BadTokenReport, BadTokenReport];
  }

  /** A statement that fails without setting `isquit` is skipped, and the
      formula goes on from where `parseStmt` stopped. */
  lemma FailedStatementStep(p: P, acc: seq<Stmt>)
    requires forall s :: s in acc ==> WellFormed(s.expr)
    requires Advance(p).tok.tok == Id
    requires var r := ParseStmt(Advance(p), Lenient); r.node.None? && !r.p.quit
    ensures FormulaLoop(p, Lenient, acc) == FormulaLoop(ParseStmt(Advance(p), Lenient).p, Lenient, acc)
  {
  }

  /** A token that cannot start a statement is reported, and with the
      lenient callback the formula goes on. */
  lemma BadTokenStep(p: P, acc: seq<Stmt>)
    requires forall s :: s in acc ==> WellFormed(s.expr)
    requires p.rest != [] && p.rest[0].tok != Id && p.rest[0].tok != Eof
    ensures FormulaLoop(p, Lenient, acc)
      == FormulaLoop(P(p.rest[0], p.rest[1..], p.reports + [BadTokenReport], p.quit), Lenient, acc)
  {
  }

  /** `x := (d;`: the parenthesis is never closed, and again the statement
      is dropped without a report. */
  lemma UnclosedParenDropsStatement(x: seq<char>, op: StmtOp, d: Tk, more: seq<Tk>, rep: seq<Report>, q: bool, h: Handler)
    requires d.tok == Int
    ensures var r := ParseStmt(P(Tk(Id, x), [Op(op), Op(LP), d, Op(Semicolon)] + more, rep, q), h);
      r.node.None? && r.p.reports == rep && r.p.tok.tok == Semicolon
  {
    var p := P(Tk(Id, x), [Op(op), Op(LP), d, Op(Semicolon)] + more, rep, q);
    var p2 := Advance(Advance(p));
    var p3 := Advance(p2);
    var p4 := Advance(p3);
    assert p2.tok.tok == LP && p3.tok == d && p4.tok.tok == Semicolon;
    assert ParseUnary(p3, h) == Parsed(Some(IntLit(Literals.Atoi(d.text))), p4);
    assert ParseExpr(p3, h) == Parsed(Some(IntLit(Literals.Atoi(d.text))), p4);
    assert ParseUnary(p2, h) == Parsed(None, p4);
  }

  /** `x op d;` is one statement, with the `;` left as the current token. */
  lemma LiteralStatement(x: seq<char>, op: StmtOp, d: Tk, more: seq<Tk>, rep: seq<Report>, q: bool, h: Handler)
    requires d.tok == Int
    ensures ParseStmt(P(Tk(Id, x), [Op(op), d, Op(Semicolon)] + more, rep, q), h)
      == Parsed(Some(Stmt(x, op, IntLit(Literals.Atoi(d.text)))), P(Op(Semicolon), more, rep, q))
  {
    var p := P(Tk(Id, x), [Op(op), d, Op(Semicolon)] + more, rep, q);
    var p2 := Advance(Advance(p));
    var p3 := Advance(p2);
    assert p2.tok == d && p3 == P(Op(Semicolon), more, rep, q);
    assert ParseUnary(p2, h) == Parsed(Some(IntLit(Literals.Atoi(d.text))), p3);
  }

  /** After `x op d;` the formula continues with the statement appended. */
  lemma LiteralStatementAppended(x: seq<char>, op: StmtOp, d: Tk, more: seq<Tk>, t: Tk, acc: seq<Stmt>, h: Handler)
    requires d.tok == Int && forall s :: s in acc ==> WellFormed(s.expr)
    ensures var s := Stmt(x, op, IntLit(Literals.Atoi(d.text)));
      FormulaLoop(P(t, [Tk(Id, x), Op(op), d, Op(Semicolon)] + more, [], false), h, acc)
        == FormulaLoop(P(Op(Semicolon), more, [], false), h, acc + [s])
  {
    var p := P(t, [Tk(Id, x), Op(op), d, Op(Semicolon)] + more, [], false);
    var q := P(Op(Semicolon), more, [], false);
    LiteralStatement(x, op, d, more, [], false, h);
    assert Advance(p) == P(Tk(Id, x), [Op(op), d, Op(Semicolon)] + more, [], false);
    StatementStep(p, h, acc, Stmt(x, op, IntLit(Literals.Atoi(d.text))), q);
  }

  /** `x op1 d1; y op2 d2;` gives both statements, in source order, with
      no report. */
  lemma TwoStatementsInOrder(x: seq<char>, op1: StmtOp, d1: Tk, y: seq<char>, op2: StmtOp, d2: Tk, h: Handler, ts: seq<Tk>)
    requires d1.tok == Int && d2.tok == Int
    requires ts == [Tk(Id, x), Op(op1), d1, Op(Semicolon), Tk(Id, y), Op(op2), d2, Op(Semicolon), Op(Eof)]
    ensures ParseFormula(ts, h).1 == []
    ensures ParseFormula(ts, h).0
      == Formula([Stmt(x, op1, IntLit(Literals.Atoi(d1.text))), Stmt(y, op2, IntLit(Literals.Atoi(d2.text)))])
  {
    TwoLiteralStatements(Start(ts), h);
  }

  /** From `p`, the tokens `x op1 d1; y op2 d2;` and EOF give the two
      statements and leave the reports as they were. */
  lemma TwoLiteralStatements(p: P, h: Handler)
    requires |p.rest| == 9 && p.rest[8] == Op(Eof)
    requires p.rest[0].tok == Id && p.rest[1] in [Op(ColonEq), Op(Colon)]
    requires p.rest[2].tok == Int && p.rest[3] == Op(Semicolon)
    requires p.rest[4].tok == Id && p.rest[5] in [Op(ColonEq), Op(Colon)]
    requires p.rest[6].tok == Int && p.rest[7] == Op(Semicolon)
    ensures FormulaLoop(p, h, [])
      == ([Stmt(p.rest[0].text, p.rest[1].tok, IntLit(Literals.Atoi(p.rest[2].text))),
           Stmt(p.rest[4].text, p.rest[5].tok, IntLit(Literals.Atoi(p.rest[6].text)))],
          P(Op(Eof), [], p.reports, p.quit))
  {
    var s1 := Stmt(p.rest[0].text, p.rest[1].tok, IntLit(Literals.Atoi(p.rest[2].text)));
    var s2 := Stmt(p.rest[4].text, p.rest[5].tok, IntLit(Literals.Atoi(p.rest[6].text)));
    LiteralStatementAt(p, h, []);
    var p2 := P(Op(Semicolon), p.rest[4..], p.reports, p.quit);
    assert [] + [s1] == [s1];
    LiteralStatementAt(p2, h, [s1]);
    var last := P(Op(Semicolon), p.rest[8..], p.reports, p.quit);
    assert p2.rest[4..] == p.rest[8..] == [Op(Eof)];
    assert [s1] + [s2] == [s1, s2];
    EofEndsFormula(last, h, [s1, s2]);
  }

  /** A formula reading on from `p` whose next four tokens are `x op d;`
      appends that statement and goes on from the `;`. */
  lemma LiteralStatementAt(p: P, h: Handler, acc: seq<Stmt>)
    requires forall a :: a in acc ==> WellFormed(a.expr)
    requires |p.rest| >= 4 && p.rest[0].tok == Id && p.rest[1] in [Op(ColonEq), Op(Colon)]
    requires p.rest[2].tok == Int && p.rest[3] == Op(Semicolon)
    ensures FormulaLoop(p, h, acc)
      == FormulaLoop(P(Op(Semicolon), p.rest[4..], p.reports, p.quit), h,
                     acc + [Stmt(p.rest[0].text, p.rest[1].tok, IntLit(Literals.Atoi(p.rest[2].text)))])
  {
    var x := p.rest[0].text;
    var op: StmtOp := p.rest[1].tok;
    var d := p.rest[2];
    var more := p.rest[4..];
    assert Advance(p) == P(Tk(Id, x), [Op(op), d, Op(Semicolon)] + more, p.reports, p.quit);
    LiteralStatement(x, op, d, more, p.reports, p.quit, h);
    StatementStep(p, h, acc, Stmt(x, op, IntLit(Literals.Atoi(d.text))), P(Op(Semicolon), more, p.reports, p.quit));
  }

  /** A statement that parses is appended, and the formula goes on from
      its `;`. */
  lemma StatementStep(p: P, h: Handler, acc: seq<Stmt>, s: Stmt, q: P)
    requires forall a :: a in acc ==> WellFormed(a.expr)
    requires Advance(p).tok.tok == Id && ParseStmt(Advance(p), h) == Parsed(Some(s), q)
    ensures FormulaLoop(p, h, acc) == FormulaLoop(q, h, acc + [s])
  {
  }

  /** Reading EOF ends the formula with the statements so far. */
  lemma EofEndsFormula(p: P, h: Handler, acc: seq<Stmt>)
    requires p.rest == [Op(Eof)] && forall s :: s in acc ==> WellFormed(s.expr)
    ensures FormulaLoop(p, h, acc) == (acc, P(Op(Eof), [], p.reports, p.quit))
  {
  }

  /** Text holding only white space parses to a formula with no
      statements and no report. */
  lemma BlankTextIsEmptyFormula(str: seq<char>, h: Handler)
    requires forall k :: 0 <= k < |str| ==> IsSpace(str[k])
    ensures ParserParse(str, h, true, NewParser) == Outcome(0, Some(Formula([])), NewParser)
  {
    BlankTextTokens(str);
    EofOnlyParses([Tk(Eof, [])], h);
  }

  /** White space alone lexes to EOF and nothing else. */
  lemma BlankTextTokens(str: seq<char>)
    requires forall k :: 0 <= k < |str| ==> IsSpace(str[k])
    ensures var rd := LexerRead(LexerNew(), str, true);
      rd.Read? && rd.ret == 0 && Tokenize(rd.lex) == [Tk(Eof, [])]
  {
    var rd := LexerRead(LexerNew(), str, true);
    var l := rd.lex;
    assert Text(l) == str;
    EofIffOnlySpaceLeft(l);
  }

  /** A stream holding only EOF parses to the empty formula. */
  lemma EofOnlyParses(ts: seq<Tk>, h: Handler)
    requires ts == [Tk(Eof, [])]
    ensures ParseFormula(ts, h) == (Formula([]), [])
  {
    assert FormulaLoop(Start(ts), h, []) == ([], P(Tk(Eof, []), [], [], false));
  }
}

=== FILE: recurrence.dfy ===
/** `EMA` and `SMA` of `indicators.cpp`: recursive smoothers computed
    forward in number order. The result is as long as `X` and carries its
    number; its first cell is seeded with `X`'s first element and every
    later recomputed cell blends the current element with the cell before
    it. Cells below the recomputed range keep the previous output. */
module Recurrence {
  import opened Common
  import opened Values

  /** `EMA(X, M)` or `SMA(X, N, M)`. */
  datatype Smoother = Ema(m: int) | Sma(n: int, m: int)

  /** The entry asserts: `M >= 0` for `EMA`, `M >= 0 && N > 0` for `SMA`. */
  predicate Params(sm: Smoother)
  {
    match sm
    case Ema(m) => m >= 0
    case Sma(n, m) => m >= 0 && n > 0
  }

  /** The update step of the loop: `(x*2 + y*(M-1)) / (M+1)` for `EMA`,
      `(x*M + y*(N-M)) / N` for `SMA`, where `y` is the previous cell. */
  function Blend(sm: Smoother, x: Num, y: Num): (r: Num)
    requires Params(sm)
    ensures r.NaN? <==> x.NaN? || y.NaN?
  {
    if x.NaN? || y.NaN? then NaN
    else match sm
      case Ema(m) => Fin((x.v * 2.0 + y.v * ((m - 1) as real)) / ((m + 1) as real))
      case Sma(n, m) => Fin((x.v * (m as real) + y.v * ((n - m) as real)) / (n as real))
  }

  /** The weight the current element gets: `2/(M+1)` or `M/N`. */
  function Alpha(sm: Smoother): real
    requires Params(sm)
  {
    match sm
    case Ema(m) => 2.0 / (m + 1) as real
    case Sma(n, m) => m as real / n as real
  }

  /** `(y*d + w*(x-y)) / d == y + (w/d)*(x-y)` for a positive `d`. */
  lemma SmoothingAlgebra(x: real, y: real, w: real, d: real)
    requires d > 0.0
    ensures (y * d + w * (x - y)) / d == y + (w / d) * (x - y)
  {
    var t := w / d;
    assert t * d == w;
    assert (y + t * (x - y)) * d == y * d + (t * d) * (x - y);
  }

  /** `x*a + y*(d-a) == y*d + a*(x-y)`. */
  lemma Regroup(x: real, y: real, a: real, d: real)
    ensures x * a + y * (d - a) == y * d + a * (x - y)
  {
    assert y * (d - a) == y * d - y * a;
    assert a * (x - y) == a * x - a * y;
  }

  /** The `EMA` step is smoothing with weight `2/(M+1)`. */
  lemma EmaIsSmoothing(m: int, x: real, y: real)
    requires m >= 0
    ensures Blend(Ema(m), Fin(x), Fin(y)) == Fin(y + (2.0 / (m + 1) as real) * (x - y))
  {
    var d := (m + 1) as real;
    var num := x * 2.0 + y * ((m - 1) as real);
    assert Blend(Ema(m), Fin(x), Fin(y)).v == num / d;
    assert (m - 1) as real == d - 2.0;
    Regroup(x, y, 2.0, d);
    SmoothingAlgebra(x, y, 2.0, d);
  }

  /** The `SMA` step is smoothing with weight `M/N`. */
  lemma SmaIsSmoothing(n: int, m: int, x: real, y: real)
    requires m >= 0 && n > 0
    ensures Blend(Sma(n, m), Fin(x), Fin(y)) == Fin(y + (m as real / n as real) * (x - y))
  {
    var d := n as real;
    var w := m as real;
    var num := x * w + y * ((n - m) as real);
    assert Blend(Sma(n, m), Fin(x), Fin(y)).v == num / d;
    assert (n - m) as real == d - w;
    Regroup(x, y, w, d);
    SmoothingAlgebra(x, y, w, d);
  }

  /** The documented formulas are exponential smoothing
      `Y = Y' + alpha * (X - Y')` with the weights above. */
  lemma BlendIsSmoothing(sm: Smoother, x: real, y: real)
    requires Params(sm)
    ensures Blend(sm, Fin(x), Fin(y)) == Fin(y + Alpha(sm) * (x - y))
  {
    match sm
    case Ema(m) => EmaIsSmoothing(m, x, y);
    case Sma(n, m) => SmaIsSmoothing(n, m, x, y);
  }

  /** A constant input is a fixed point of the step. */
  lemma BlendFixesConstant(sm: Smoother, c: real)
    requires Params(sm)
    ensures Blend(sm, Fin(c), Fin(c)) == Fin(c)
  {
    BlendIsSmoothing(sm, c, c);
  }

  /** The first `k` cells: cell `p` keeps `base[p]` below `lo`, is `X[0]` at
      position 0, and otherwise blends `X[p]` with cell `p - 1`. */
  function Run(sm: Smoother, X: seq<Num>, base: seq<Num>, lo: int, k: nat): (r: seq<Num>)
    requires Params(sm) && k <= |X| == |base|
    ensures |r| == k
    ensures forall p :: 0 <= p < k && p < lo ==> r[p] == base[p]
    ensures k > 0 && lo <= 0 ==> r[0] == X[0]
    ensures forall p :: 0 < p < k && p >= lo ==> r[p] == Blend(sm, X[p], r[p - 1])
    decreases k
  {
    if k == 0 then []
    else
      var prev := Run(sm, X, base, lo, k - 1);
      var p := k - 1;
      prev + [if p < lo then base[p] else if p == 0 then X[0] else Blend(sm, X[p], prev[p - 1])]
  }

  /** `EMA`/`SMA` on a non-empty window with previous output `R`. */
  function Calc(sm: Smoother, X: Series, R: Series): (r: Series)
    requires Params(sm) && X.vals != []
    ensures |r.vals| == |X.vals| && r.no == X.no
    ensures Valid(X) ==> Valid(r)
    ensures forall p :: 0 <= p < |r.vals| && p < |X.vals| - UnarySpan(X, R) && p < |R.vals| ==>
      r.vals[p] == R.vals[p]
    ensures UnarySpan(X, R) >= |X.vals| ==> r.vals[0] == X.vals[0]
    ensures forall p :: 0 < p < |r.vals| && p >= |X.vals| - UnarySpan(X, R) ==>
      r.vals[p] == Blend(sm, X.vals[p], r.vals[p - 1])
  {
    var n := |X.vals|;
    Series(Run(sm, X.vals, Resize(R.vals, n), n - UnarySpan(X, R), n), X.no)
  }

  /** The operator on interpreter values: a null, scalar or empty `X`
      leaves `R` as it is. `grown` says whether `valueNew` (for a null `R`)
      and `valueExtend` succeed; when they do not, `R` is freed and the
      result is null. */
  function OnValue(sm: Smoother, x: Option<Value>, r: Option<Value>, grown: bool): (res: Option<Value>)
    requires Params(sm)
    ensures Size(x) == 0 ==> res == r
    ensures Size(x) > 0 && !grown ==> res.None?
    ensures Size(x) > 0 && grown ==>
      res.Some? && res.value.ArrayV? && |res.value.s.vals| == Size(x) && res.value.s.no == Window(x).no
  {
    if Size(x) == 0 then r
    else if !grown then None
    else Some(ArrayV(Calc(sm, Window(x), Output(r))))
  }

  /** The asserts `xi >= 0` and `ri >= 0` hold on every iteration. */
  predicate InBounds(X: Series, R: Series)
  {
    UnarySpan(X, R) <= |X.vals|
  }

  /** The first call recomputes everything, in bounds, and seeds the first
      cell with `X`'s first element. */
  lemma FreshRunSeeds(sm: Smoother, X: Series)
    requires Params(sm) && X.vals != []
    ensures InBounds(X, Fresh)
    ensures Calc(sm, X, Fresh).vals[0] == X.vals[0]
  {
  }

  /** On a finite input every cell of a fresh run is a number, so the
      assert `isValueValid(y)` on the previous cell holds throughout. */
  lemma {:induction false} FiniteInFiniteOut(sm: Smoother, X: Series, p: nat)
    requires Params(sm) && X.vals != [] && AllFinite(X.vals)
    requires p < |X.vals|
    ensures Calc(sm, X, Fresh).vals[p].Fin?
    decreases p
  {
    if p > 0 {
      FiniteInFiniteOut(sm, X, p - 1);
    }
  }

  /** A NaN anywhere but the last bar trips that assert: `EMA` of
      `[NaN, 1]` reads the NaN first cell as the previous value. */
  lemma NaNTripsValidity()
    ensures var r := Calc(Ema(1), Series([NaN, Fin(1.0)], 2), Fresh);
      r.vals[0] == NaN && r.vals[1] == NaN
  {
  }

  /** A constant series is its own `EMA`/`SMA`. */
  lemma {:induction false} ConstantIsFixed(sm: Smoother, X: Series, c: real, p: nat)
    requires Params(sm) && X.vals != []
    requires forall i :: 0 <= i < |X.vals| ==> X.vals[i] == Fin(c)
    requires p < |X.vals|
    ensures Calc(sm, X, Fresh).vals[p] == Fin(c)
    decreases p
  {
    if p > 0 {
      ConstantIsFixed(sm, X, c, p - 1);
      BlendFixesConstant(sm, c);
    }
  }

  /** The loop of the source: numbers from `bno` up to `X.no`, with
      `ri > 0` reading the previous cell. */
  method CalcLoop(sm: Smoother, X: Series, R: Series) returns (r: Series)
    requires Params(sm) && X.vals != []
    requires InBounds(X, R)
    ensures r == Calc(sm, X, R)
  {
    var rsize := |X.vals|;
    var base := Resize(R.vals, rsize);
    var bno := if R.no != 0 then R.no else X.no - (|X.vals| - 1);
    var nosize := X.no - bno + 1;
    if nosize <= 0 {
      RunBelow(sm, X.vals, base, rsize - nosize, rsize);
      r := Series(base, X.no);
      return;
    }
    var buf := Forward(sm, X.vals, base, bno, X.no);
    r := Series(buf, X.no);
  }

  /** The loop itself: numbers `bno` up to `no`, with `xi` and `ri`
      walking the last `no - bno + 1` cells. */
  method Forward(sm: Smoother, xs: seq<Num>, base: seq<Num>, bno: int, no: int) returns (buf: seq<Num>)
    requires Params(sm) && |xs| == |base| && 0 < no - bno + 1 <= |xs|
    ensures buf == Run(sm, xs, base, |xs| - (no - bno + 1), |xs|)
  {
    var lo := |xs| - (no - bno + 1);
    buf := base;
    var kno, xi, ri := bno, lo, lo;
    RunBelow(sm, xs, base, lo, ri);
    assert buf == base[..ri] + base[ri..];
    while kno <= no
      invariant xi == ri && ri == lo + (kno - bno) && lo <= ri <= |xs|
      invariant buf == Run(sm, xs, base, lo, ri) + base[ri..]
    {
      ghost var prev := Run(sm, xs, base, lo, ri);
      var res := xs[xi];
      if ri > 0 {
        var y := buf[ri - 1];
        assert y == prev[ri - 1];
        res := Blend(sm, res, y);
      }
      RunStep(sm, xs, base, lo, ri, prev, res);
      Splice(prev, base, res);
      buf := buf[ri := res];
      kno, xi, ri := kno + 1, xi + 1, ri + 1;
    }
    assert base[ri..] == [];
  }

  /** Writing cell `|prev|` of `prev + base[|prev|..]`. */
  lemma Splice<T>(prev: seq<T>, base: seq<T>, v: T)
    requires |prev| < |base|
    ensures (prev + base[|prev|..])[|prev| := v] == (prev + [v]) + base[|prev| + 1..]
  {
  }

  /** Below `lo` the run keeps the previous output. */
  lemma {:induction false} RunBelow(sm: Smoother, X: seq<Num>, base: seq<Num>, lo: int, k: nat)
    requires Params(sm) && k <= |X| == |base| && k <= lo
    ensures Run(sm, X, base, lo, k) == base[..k]
    decreases k
  {
    if k > 0 {
      RunBelow(sm, X, base, lo, k - 1);
      assert base[..k] == base[..k - 1] + [base[k - 1]];
    }
  }

  /** One more cell of the run, at or above `lo`. */
  lemma RunStep(sm: Smoother, X: seq<Num>, base: seq<Num>, lo: int, k: nat, prev: seq<Num>, v: Num)
    requires Params(sm) && k < |X| == |base| && lo <= k
    requires prev == Run(sm, X, base, lo, k)
    requires v == if k == 0 then X[0] else Blend(sm, X[k], prev[k - 1])
    ensures prev + [v] == Run(sm, X, base, lo, k + 1)
  {
  }

  /** Both runs agree at `p`, and below `|X|` the fresh run on the extended
      window agrees with the previous output. */
  lemma {:induction false} IncrementalAgreesAt(sm: Smoother, X: Series, ex: seq<Num>, p: nat)
    requires Params(sm) && Valid(X) && X.vals != []
    requires p < |X.vals| + |ex|
    ensures var X' := Append(X, ex);
      var R0 := Calc(sm, X, Fresh);
      Calc(sm, X', R0).vals[p] == Calc(sm, X', Fresh).vals[p]
      && (p < |X.vals| ==> Calc(sm, X', Fresh).vals[p] == R0.vals[p])
    decreases p
  {
    var X' := Append(X, ex);
    var R0 := Calc(sm, X, Fresh);
    assert UnarySpan(X', R0) == |ex| + 1;
    if p > 0 {
      IncrementalAgreesAt(sm, X, ex, p - 1);
    }
    if p < |X.vals| {
      assert X'.vals[p] == X.vals[p];
    }
  }

  /** Incremental equivalence for `EMA`/`SMA`: after `k` appended bars the
      re-run with the previous output equals a fresh run. */
  lemma IncrementalMatchesFresh(sm: Smoother, X: Series, ex: seq<Num>)
    requires Params(sm) && Valid(X) && X.vals != []
    ensures Calc(sm, Append(X, ex), Calc(sm, X, Fresh)) == Calc(sm, Append(X, ex), Fresh)
  {
    var a := Calc(sm, Append(X, ex), Calc(sm, X, Fresh));
    var b := Calc(sm, Append(X, ex), Fresh);
    forall p | 0 <= p < |a.vals|
      ensures a.vals[p] == b.vals[p]
    {
      IncrementalAgreesAt(sm, X, ex, p);
    }
  }
}

=== FILE: rolling.dfy ===
/** `HHV`, `LLV` and `MA` of `indicators.cpp`: one cell per window of `N`
    bars ending at each element, so the result drops `X`'s first `N - 1`
    elements and keeps `X`'s number.

    As written, the inner loop starts its counter at 1 and so folds only
    `N - 1` elements (and `MA` still divides by `N`), and a fresh run
    recomputes `|X|` numbers into `|X| - N + 1` cells. `Calc` models the
    loops as written; `CalcFixed` counts from 0 and starts no lower than
    the first full window. */
module Rolling {
  import opened Common
  import opened Values

  datatype Kind = Highest | Lowest | Mean

  /** One step of the inner loop: `f > res`, `f < res`, or `res += f`. */
  function Step(kind: Kind, acc: Num, f: Num): Num
  {
    match kind
    case Highest => if Greater(f, acc) then f else acc
    case Lowest => if Less(f, acc) then f else acc
    case Mean => Plus(acc, f)
  }

  /** The inner loop over `w`, from its last element down to its first. */
  function FoldDown(kind: Kind, w: seq<Num>, acc: Num): Num
    decreases |w|
  {
    if |w| == 0 then acc else FoldDown(kind, w[..|w| - 1], Step(kind, acc, w[|w| - 1]))
  }

  /** `res` before the inner loop: the current element, or 0 for `MA`. */
  function Seed(kind: Kind, x: Num): Num
  {
    if kind == Mean then Fin(0.0) else x
  }

  /** `res` after the inner loop: `MA` divides by `N`. */
  function Finish(kind: Kind, acc: Num, N: int): Num
  {
    if kind == Mean then Quot(acc, Fin(N as real)) else acc
  }

  // -------------------------------------------------------------------
  // As written
  // -------------------------------------------------------------------

  /** Elements the inner loop `j = xi, count = 1; j >= 0 && count < N`
      visits. */
  function TermsAsWritten(xi: int, N: int): int
  {
    if N <= 1 then 0 else Min(N - 1, xi + 1)
  }

  /** The cell computed for element `xi`, as written. */
  function CellAsWritten(kind: Kind, X: seq<Num>, xi: int, N: int): Num
    requires 0 <= xi < |X|
  {
    var t := TermsAsWritten(xi, N);
    Finish(kind, FoldDown(kind, X[xi + 1 - t .. xi + 1], Seed(kind, X[xi])), N)
  }

  /** `HHV`/`LLV`/`MA(X, N)` on a non-empty window with `N <= |X|` and
      previous output `R`. Cell `p` pairs with element `p + N - 1`; writes
      the source would make below index 0 are dropped. */
  function Calc(kind: Kind, X: Series, N: nat, R: Series): (r: Series)
    requires X.vals != [] && N <= |X.vals|
    requires kind == Mean ==> N >= 1
    ensures |r.vals| == |X.vals| - N + 1 && r.no == X.no
    ensures Valid(X) && N >= 1 ==> Valid(r)
    ensures forall p :: 0 <= p < |r.vals| && p >= |r.vals| - UnarySpan(X, R) && p + N >= 1 ==>
      r.vals[p] == CellAsWritten(kind, X.vals, p + N - 1, N)
    ensures forall p :: 0 <= p < |r.vals| && (p < |r.vals| - UnarySpan(X, R) || p + N < 1) && p < |R.vals| ==>
      r.vals[p] == R.vals[p]
  {
    var n := |X.vals| - N + 1;
    var lo := n - UnarySpan(X, R);
    var base := Resize(R.vals, n);
    Series(seq(n, p requires 0 <= p < n =>
                 if p >= lo && p + N >= 1 then CellAsWritten(kind, X.vals, p + N - 1, N) else base[p]),
           X.no)
  }

  /** The operator on interpreter values: a null, scalar, empty or too
      short `X` leaves `R` as it is. `grown` says whether `valueNew` (for a
      null `R`) and `valueExtend` succeed; when they do not, `R` is freed
      and the result is null. */
  function OnValue(kind: Kind, x: Option<Value>, N: nat, r: Option<Value>, grown: bool): (res: Option<Value>)
    requires kind == Mean ==> N >= 1
    ensures Size(x) == 0 || Size(x) < N ==> res == r
    ensures Size(x) > 0 && Size(x) >= N && !grown ==> res.None?
    ensures Size(x) > 0 && Size(x) >= N && grown ==>
      res.Some? && res.value.ArrayV? && |res.value.s.vals| == Size(x) - N + 1
      && res.value.s.no == Window(x).no
  {
    if Size(x) == 0 || Size(x) < N then r
    else if !grown then None
    else Some(ArrayV(Calc(kind, Window(x), N, Output(r))))
  }

  /** The asserts `xi >= 0` and `ri >= 0` of the outer loop hold on every
      iteration. */
  predicate InBounds(X: Series, N: nat, R: Series)
  {
    UnarySpan(X, R) <= |X.vals| - N + 1 && UnarySpan(X, R) <= |X.vals|
  }

  /** The first call with `N > 1` recomputes all `|X|` numbers into
      `|X| - N + 1` cells: the write index goes below 0. */
  lemma FreshRunOutOfBounds(X: Series, N: nat)
    requires X.vals != [] && 1 < N <= |X.vals|
    ensures !InBounds(X, N, Fresh)
  {
  }

  /** As written, a recomputed cell for `N >= 2` folds the `N - 1` elements
      ending at its own element, one short of the window. */
  lemma WindowOneShort(kind: Kind, X: Series, N: nat, R: Series, p: int)
    requires 2 <= N <= |X.vals|
    requires 0 <= p <= |X.vals| - N && p >= |X.vals| - N + 1 - UnarySpan(X, R)
    ensures Calc(kind, X, N, R).vals[p]
         == Finish(kind, FoldDown(kind, X.vals[p + 1 .. p + N], Seed(kind, X.vals[p + N - 1])), N)
  {
  }

  /** As written, `MA(X, 1)` folds nothing and so is 0 at every recomputed
      cell. */
  lemma MeanOfOneIsZero(X: Series, R: Series, p: int)
    requires X.vals != []
    requires 0 <= p < |X.vals| && p >= |X.vals| - UnarySpan(X, R)
    ensures Calc(Mean, X, 1, R).vals[p] == Fin(0.0)
  {
  }

  /** `HHV(X, 0)` as written returns one cell more than `X` under `X`'s
      number, which breaks the numbering invariant when `X.no == |X|`. */
  lemma ZeroWindowBreaksNumbering(X: Series)
    requires X.vals != [] && X.no == |X.vals|
    ensures Valid(X) && !Valid(Calc(Highest, X, 0, Fresh))
  {
  }

  /** `MA([1,2,3,4], 2)`: the fresh run wants four cells in three, and the
      cells it can write hold half of one element, not a two-bar mean. */
  lemma MeanExampleAsWritten()
    ensures var X := Series([Fin(1.0), Fin(2.0), Fin(3.0), Fin(4.0)], 4);
      !InBounds(X, 2, Fresh)
      && Calc(Mean, X, 2, Fresh) == Series([Fin(1.0), Fin(1.5), Fin(2.0)], 4)
  {
    var X := Series([Fin(1.0), Fin(2.0), Fin(3.0), Fin(4.0)], 4);
    var r := Calc(Mean, X, 2, Fresh);
    assert X.vals[1..2] == [Fin(2.0)] && X.vals[2..3] == [Fin(3.0)] && X.vals[3..4] == [Fin(4.0)];
    assert r.vals[0] == Fin(1.0) && r.vals[1] == Fin(1.5) && r.vals[2] == Fin(2.0);
    assert r.vals == [Fin(1.0), Fin(1.5), Fin(2.0)];
  }

  /** The inner loop as written: `j = xi, count = 1` down while
      `j >= 0 && count < N`. */
  method CellLoop(kind: Kind, X: seq<Num>, xi: int, N: int) returns (res: Num)
    requires 0 <= xi < |X|
    ensures res == CellAsWritten(kind, X, xi, N)
  {
    var t := TermsAsWritten(xi, N);
    var lo := xi + 1 - t;
    res := Seed(kind, X[xi]);
    var j, count := xi, 1;
    while j >= 0 && count < N
      invariant -1 <= j <= xi && count == xi - j + 1
      invariant xi - j <= t
      invariant FoldDown(kind, X[lo .. xi + 1], Seed(kind, X[xi])) == FoldDown(kind, X[lo .. j + 1], res)
    {
      assert X[lo .. j + 1][.. j + 1 - lo - 1] == X[lo .. j];
      res := Step(kind, res, X[j]);
      j, count := j - 1, count + 1;
    }
    assert X[lo .. j + 1] == [];
    res := Finish(kind, res, N);
  }

  /** The outer loop of the source: numbers from `X.no` down to `bno`. */
  method CalcLoop(kind: Kind, X: Series, N: nat, R: Series) returns (r: Series)
    requires X.vals != [] && N <= |X.vals|
    requires kind == Mean ==> N >= 1
    requires InBounds(X, N, R)
    ensures r == Calc(kind, X, N, R)
  {
    var rsize := |X.vals| - N + 1;
    var buf := Resize(R.vals, rsize);
    var bno := if R.no != 0 then R.no else X.no - (|X.vals| - 1);
    var xi, ri := |X.vals| - 1, rsize - 1;
    var kno := X.no;
    while kno >= bno
      invariant ri == rsize - 1 - (X.no - kno) && xi == ri + N - 1
      invariant kno == X.no || kno >= bno - 1
      invariant |buf| == rsize
      invariant forall p :: ri < p < rsize ==> buf[p] == CellAsWritten(kind, X.vals, p + N - 1, N)
      invariant forall p :: 0 <= p <= ri ==> buf[p] == Resize(R.vals, rsize)[p]
    {
      var res := CellLoop(kind, X.vals, xi, N);
      buf := buf[ri := res];
      kno, xi, ri := kno - 1, xi - 1, ri - 1;
    }
    r := Series(buf, X.no);
    assert r.vals == Calc(kind, X, N, R).vals;
  }

  // -------------------------------------------------------------------
  // Corrected: windows of `N` elements, never below the first full one
  // -------------------------------------------------------------------

  /** `bno`, raised to the number of the first element with a full window. */
  function FixedStart(X: Series, N: nat, R: Series): int
  {
    Max(UnaryStart(X, R), FirstNo(X) + N - 1)
  }

  function FixedSpan(X: Series, N: nat, R: Series): int
  {
    X.no - FixedStart(X, N, R) + 1
  }

  /** The cell for element `xi` over its whole window `X[xi-N+1 ..= xi]`. */
  function CellFixed(kind: Kind, X: seq<Num>, xi: int, N: nat): Num
    requires 1 <= N && N - 1 <= xi < |X|
  {
    Finish(kind, FoldDown(kind, X[xi + 1 - N .. xi + 1], Seed(kind, X[xi])), N)
  }

  /** `HHV`/`LLV`/`MA(X, N)` as evidently intended. */
  function CalcFixed(kind: Kind, X: Series, N: nat, R: Series): (r: Series)
    requires 1 <= N <= |X.vals|
    ensures |r.vals| == |X.vals| - N + 1 && r.no == X.no
    ensures Valid(X) ==> Valid(r)
    ensures forall p :: 0 <= p < |r.vals| && p >= |r.vals| - FixedSpan(X, N, R) ==>
      r.vals[p] == CellFixed(kind, X.vals, p + N - 1, N)
    ensures forall p :: 0 <= p < |r.vals| && p < |r.vals| - FixedSpan(X, N, R) && p < |R.vals| ==>
      r.vals[p] == R.vals[p]
  {
    var n := |X.vals| - N + 1;
    var lo := n - FixedSpan(X, N, R);
    var base := Resize(R.vals, n);
    Series(seq(n, p requires 0 <= p < n => if p >= lo then CellFixed(kind, X.vals, p + N - 1, N) else base[p]),
           X.no)
  }

  /** The corrected start keeps every write inside the result, on the first
      call as on every later one. */
  lemma FixedInBounds(X: Series, N: nat, R: Series)
    requires 1 <= N <= |X.vals|
    ensures FixedSpan(X, N, R) <= |X.vals| - N + 1
  {
  }

  /** A fresh corrected run recomputes every cell. */
  lemma FixedFreshRecomputesAll(X: Series, N: nat)
    requires 1 <= N <= |X.vals|
    ensures FixedSpan(X, N, Fresh) == |X.vals| - N + 1
  {
  }

  /** Sum of a finite sequence, front to back: the reference definition. */
  function RealSum(w: seq<Num>): real
    requires AllFinite(w)
  {
    if w == [] then 0.0 else w[0].v + RealSum(w[1..])
  }

  lemma {:induction false} RealSumLast(w: seq<Num>)
    requires AllFinite(w) && w != []
    ensures RealSum(w) == RealSum(w[..|w| - 1]) + w[|w| - 1].v
  {
    if |w| > 1 {
      assert w[1..][..|w[1..]| - 1] == w[..|w| - 1][1..];
      RealSumLast(w[1..]);
    }
  }

  /** The `MA` fold adds up the window. */
  lemma {:induction false} SumFold(w: seq<Num>, a: real)
    requires AllFinite(w)
    ensures FoldDown(Mean, w, Fin(a)) == Fin(a + RealSum(w))
    decreases |w|
  {
    if w != [] {
      RealSumLast(w);
      SumFold(w[..|w| - 1], a + w[|w| - 1].v);
    }
  }

  /** The `HHV` fold over finite numbers is a maximum: a number at least the
      seed and every element, equal to one of them. */
  lemma {:induction false} HighFold(w: seq<Num>, acc: Num)
    requires AllFinite(w) && acc.Fin?
    ensures var m := FoldDown(Highest, w, acc);
      m.Fin? && m.v >= acc.v && (forall i :: 0 <= i < |w| ==> m.v >= w[i].v)
      && (m == acc || exists i :: 0 <= i < |w| && m == w[i])
    decreases |w|
  {
    if w != [] {
      var last := w[|w| - 1];
      var acc' := Step(Highest, acc, last);
      HighFold(w[..|w| - 1], acc');
      var m := FoldDown(Highest, w, acc);
      assert m == FoldDown(Highest, w[..|w| - 1], acc');
      forall i | 0 <= i < |w|
        ensures m.v >= w[i].v
      {
        if i < |w| - 1 {
          assert w[..|w| - 1][i] == w[i];
        }
      }
      if m != acc' {
        var i :| 0 <= i < |w| - 1 && m == w[..|w| - 1][i];
        assert m == w[i];
      } else if acc' == last {
        assert m == w[|w| - 1];
      }
    }
  }

  /** The `LLV` fold over finite numbers is a minimum. */
  lemma {:induction false} LowFold(w: seq<Num>, acc: Num)
    requires AllFinite(w) && acc.Fin?
    ensures var m := FoldDown(Lowest, w, acc);
      m.Fin? && m.v <= acc.v && (forall i :: 0 <= i < |w| ==> m.v <= w[i].v)
      && (m == acc || exists i :: 0 <= i < |w| && m == w[i])
    decreases |w|
  {
    if w != [] {
      var last := w[|w| - 1];
      var acc' := Step(Lowest, acc, last);
      LowFold(w[..|w| - 1], acc');
      var m := FoldDown(Lowest, w, acc);
      assert m == FoldDown(Lowest, w[..|w| - 1], acc');
      forall i | 0 <= i < |w|
        ensures m.v <= w[i].v
      {
        if i < |w| - 1 {
          assert w[..|w| - 1][i] == w[i];
        }
      }
      if m != acc' {
        var i :| 0 <= i < |w| - 1 && m == w[..|w| - 1][i];
        assert m == w[i];
      } else if acc' == last {
        assert m == w[|w| - 1];
      }
    }
  }

  /** Corrected `HHV`: on a finite window every recomputed cell is the
      largest of the `N` elements ending at its own element. */
  lemma FixedHighestIsWindowMax(X: Series, N: nat, R: Series, p: int)
    requires 1 <= N <= |X.vals|
    requires 0 <= p <= |X.vals| - N && p >= |X.vals| - N + 1 - FixedSpan(X, N, R)
    requires AllFinite(X.vals[p .. p + N])
    ensures var m := CalcFixed(Highest, X, N, R).vals[p];
      m.Fin? && (forall j :: p <= j < p + N ==> X.vals[j].Fin? && m.v >= X.vals[j].v)
      && (exists j :: p <= j < p + N && m == X.vals[j])
  {
    var w := X.vals[p .. p + N];
    assert forall j :: p <= j < p + N ==> X.vals[j] == w[j - p];
    HighFold(w, X.vals[p + N - 1]);
    var m := CalcFixed(Highest, X, N, R).vals[p];
    assert m == FoldDown(Highest, w, X.vals[p + N - 1]);
    if m == X.vals[p + N - 1] {
    } else {
      var i :| 0 <= i < |w| && m == w[i];
      assert m == X.vals[p + i];
    }
  }

  /** Corrected `LLV`: every recomputed cell is the smallest element of its
      window. */
  lemma FixedLowestIsWindowMin(X: Series, N: nat, R: Series, p: int)
    requires 1 <= N <= |X.vals|
    requires 0 <= p <= |X.vals| - N && p >= |X.vals| - N + 1 - FixedSpan(X, N, R)
    requires AllFinite(X.vals[p .. p + N])
    ensures var m := CalcFixed(Lowest, X, N, R).vals[p];
      m.Fin? && (forall j :: p <= j < p + N ==> X.vals[j].Fin? && m.v <= X.vals[j].v)
      && (exists j :: p <= j < p + N && m == X.vals[j])
  {
    var w := X.vals[p .. p + N];
    assert forall j :: p <= j < p + N ==> X.vals[j] == w[j - p];
    LowFold(w, X.vals[p + N - 1]);
    var m := CalcFixed(Lowest, X, N, R).vals[p];
    assert m == FoldDown(Lowest, w, X.vals[p + N - 1]);
    if m == X.vals[p + N - 1] {
    } else {
      var i :| 0 <= i < |w| && m == w[i];
      assert m == X.vals[p + i];
    }
  }

  /** Corrected `MA`: every recomputed cell is the simple mean of the `N`
      elements ending at its own element, as the documentation promises. */
  lemma FixedMeanIsWindowAverage(X: Series, N: nat, R: Series, p: int)
    requires 1 <= N <= |X.vals|
    requires 0 <= p <= |X.vals| - N && p >= |X.vals| - N + 1 - FixedSpan(X, N, R)
    requires AllFinite(X.vals[p .. p + N])
    ensures CalcFixed(Mean, X, N, R).vals[p] == Fin(RealSum(X.vals[p .. p + N]) / N as real)
  {
    SumFold(X.vals[p .. p + N], 0.0);
  }

  /** Corrected `MA([1,2,3,4], 2)` is `[1.5, 2.5, 3.5]`. */
  lemma MeanExampleFixed()
    ensures CalcFixed(Mean, Series([Fin(1.0), Fin(2.0), Fin(3.0), Fin(4.0)], 4), 2, Fresh)
         == Series([Fin(1.5), Fin(2.5), Fin(3.5)], 4)
  {
    var X := Series([Fin(1.0), Fin(2.0), Fin(3.0), Fin(4.0)], 4);
    var r := CalcFixed(Mean, X, 2, Fresh);
    FixedFreshRecomputesAll(X, 2);
    assert X.vals[0..2] == [Fin(1.0), Fin(2.0)];
    assert X.vals[1..3] == [Fin(2.0), Fin(3.0)];
    assert X.vals[2..4] == [Fin(3.0), Fin(4.0)];
    FixedMeanIsWindowAverage(X, 2, Fresh, 0);
    FixedMeanIsWindowAverage(X, 2, Fresh, 1);
    FixedMeanIsWindowAverage(X, 2, Fresh, 2);
    assert r.vals[0] == Fin(1.5) && r.vals[1] == Fin(2.5) && r.vals[2] == Fin(3.5);
    assert r.vals == [Fin(1.5), Fin(2.5), Fin(3.5)];
  }

  /** Incremental equivalence for the corrected operators. */
  lemma {:induction false} FixedIncrementalMatchesFresh(kind: Kind, X: Series, N: nat, ex: seq<Num>)
    requires Valid(X) && 1 <= N <= |X.vals|
    ensures CalcFixed(kind, Append(X, ex), N, CalcFixed(kind, X, N, Fresh))
         == CalcFixed(kind, Append(X, ex), N, Fresh)
  {
    var X' := Append(X, ex);
    var R0 := CalcFixed(kind, X, N, Fresh);
    FixedFreshRecomputesAll(X, N);
    FixedFreshRecomputesAll(X', N);
    assert FixedSpan(X', N, R0) == |ex| + 1;
    var a := CalcFixed(kind, X', N, R0);
    var b := CalcFixed(kind, X', N, Fresh);
    forall p | 0 <= p < |X'.vals| - N + 1
      ensures a.vals[p] == b.vals[p]
    {
      if p < |X.vals| - N {
        assert a.vals[p] == R0.vals[p];
        assert X'.vals[p .. p + N] == X.vals[p .. p + N];
      }
    }
    assert a.vals == b.vals;
  }
}

=== FILE: unparser.dfy ===
/** The inverse of the parser on its fully parenthesised fragment: a
    tree of non-negative integer literals, names, calls with arguments and
    arithmetic nodes is written back as tokens, and parsing those tokens
    gives the same tree with no report. This is the round trip the grammar
    of `parser.h` promises, and it holds whatever the error callback. */
module Unparser {
  import opened Common
  import opened Lexer
  import opened Ast
  import opened Literals
  import opened Parser

  /** A token that carries no text. */
  function Bare(t: Token): Tk { Tk(t, []) }

  /** The trees `Unparse` can write: decimal literals and negative
      integers have no token of their own, and a call with a null
      argument list is written `F()`, which the parser reports. */
  predicate Writable(e: Expr)
    decreases e
  {
    match e
    case IntLit(i) => i >= 0
    case DecLit(_) => false
    case Ident(_) => true
    case Call(_, NoList) => false
    case Call(_, ExprList(es)) => |es| >= 1 && forall a :: a in es ==> Writable(a)
    case Binary(l, op, r) => ArithTok(op) && Writable(l) && Writable(r)
  }

  /** Tokens for a tree: every arithmetic node is put in parentheses, so
      precedence never decides the shape. */
  function Unparse(e: Expr): (ts: seq<Tk>)
    requires Writable(e)
    ensures |ts| >= 1
    decreases e, 1
  {
    match e
    case IntLit(i) => [Tk(Int, Show(i))]
    case Ident(x) => [Tk(Id, x)]
    case Call(x, ExprList(es)) => [Tk(Id, x), Bare(LP)] + UnparseList(es) + [Bare(RP)]
    case Binary(l, op, r) => [Bare(LP)] + Unparse(l) + [Bare(op)] + Unparse(r) + [Bare(RP)]
  }

  /** Arguments separated by commas. */
  function UnparseList(es: seq<Expr>): (ts: seq<Tk>)
    requires |es| >= 1 && forall a :: a in es ==> Writable(a)
    ensures |ts| >= 1
    decreases es, 0
  {
    if |es| == 1 then Unparse(es[0])
    else Unparse(es[0]) + [Bare(Comma)] + UnparseList(es[1..])
  }

  /** A statement: name, operator, expression, `;`. */
  function UnparseStmt(s: Stmt): (ts: seq<Tk>)
    requires Writable(s.expr)
  {
    [Tk(Id, s.id), Bare(s.op)] + Unparse(s.expr) + [Bare(Semicolon)]
  }

  /** A formula: its statements in order, then EOF. */
  function UnparseStmts(ss: seq<Stmt>): (ts: seq<Tk>)
    requires forall s :: s in ss ==> Writable(s.expr)
  {
    if ss == [] then [] else UnparseStmt(ss[0]) + UnparseStmts(ss[1..])
  }

  function UnparseFormula(f: Formula): (ts: seq<Tk>)
    requires forall s :: s in f.stmts ==> Writable(s.expr)
  {
    UnparseStmts(f.stmts) + [Bare(Eof)]
  }

  /** The parser with `ts[0]` as its current token. */
  function At(ts: seq<Tk>, rep: seq<Report>, q: bool): P
    requires |ts| >= 1
  {
    P(ts[0], ts[1..], rep, q)
  }

  lemma WritableIsWellFormed(e: Expr)
    requires Writable(e)
    ensures WellFormed(e)
    decreases e
  {
    match e
    case Call(_, ExprList(es)) =>
      forall a | a in es ensures WellFormed(a) { WritableIsWellFormed(a); }
    case Binary(l, _, r) =>
      WritableIsWellFormed(l);
      WritableIsWellFormed(r);
    case _ =>
  }

  /** `parseUnaryExpr` reads exactly the tokens of a writable tree and
      builds that tree, leaving the next token current. Only a following
      `(` could change the reading, by turning a name into a call. */
  lemma {:induction false} UnaryRoundTrip(e: Expr, t: Tk, more: seq<Tk>, rep: seq<Report>, q: bool, h: Handler)
    requires Writable(e) && t.tok != LP
    ensures ParseUnary(At(Unparse(e) + [t] + more, rep, q), h) == Parsed(Some(e), P(t, more, rep, q))
    decreases e, 1
  {
    match e
    case IntLit(i) =>
      AtoiShow(i);
      assert At(Unparse(e) + [t] + more, rep, q) == P(Tk(Int, Show(i)), [t] + more, rep, q);
    case Ident(x) =>
      assert At(Unparse(e) + [t] + more, rep, q) == P(Tk(Id, x), [t] + more, rep, q);
    case Call(x, ExprList(es)) =>
      var p := At(Unparse(e) + [t] + more, rep, q);
      assert Unparse(e) == [Tk(Id, x), Bare(LP)] + UnparseList(es) + [Bare(RP)];
      CallTokens(x, UnparseList(es), t, more, rep, q);
      ListRoundTrip(es, [], Bare(RP), [t] + more, rep, q, h);
      assert [] + es == es;
      CallReads(p, h, ParseExprList(Advance(Advance(p)), h));
    case Binary(l, op, r) =>
      var rs := Unparse(r) + [Bare(RP)] + ([t] + more);
      var p := At(Unparse(e) + [t] + more, rep, q);
      var pop := P(Bare(op), rs, rep, q);
      assert Unparse(e) == [Bare(LP)] + Unparse(l) + [Bare(op)] + Unparse(r) + [Bare(RP)];
      BinaryTokens(Unparse(l), op, Unparse(r), t, more, rep, q);
      UnaryRoundTrip(l, Bare(op), rs, rep, q, h);
      UnaryRoundTrip(r, Bare(RP), [t] + more, rep, q, h);
      WritableIsWellFormed(l);
      BinaryStep(p, h, l, pop, r, P(Bare(RP), [t] + more, rep, q));
  }

  /** Where the parser stands inside the tokens `( ul op ur )` of an
      arithmetic node. */
  lemma BinaryTokens(ul: seq<Tk>, op: Token, ur: seq<Tk>, t: Tk, more: seq<Tk>, rep: seq<Report>, q: bool)
    requires |ul| >= 1 && |ur| >= 1
    ensures var rs := ur + [Bare(RP)] + ([t] + more);
      var p := At([Bare(LP)] + ul + [Bare(op)] + ur + [Bare(RP)] + [t] + more, rep, q);
      p.tok.tok == LP
      && Advance(p) == At(ul + [Bare(op)] + rs, rep, q)
      && Advance(P(Bare(op), rs, rep, q)) == At(rs, rep, q)
      && Advance(P(Bare(RP), [t] + more, rep, q)) == P(t, more, rep, q)
  {
    var rs := ur + [Bare(RP)] + ([t] + more);
    assert [Bare(LP)] + ul + [Bare(op)] + ur + [Bare(RP)] + [t] + more == [Bare(LP)] + (ul + [Bare(op)] + rs);
  }

  /** Where the parser stands inside the tokens `x ( us )` of a call. */
  lemma CallTokens(x: seq<char>, us: seq<Tk>, t: Tk, more: seq<Tk>, rep: seq<Report>, q: bool)
    requires |us| >= 1
    ensures var p := At([Tk(Id, x), Bare(LP)] + us + [Bare(RP)] + [t] + more, rep, q);
      p.tok == Tk(Id, x) && Advance(p).tok.tok == LP
      && Advance(Advance(p)) == At(us + [Bare(RP)] + ([t] + more), rep, q)
      && Advance(P(Bare(RP), [t] + more, rep, q)) == P(t, more, rep, q)
  {
    assert [Tk(Id, x), Bare(LP)] + us + [Bare(RP)] + [t] + more == [Tk(Id, x)] + ([Bare(LP)] + (us + [Bare(RP)] + ([t] + more)));
  }

  /** One unfolding of `parseIdOrFuncCall` on a call whose arguments
      parsed and were closed. */
  lemma CallReads(p: P, h: Handler, a: Parsed<seq<Expr>>)
    requires p.tok.tok == Id && Advance(p).tok.tok == LP
    requires a == ParseExprList(Advance(Advance(p)), h) && a.node.Some? && a.p.tok.tok == RP
    ensures ParseUnary(p, h) == Parsed(Some(Call(p.tok.text, ExprList(a.node.value))), Advance(a.p))
  {
  }

  /** The arithmetic case of `UnaryRoundTrip`: `(`, a left operand, an
      operator, a right operand and `)` read as one node. */
  lemma BinaryStep(p: P, h: Handler, l: Expr, pop: P, r: Expr, prp: P)
    requires p.tok.tok == LP && WellFormed(l) && ArithTok(pop.tok.tok) && prp.tok.tok == RP
    requires ParseUnary(Advance(p), h) == Parsed(Some(l), pop)
    requires ParseUnary(Advance(pop), h) == Parsed(Some(r), prp)
    ensures ParseUnary(p, h) == Parsed(Some(Binary(l, pop.tok.tok, r)), Advance(prp))
  {
    BinaryStops(l, pop, h, r, prp);
    ExprContinues(Advance(p), h, l, pop);
    ParenReads(p, h);
  }

  /** One unfolding of `parseUnaryExpr` on `(`. */
  lemma ParenReads(p: P, h: Handler)
    requires p.tok.tok == LP
    ensures ParseUnary(p, h)
      == (var e := ParseExpr(Advance(p), h); if e.p.tok.tok == RP then Parsed(e.node, Advance(e.p)) else Parsed(None, e.p))
  {
  }

  /** One unfolding of `parseExpr` when an operator follows the operand. */
  lemma ExprContinues(p: P, h: Handler, lhs: Expr, q: P)
    requires ParseUnary(p, h) == Parsed(Some(lhs), q) && ArithTok(q.tok.tok)
    ensures ParseExpr(p, h) == ParseBin(lhs, Prec(q.tok.tok), q, h)
  {
  }

  /** One unfolding of `parseBinaryExpr` when no operator follows the
      right operand. */
  lemma BinaryStops(lhs: Expr, p: P, h: Handler, rhs: Expr, q: P)
    requires WellFormed(lhs) && ArithTok(p.tok.tok)
    requires ParseUnary(Advance(p), h) == Parsed(Some(rhs), q) && Prec(q.tok.tok) < 0
    ensures ParseBin(lhs, Prec(p.tok.tok), p, h) == Parsed(Some(Binary(lhs, p.tok.tok, rhs)), q)
  {
  }

  /** `parseExpr` on a writable tree followed by a token that neither
      continues the expression nor opens a call. */
  lemma {:induction false} ExprRoundTrip(e: Expr, t: Tk, more: seq<Tk>, rep: seq<Report>, q: bool, h: Handler)
    requires Writable(e) && t.tok != LP && !ArithTok(t.tok)
    ensures ParseExpr(At(Unparse(e) + [t] + more, rep, q), h) == Parsed(Some(e), P(t, more, rep, q))
    decreases e, 2
  {
    UnaryRoundTrip(e, t, more, rep, q, h);
  }

  /** `parseExprList` (from `acc` on) reads a comma-separated argument
      list whole, with the token after it current. */
  lemma {:induction false} ListRoundTrip(es: seq<Expr>, acc: seq<Expr>, t: Tk, more: seq<Tk>, rep: seq<Report>, q: bool, h: Handler)
    requires |es| >= 1 && forall a :: a in es ==> Writable(a)
    requires forall a :: a in acc ==> WellFormed(a)
    requires t.tok != LP && t.tok != Comma && !ArithTok(t.tok)
    ensures ListLoop(At(UnparseList(es) + [t] + more, rep, q), h, acc, true) == Parsed(Some(acc + es), P(t, more, rep, q))
    decreases es, 0
  {
    WritableIsWellFormed(es[0]);
    if |es| == 1 {
      assert UnparseList(es) == Unparse(es[0]);
      ExprRoundTrip(es[0], t, more, rep, q, h);
      ListEnds(At(UnparseList(es) + [t] + more, rep, q), h, acc, es[0], P(t, more, rep, q));
      assert es == [es[0]];
    } else {
      var tail := UnparseList(es[1..]) + [t] + more;
      assert UnparseList(es) == Unparse(es[0]) + [Bare(Comma)] + UnparseList(es[1..]);
      CommaTokens(Unparse(es[0]), UnparseList(es[1..]), t, more, rep, q);
      ExprRoundTrip(es[0], Bare(Comma), tail, rep, q, h);
      ListContinues(At(UnparseList(es) + [t] + more, rep, q), h, acc, es[0], P(Bare(Comma), tail, rep, q));
      Regroup(es, acc);
      ListRoundTrip(es[1..], acc + [es[0]], t, more, rep, q, h);
    }
  }

  /** Where the parser stands inside the tokens `u , us` of an argument
      list. */
  lemma CommaTokens(u: seq<Tk>, us: seq<Tk>, t: Tk, more: seq<Tk>, rep: seq<Report>, q: bool)
    requires |u| >= 1 && |us| >= 1
    ensures At(u + [Bare(Comma)] + us + [t] + more, rep, q) == At(u + [Bare(Comma)] + (us + [t] + more), rep, q)
    ensures Advance(P(Bare(Comma), us + [t] + more, rep, q)) == At(us + [t] + more, rep, q)
  {
    assert u + [Bare(Comma)] + us + [t] + more == u + [Bare(Comma)] + (us + [t] + more);
  }

  /** One turn of `parseExprList` on an argument followed by `,`. */
  lemma ListContinues(p: P, h: Handler, acc: seq<Expr>, e: Expr, pc: P)
    requires forall a :: a in acc ==> WellFormed(a)
    requires ParseExpr(p, h) == Parsed(Some(e), pc) && pc.tok.tok == Comma
    ensures WellFormed(e)
    ensures ListLoop(p, h, acc, true) == ListLoop(Advance(pc), h, acc + [e], true)
  {
  }

  /** The last turn of `parseExprList`: no `,` after the argument. */
  lemma ListEnds(p: P, h: Handler, acc: seq<Expr>, e: Expr, pt: P)
    requires forall a :: a in acc ==> WellFormed(a)
    requires ParseExpr(p, h) == Parsed(Some(e), pt) && pt.tok.tok != Comma
    ensures ListLoop(p, h, acc, true) == Parsed(Some(acc + [e]), pt)
  {
  }

  /** `parseStmt` reads a written statement back, with `;` current. */
  lemma StmtRoundTrip(s: Stmt, more: seq<Tk>, rep: seq<Report>, q: bool, h: Handler)
    requires Writable(s.expr)
    ensures ParseStmt(At(UnparseStmt(s) + more, rep, q), h) == Parsed(Some(s), P(Bare(Semicolon), more, rep, q))
  {
    var ts := UnparseStmt(s) + more;
    assert ts == [Tk(Id, s.id), Bare(s.op)] + (Unparse(s.expr) + [Bare(Semicolon)] + more);
    var p1 := Advance(At(ts, rep, q));
    assert p1.tok == Bare(s.op);
    assert Advance(p1) == At(Unparse(s.expr) + [Bare(Semicolon)] + more, rep, q);
    ExprRoundTrip(s.expr, Bare(Semicolon), more, rep, q, h);
  }

  /** The formula loop appends every written statement in order and stops
      at EOF with no report. */
  lemma {:induction false} StmtsRoundTrip(ss: seq<Stmt>, t: Tk, acc: seq<Stmt>, h: Handler)
    requires forall s :: s in ss ==> Writable(s.expr)
    requires forall s :: s in acc ==> WellFormed(s.expr)
    ensures FormulaLoop(P(t, UnparseStmts(ss) + [Bare(Eof)], [], false), h, acc)
      == (acc + ss, P(Bare(Eof), [], [], false))
  {
    if ss == [] {
      EofReached(t, acc, h);
    } else {
      WritableIsWellFormed(ss[0].expr);
      FirstStatement(ss, t, acc, h);
      Regroup(ss, acc);
      StmtsRoundTrip(ss[1..], Bare(Semicolon), acc + [ss[0]], h);
    }
  }

  /** The first written statement is read and appended. */
  lemma FirstStatement(ss: seq<Stmt>, t: Tk, acc: seq<Stmt>, h: Handler)
    requires ss != [] && forall s :: s in ss ==> Writable(s.expr)
    requires forall s :: s in acc + [ss[0]] ==> WellFormed(s.expr)
    ensures FormulaLoop(P(t, UnparseStmts(ss) + [Bare(Eof)], [], false), h, acc)
      == FormulaLoop(P(Bare(Semicolon), UnparseStmts(ss[1..]) + [Bare(Eof)], [], false), h, acc + [ss[0]])
  {
    var more := UnparseStmts(ss[1..]) + [Bare(Eof)];
    StmtsTokens(ss, t);
    StmtRoundTrip(ss[0], more, [], false, h);
    StatementAppended(P(t, UnparseStmts(ss) + [Bare(Eof)], [], false), h, acc, ss[0], P(Bare(Semicolon), more, [], false));
  }

  lemma Regroup<T>(ss: seq<T>, acc: seq<T>)
    requires ss != []
    ensures acc + [ss[0]] + ss[1..] == acc + ss
  {
  }

  /** The loop stops at the closing EOF. */
  lemma EofReached(t: Tk, acc: seq<Stmt>, h: Handler)
    requires forall s :: s in acc ==> WellFormed(s.expr)
    ensures FormulaLoop(P(t, UnparseStmts([]) + [Bare(Eof)], [], false), h, acc)
      == (acc + [], P(Bare(Eof), [], [], false))
  {
    assert UnparseStmts([]) + [Bare(Eof)] == [Bare(Eof)];
    assert acc + [] == acc;
  }

  /** The next statement's tokens come first, starting with its name. */
  lemma StmtsTokens(ss: seq<Stmt>, t: Tk)
    requires ss != [] && forall s :: s in ss ==> Writable(s.expr)
    ensures var p := P(t, UnparseStmts(ss) + [Bare(Eof)], [], false);
      Advance(p) == At(UnparseStmt(ss[0]) + (UnparseStmts(ss[1..]) + [Bare(Eof)]), [], false)
      && Advance(p).tok.tok == Id
  {
    assert UnparseStmts(ss) + [Bare(Eof)] == UnparseStmt(ss[0]) + (UnparseStmts(ss[1..]) + [Bare(Eof)]);
  }

  /** One turn of `parseFormula` on a statement that parses. */
  lemma StatementAppended(p: P, h: Handler, acc: seq<Stmt>, s: Stmt, q: P)
    requires forall a :: a in acc ==> WellFormed(a.expr)
    requires Advance(p).tok.tok == Id && ParseStmt(Advance(p), h) == Parsed(Some(s), q)
    ensures WellFormed(s.expr)
    ensures FormulaLoop(p, h, acc) == FormulaLoop(q, h, acc + [s])
  {
  }

  /** Parsing a written formula gives it back, with no report. */
  lemma ParseUnparse(f: Formula, h: Handler)
    requires forall s :: s in f.stmts ==> Writable(s.expr)
    ensures ParseFormula(UnparseFormula(f), h) == (f, [])
  {
    StmtsRoundTrip(f.stmts, Tk(NoneTk, []), [], h);
    assert [] + f.stmts == f.stmts;
  }
}

=== FILE: values.dfy ===
/** The series value model of `indicators.h`/`indicators.cpp`.

    A `Value` is an int scalar, a double scalar or a numbered window of
    doubles. A window (`Series`) keeps its elements in order and the number
    `no` of its newest element; numbers start at 1 and `no` may exceed the
    window length, so the element at position `i` has number
    `no - (|vals| - 1 - i)`.

    Doubles are reals with a single not-a-number marker; rounding and
    infinities are not modelled. */
module Values {
  import opened Common

  /** A double: a finite real or the NaN marker. */
  datatype Num = Fin(v: real) | NaN

  function Plus(a: Num, b: Num): Num
  {
    if a.Fin? && b.Fin? then Fin(a.v + b.v) else NaN
  }

  function Minus(a: Num, b: Num): Num
  {
    if a.Fin? && b.Fin? then Fin(a.v - b.v) else NaN
  }

  function Times(a: Num, b: Num): Num
  {
    if a.Fin? && b.Fin? then Fin(a.v * b.v) else NaN
  }

  /** IEEE division where the divisor is known to be nonzero or NaN. */
  function Quot(a: Num, b: Num): Num
  {
    if a.Fin? && b.Fin? && b.v != 0.0 then Fin(a.v / b.v) else NaN
  }

  /** `a > b` on doubles: false whenever a NaN is involved. */
  predicate Greater(a: Num, b: Num)
  {
    a.Fin? && b.Fin? && a.v > b.v
  }

  /** `a < b` on doubles: false whenever a NaN is involved. */
  predicate Less(a: Num, b: Num)
  {
    a.Fin? && b.Fin? && a.v < b.v
  }

  /** A numbered window: `vals[|vals|-1]` has number `no`. */
  datatype Series = Series(vals: seq<Num>, no: int)

  /** The numbering invariant of the `no` field: `no >= size >= 0`. */
  predicate Valid(s: Series)
  {
    s.no >= |s.vals|
  }

  /** Number of the first element (`xbno` in the source). */
  function FirstNo(s: Series): int
  {
    s.no - (|s.vals| - 1)
  }

  /** Number carried by position `i`. */
  function NumberAt(s: Series, i: int): int
  {
    s.no - (|s.vals| - 1 - i)
  }

  /** The element carrying number `n`, when the window holds it. */
  function ByNumber(s: Series, n: int): Option<Num>
  {
    var i := |s.vals| - 1 - (s.no - n);
    if 0 <= i < |s.vals| then Some(s.vals[i]) else None
  }

  /** Every element of `w` is a number. */
  predicate AllFinite(w: seq<Num>)
  {
    forall i :: 0 <= i < |w| ==> w[i].Fin?
  }

  /** The output slot an operator allocates on its first call (`valueNew`):
      empty, numbered 0. */
  const Fresh: Series := Series([], 0)

  /** `bno` of the one-operand operators: the previous output's number
      when it has one, else the number of `X`'s first element. */
  function UnaryStart(X: Series, R: Series): int
  {
    if R.no != 0 then R.no else FirstNo(X)
  }

  /** How many numbers a one-operand operator recomputes: `bno ..= X.no`. */
  function UnarySpan(X: Series, R: Series): int
  {
    X.no - UnaryStart(X, R) + 1
  }

  /** The window with `more` appended as the next `|more|` numbers. */
  function Append(s: Series, more: seq<Num>): (r: Series)
    ensures Valid(s) ==> Valid(r)
    ensures FirstNo(r) == FirstNo(s)
  {
    Series(s.vals + more, s.no + |more|)
  }

  /** `valueExtend` followed by `R->size = n`: cells kept from the old
      window, cells beyond it unspecified (modelled as NaN). */
  function Resize(vals: seq<Num>, n: nat): (r: seq<Num>)
    ensures |r| == n
    ensures forall i :: 0 <= i < n && i < |vals| ==> r[i] == vals[i]
  {
    if n <= |vals| then vals[..n] else vals + seq(n - |vals|, _ => NaN)
  }

  /** A `Value`: exactly one of the three kinds sharing the union slot. */
  datatype Value = IntV(i: int) | DoubleV(f: real) | ArrayV(s: Series)

  const TYPE_INT: int := 1
  const TYPE_DOUBLE: int := 2
  const TYPE_ARRAY: int := 3

  /** The `type` tag of a value. */
  function TypeTag(v: Value): (t: int)
    ensures t == TYPE_INT <==> v.IntV?
    ensures t == TYPE_DOUBLE <==> v.DoubleV?
    ensures t == TYPE_ARRAY <==> v.ArrayV?
  {
    match v
    case IntV(_) => TYPE_INT
    case DoubleV(_) => TYPE_DOUBLE
    case ArrayV(_) => TYPE_ARRAY
  }

  /** `size` of a value: a scalar is created by `valueNew`, which sets
      `size = 0`, and nothing later changes it. */
  function Size(v: Option<Value>): nat
  {
    if v.Some? && v.value.ArrayV? then |v.value.s.vals| else 0
  }

  /** The window behind a non-empty value. */
  function Window(v: Option<Value>): Series
    requires Size(v) > 0
  {
    v.value.s
  }

  /** The window an operator updates: its previous output, or a fresh one
      when there is none (a non-array output slot is treated as fresh). */
  function Output(r: Option<Value>): Series
  {
    if r.Some? && r.value.ArrayV? then r.value.s else Fresh
  }

  // ---------------------------------------------------------------------
  // The raw record behind a window: buffer, size, capacity, ownership.
  // ---------------------------------------------------------------------

  /** The C `Value` record for the array kind: `values` is `None` for a
      null buffer. */
  datatype Raw = Raw(isOwnMem: bool, values: Option<seq<Num>>, size: int, capacity: int, no: int)

  /** `valueNew` as written: it sets `isOwnMem`, `i`, `f`, `values`,
      `size` and `no`. It sets neither `capacity`, which is whatever the
      allocator left there (`garbage`), nor `type`, which this record
      does not carry. */
  function ValueNew(garbage: int): (v: Raw)
    ensures v.size == 0 && v.no == 0 && !v.isOwnMem && v.values.None?
    ensures v.capacity == garbage
  {
    Raw(false, None, 0, garbage, 0)
  }

  /** Result of `valueExtend`: the success flag and the record. */
  datatype Extended = Extended(ok: bool, v: Raw)

  /** `valueExtend(v, size)`: grows the buffer to exactly `size` cells when
      the recorded capacity is smaller. `allocOk` is the allocator's answer. */
  function ValueExtend(v: Raw, size: int, allocOk: bool): (r: Extended)
    requires size >= 0
    ensures r.v.size == v.size && r.v.no == v.no
    ensures !r.ok ==> r.v == v
    ensures r.ok ==> r.v.capacity >= size
    ensures v.capacity < size && r.ok ==>
      r.v.isOwnMem && r.v.values.Some? && |r.v.values.value| == size
    ensures r.v.values.Some? && v.values.Some? ==>
      forall i :: 0 <= i < |v.values.value| && i < |r.v.values.value| ==>
        r.v.values.value[i] == v.values.value[i]
    ensures v.capacity >= size ==> r == Extended(true, v)
  {
    if v.capacity < size then
      if !allocOk then Extended(false, v)
      else
        var prev := if v.values.Some? then v.values.value else [];
        Extended(true, v.(isOwnMem := true, values := Some(Resize(prev, size)), capacity := size))
    else
      Extended(true, v)
  }

  /** The memory-safety side of `valueGet`/`valueSet`: the two asserts of
      the source (non-null buffer, index below `size`) plus the buffer
      really holding `size` cells. */
  predicate Addressable(v: Raw, i: int)
  {
    v.values.Some? && 0 <= i < v.size && v.size <= |v.values.value|
  }

  /** `valueGet`: one of the `size` cells in use. */
  function ValueGet(v: Raw, i: int): (f: Num)
    requires Addressable(v, i)
    ensures f in v.values.value[..v.size]
  {
    v.values.value[i]
  }

  /** Growing to at least the current size keeps every cell readable
      with the value it had. */
  lemma ExtendKeepsGet(v: Raw, size: int, allocOk: bool, i: int)
    requires Addressable(v, i) && v.size <= size
    ensures var r := ValueExtend(v, size, allocOk);
      Addressable(r.v, i) && ValueGet(r.v, i) == ValueGet(v, i)
  {
  }

  /** `valueSet`: changes exactly cell `i`. */
  function ValueSet(v: Raw, i: int, f: Num): (r: Raw)
    requires Addressable(v, i)
    ensures r.values.Some? && |r.values.value| == |v.values.value|
    ensures Addressable(r, i) && ValueGet(r, i) == f
    ensures forall j :: 0 <= j < |v.values.value| && j != i ==> r.values.value[j] == v.values.value[j]
    ensures r.size == v.size && r.capacity == v.capacity && r.no == v.no && r.isOwnMem == v.isOwnMem
  {
    v.(values := Some(v.values.value[i := f]))
  }

  /** A fresh record whose stale capacity is at least the requested size
      keeps its null buffer through `valueExtend`, so no cell of it can be
      set afterwards, although `valueExtend` reported success. */
  lemma NewThenExtendLeavesNull(garbage: int, n: int, allocOk: bool)
    requires 1 <= n <= garbage
    ensures ValueExtend(ValueNew(garbage), n, allocOk).ok
    ensures ValueExtend(ValueNew(garbage), n, allocOk).v.values.None?
    ensures forall i :: !Addressable(ValueExtend(ValueNew(garbage), n, allocOk).v, i)
  {
  }

  /** `valueNew` with `capacity` initialised to 0. */
  function ValueNewFixed(): (v: Raw)
    ensures v.size == 0 && v.no == 0 && v.capacity == 0 && v.values.None?
  {
    Raw(false, None, 0, 0, 0)
  }

  /** With the corrected `valueNew`, a successful `valueExtend` to `n >= 1`
      always yields an owned buffer of `n` cells, so once `size` is set to
      `n` every cell below it is addressable. */
  lemma FixedNewThenExtendOwns(n: int, allocOk: bool)
    requires n >= 1
    ensures var r := ValueExtend(ValueNewFixed(), n, allocOk);
      r.ok ==>
        (r.v.isOwnMem && r.v.values.Some? && |r.v.values.value| == n
         && forall i :: 0 <= i < n ==> Addressable(r.v.(size := n), i))
  {
  }
}
